=== FILE: README.md ===
# fuse-wear core, modelled in Dafny

fuse-wear is a Django REST backend for an online clothing shop. This project
models the part of it that decides things:

- the cart: one cart per user, one line per product, and the live subtotal and total;
- cart-item validation: the product lookup, the stock check and the frontend output shape;
- the catalog: stock and release predicates, category names and ordering, the one-primary-image constraint;
- product creation: the price check, the read-only counters, and the nested image and tag rows;
- the product sections: bestsellers, trending and new arrivals;
- the trending score, the aggregated order information and the periodic rescoring sweep;
- users: username, e-mail, URL and password validation, account creation and the activity log;
- orders: the status choices, the order request's field checks, owner stamping, the nested order lines, staff-versus-owner visibility and the deletion rules;
- reviews: rating and comment bounds, one review per product and user, and the reply cascade;
- payments: the create-intent request, the Stripe webhook as a decision table, the payment output and the payment history.

Every table is an immutable `seq` of rows. Operations are pure functions
from one database state to the next, and they return `Result` values for
their error paths. Money is integer cents, because the source's
`DecimalField`s have two places. The trending score is an exact `real`.
Timestamps are integers on one clock.

The Stripe API, the signature check, the username, e-mail, URL and IP
address syntax checks and password hashing are parameters or abstract
values. Required text fields are trimmed and refused when blank, as the
framework's `CharField` does. The orderings the source declares are
modelled in two ways. The newest-first and top-N reads of products,
activities, reviews and payments are a descending sort (`Ranking.SortDesc`)
applied when the rows are read. Two tables are kept in their declared order
as rows are written instead. Categories (`ordering = ['name']`, ascending)
are inserted in name order by `Catalog.InsertByName`. Cart lines
(`ordering = ['-added_at']`) are prepended by `CartModels.InsertItem`, so
the newest line comes first.

Files, one module each:
`wrappers.dfy` (Option, Result, filtering), `text.dfy` (number, decimal and
trimmed text), `http.dfy` (status codes), `ranking.dfy` (sorting and top-N), `catalog.dfy`, `product_views.dfy`,
`product_serializers.dfy`, `trending.dfy`, `users.dfy`, `cart.dfy`,
`cart_serializers.dfy`, `cart_views.dfy`, `orders.dfy`, `reviews.dfy`,
`payments.dfy`.

## Model

| member | source | states |
|---|---|---|
| Ranking.Insert | src/product/views.py:30 | inserting into a descending sequence keeps it descending and adds exactly the new element |
| Ranking.SortDesc | src/product/views.py:30 | `order_by('-key')`: the result is non-increasing in the key and a permutation of the input |
| Ranking.TopNShape | src/product/views.py:30 | the `[:10]` slice of the sorted rows has min(n, size) rows, is non-increasing and is drawn from the input |
| Ranking.TopNMaximal | src/product/views.py:30 | no row left out of the top n has a larger key than the last row taken |
| Ranking.TopNDistinct | src/product/views.py:30 | a selection from duplicate-free rows is duplicate-free |
| Text.ParseNat | src/cart/serializers.py:89 | a string reads as a number exactly when it is non-empty and all digits |
| Text.NatToStringDigits | src/cart/serializers.py:89 | `str(id)` is a non-empty string of digits |
| Text.ParseNatToString | src/cart/serializers.py:89 | `str(id)` reads back as the same id |
| Text.NatToStringInjective | src/cart/serializers.py:89 | different ids print differently |
| Text.CentsToStringRoundTrip | src/cart/serializers.py:91 | a non-negative amount printed with two places reads back as the same number of cents |
| Text.DecimalRoundTrip | src/cart/serializers.py:91 | any amount, negative ones included, printed with two places reads back as the same number of cents |
| Text.InvalidPkMessageNamesPk | src/product/serializers.py:55-59 | the "object does not exist" message for a missing primary key carries that key, which reads back from between the message's fixed prefix and suffix |
| Text.Strip | src/user/serializers.py:5-6 | trimming removes leading and trailing whitespace only: the result is empty exactly when the value is whitespace alone, and otherwise starts and ends with a non-space character |
| Text.StripOption | src/payments/serializers.py:5 | an absent value stays absent; a present one is trimmed, and is empty exactly when it was whitespace alone |
| Text.StripIdempotent | src/user/serializers.py:5-6 | trimming an already trimmed value changes nothing |
| Text.StripPadding | src/cart/serializers.py:43-52 | whitespace added on either side of a value disappears when it is trimmed |
| Text.LexLeTotal | src/product/models.py:14 | any two category names are ordered one way or the other |
| Text.LexLeAntisymmetric | src/product/models.py:14 | two names ordered both ways are equal |
| Text.LexLeTransitive | src/product/models.py:14 | the name order is transitive |
| Catalog.IsReleased | src/product/models.py:56-57 | a product without a release date is not released; one dated now is released, and one dated later is not |
| Catalog.ReleaseIsPermanent | src/product/models.py:56-57 | a released product stays released as time passes |
| Catalog.IsInStock | src/product/models.py:59-60 | a product is in stock exactly when its stock is at least one; a stock of zero is out of stock |
| Catalog.FindProduct | src/cart/serializers.py:72 | `Product.objects.get(id=...)` finds a product with that id exactly when one exists |
| Catalog.InsertByName | src/product/models.py:14 | a category is placed so that the list stays in name order, with nothing lost or duplicated |
| Catalog.AddCategory | src/product/models.py:7-9 | a category with a fresh id is refused exactly when its name, or its non-null slug, is taken; otherwise the list stays in name order, its id names only the new category, and names stay unique |
| Catalog.InsertByNameUnique | src/product/models.py:7 | inserting a fresh name into a list of unique names keeps the names unique |
| Catalog.DeleteCategory | src/product/models.py:21 | deleting a category removes exactly that category; no product refers to it afterwards; products only lose the category link and keep every other column |
| Catalog.AddImage | src/product/models.py:76 | an image row is refused exactly when it is a second primary image for its product; otherwise it is appended and at most one primary image per product remains |
| ProductViews.ListProducts | src/product/models.py:51 | the default product list holds every product, newest-created first |
| ProductViews.Section | src/product/views.py:30 | a section holds min(10, candidates) rows in non-increasing key order, drawn from the candidates, and nothing left out outranks the last row |
| ProductViews.Bestsellers | src/product/views.py:29-35 | status 200 and at most 10 products by non-increasing sales count; no product left out has more sales than the last one shown |
| ProductViews.Trending | src/product/views.py:39-45 | status 200 and at most 10 products by non-increasing trending score; no product left out scores above the last one shown |
| ProductViews.Released | src/product/views.py:50 | the filter keeps exactly the products whose release date is set and not after now |
| ProductViews.NewArrivals | src/product/views.py:49-55 | status 200, at most 10 products, each in the catalog and released |
| ProductViews.NewArrivalsOrdered | src/product/views.py:50 | new arrivals come by non-increasing release date |
| ProductViews.NewArrivalsTopN | src/product/views.py:50 | a released product that is missing from new arrivals means the page is full and that product was released no later than the last one shown |
| ProductViews.PageFullWhenSomethingLeftOut | src/product/views.py:30 | a candidate is left out of a section only when the section has 10 rows |
| ProductViews.EmptyCatalogSections | src/product/views.py:31-33 | an empty catalog gives an empty list with status 200 in every section |
| ProductViews.SectionsDuplicateFree | src/product/views.py:30 | no section shows a product twice |
| ProductSerializers.ValidatePrice | src/product/serializers.py:101-104 | a price is refused with "Price cannot be negative." exactly when it is negative; any other price comes back unchanged |
| ProductSerializers.PriceField | src/product/models.py:24 | the price pipeline accepts exactly the prices from 0 to 99999999.99 (ten digits, two after the point) and returns them unchanged; a price with more digits is refused for its digits |
| ProductSerializers.NegativePriceRefusedBeforeHook | src/product/serializers.py:101-103 | a negative price that fits the column is refused by the field's own minimum before `validate_price` runs, so clients see the minimum's message |
| ProductSerializers.PriceDigitBoundary | src/product/models.py:24 | 99999999.99 is accepted, and one cent more is refused for its digits |
| ProductSerializers.TextFieldErrors | src/product/models.py:22-23 | a name or description has no error exactly when it is present, not blank (whitespace alone is blank) and, with a limit, no longer than the limit once trimmed |
| ProductSerializers.ValidateTagEntry | src/product/serializers.py:26-30 | a tag entry is valid exactly when `tag_id` is present and names a known tag; the validated entry keeps the tag and the image |
| ProductSerializers.ValidatedTags | src/product/serializers.py:52 | validated tag entries match the request entries one for one |
| ProductSerializers.TagEntryErrors | src/product/serializers.py:52 | the tag entries give no error exactly when every entry validates |
| ProductSerializers.ValidateProduct | src/product/serializers.py:50-80 | validation fails exactly when some field error exists, and reports all of them; on success the name (at most 255 characters) and description are the trimmed, non-empty request values, the price is the request's and fits the column, the category exists, stock defaults to 0, the launch flag to false, and images and tags come from the request |
| ProductSerializers.StockAboveMaximumRefused | src/product/models.py:35 | a stock one above the column's maximum is refused, with the maximum's message for `current_stock` |
| ProductSerializers.CreatedStockInRange | src/product/models.py:35 | a valid request stores its product row even when a later write fails, and the row holds the request's stock, or 0 when none is sent, and never more than the column's maximum |
| ProductSerializers.BlankNameRefused | src/product/models.py:22 | a name of whitespace alone is refused, and the first error is the blank name |
| ProductSerializers.ProductRow | src/product/models.py:27-29 | a new product starts with zero sales, zero views and a zero trending score |
| ProductSerializers.StoredRow | src/product/signals.py:19-21 | the row left after creation is the created row with its aggregated order information replaced by zero orders and zero revenue |
| ProductSerializers.NewProductAggregatesNothing | src/product/signals.py:19-21 | a valid request stores its product row with zero orders and zero revenue as aggregated order information, whatever the request sent |
| ProductSerializers.ImageRow | src/product/models.py:67-68 | an image row belongs to the product it was created for; alt text defaults to "Image" and the primary flag to false |
| ProductSerializers.CreateImages | src/product/serializers.py:89-90 | one image row per entry, in order, each linked to the product; a refused primary image stops the loop, and the rows before it stay |
| ProductSerializers.TagRowForGrows | src/product/serializers.py:39-46 | a tag row that records its entry still does so after more image rows are written |
| ProductSerializers.CreateTags | src/product/serializers.py:93-97 | as intended: one tag row per entry, linked to the product, with an image row for the same product exactly when the entry has image data |
| ProductSerializers.WriteTags | src/product/serializers.py:93-97 | the tag loop changes only the image and tag tables and keeps the rows already there |
| ProductSerializers.WriteProductAndImages | src/product/serializers.py:86-90 | the product row, as the post-save receiver leaves it, is appended under the next id, followed by its image rows |
| ProductSerializers.CreateFromData | src/product/serializers.py:86-97 | given validated data, the product row is appended under the next id with default counters and no aggregated orders, followed by exactly its image rows and one linked tag row per entry; earlier rows are kept and at most one primary image per product remains |
| ProductSerializers.CreateProduct | src/product/serializers.py:82-99 | an invalid request writes nothing; a successful one adds one product with default counters and no aggregated orders, exactly its image rows and exactly one linked tag row per entry; at most one primary image per product is kept |
| ProductSerializers.ImagesSurviveTags | src/product/serializers.py:89-97 | the image rows written by the image loop survive the tag loop unchanged |
| ProductSerializers.CountersAreReadOnly | src/product/serializers.py:77-80 | client values for sales count, views count and trending score change nothing that is created |
| ProductSerializers.OrderInfoIsReadOnly | src/product/signals.py:19-21 | a client value for the aggregated order information changes nothing that is created |
| ProductSerializers.ValidateCarriesOrderInfo | src/product/serializers.py:50-80 | validation neither checks nor refuses the aggregated order information; it only carries the sent value along |
| ProductSerializers.CreateIgnoresOrderInfo | src/product/serializers.py:86 | creation from validated data stores the same rows whatever aggregated order information the data carries |
| ProductSerializers.NestedTagEntryRefused | src/product/serializers.py:95-96 | every validated tag entry fails revalidation with `tag_id` required |
| ProductSerializers.CreateProductAsWritten | src/product/serializers.py:82-99 | as written, creating a product never writes a tag row |
| ProductSerializers.TagEntriesNeverCreatedAsWritten | src/product/serializers.py:93-97 | as written, a valid request with tag entries fails after the product row is stored, while the intended version creates one tag row per entry |
| Trending.TrendingScore | src/product/utils.py:3-7 | no sales and no views score 0; with non-negative weights the score is never negative; with no views it is the weighted sales, and with no sales the weighted views |
| Trending.ScoreMonotone | src/product/utils.py:3-7 | with non-negative weights, more sales or views never lower the score |
| Trending.ScoreExample | src/product/utils.py:3-7 | 10 sales and 100 views score 37 with the default weights 0.7 and 0.3 |
| Trending.AggregateOrderInfo | src/product/utils.py:10-18 | total orders is the sales count and revenue is that count times the current price, never negative for a valid price |
| Trending.AggregateOrderInfoExample | src/product/utils.py:15-17 | price 999.99 and 10 sales give revenue 9999.90 and 10 orders |
| Trending.AggregateOrderInfoMonotone | src/product/utils.py:15-17 | at one price, more sales never lower total orders or revenue, and each extra sale adds the price to the revenue |
| Trending.UnsoldProductHasNoOrders | src/product/utils.py:15-17 | a product without sales aggregates to no orders and no revenue |
| Trending.RecordOrderInfo | src/product/signals.py:19-21 | saving a product writes its aggregated order information and no other column |
| Trending.Sweep | src/product/tasks.py:15-20 | the sweep keeps every product, sets each score to the default-weight score and writes no other column |
| Trending.UpdateTrendingScores | src/product/tasks.py:8-20 | the loop gives each product 0.7 × sales + 0.3 × views, changes nothing else, and agrees with the sweep |
| Trending.SweepIdempotent | src/product/tasks.py:15-20 | a second sweep with no counter changes leaves the catalog as it is |
| Trending.SweepIsLocal | src/product/tasks.py:17 | a product's new score depends only on that product |
| Trending.SweepKeepsIds | src/product/tasks.py:20 | the sweep keeps every primary key, so ids stay unique |
| Trending.SweepWithReceiver | src/product/signals.py:19-21 | with the post-save receiver that each save in the sweep triggers, every product gets its default-weight score and its aggregated order information, and no other column changes |
| Trending.ReceiverOnlyAddsOrderInfo | src/product/tasks.py:20 | the receiver changes nothing the sweep writes: the two agree on every column except the aggregated order information |
| Users.ParseAction | src/user/serializers.py:30 | an accepted action string is exactly the code of the action it names |
| Users.ActionCodesRoundTrip | src/user/models.py:25-31 | each action's code reads back as that action, and exactly the four listed codes are accepted |
| Users.CleanProfileImage | src/user/models.py:12-19 | the profile URL is refused with "Invalid profile image URL." exactly when it is set, non-empty and not a valid URL |
| Users.EmptyUrlSkipsValidation | src/user/models.py:14 | an absent or empty profile URL is never checked |
| Users.ValidatePasswords | src/user/serializers.py:13-21 | the passwords are refused exactly when either one is non-empty and they differ; otherwise the data comes back unchanged |
| Users.PasswordFieldErrors | src/user/serializers.py:5-6 | there is no field error exactly when both passwords are present (unless the update is partial) and neither is blank, whitespace alone counting as blank |
| Users.FieldCheck | src/user/serializers.py:5-6 | a required password field has no error exactly when it is present (or the update is partial) and not blank, whitespace alone counting as blank |
| Users.ValidateUser | src/user/serializers.py:4-21 | the username, e-mail, URL and password field errors come first and are returned as found; without them validation passes exactly when the trimmed passwords pass the match check, and the trimmed data comes back |
| Users.UsernameErrors | src/user/serializers.py:10 | the username is accepted exactly when it is present (or the update is partial), not blank and, once trimmed, matches the username pattern, belongs to no other user and has at most 150 characters; a taken name is reported as taken |
| Users.OptionalTextErrors | src/user/serializers.py:10 | an e-mail or profile URL is accepted exactly when it is absent, blank, or once trimmed within its length limit and valid |
| Users.RegistrationAccepted | src/user/serializers.py:4-21 | a registration passes exactly when the username is acceptable and free, the e-mail and URL are absent, blank or valid, and the password is present, not blank and equal to the confirmation once both are trimmed |
| Users.PaddedPasswordAccepted | src/user/serializers.py:5 | whitespace after the password never changes the outcome of validation |
| Users.CreateUser | src/user/serializers.py:23-26 | creation fails exactly when the confirmation key is missing (reported first) or the username is missing or empty; otherwise the user has the given username and other fields, its password is stored hashed, and it is not staff |
| Users.RegisteredUserCreated | src/user/serializers.py:23-26 | a registration that validates always creates its user, with the trimmed, non-empty and free username and the trimmed password, hashed |
| Users.CreateIgnoresConfirmation | src/user/serializers.py:24 | the confirmation's value never reaches the created user |
| Users.RecordActivity | src/user/serializers.py:29-35 | an activity is accepted exactly when its user exists, its action is a listed choice and a non-blank IP address is valid; an unknown user and an invalid choice are each reported; the appended row has the server's id and time and the trimmed IP address, or none when it is blank |
| Users.ReadOnlyActivityFields | src/user/serializers.py:35 | client-sent id and timestamp change nothing |
| Users.ActivitiesOf | src/user/models.py:34 | exactly the user's own activities |
| Users.ListActivities | src/user/models.py:45 | the user's activities, all of them and only them, newest first |
| Users.LatestActivityFirst | src/user/models.py:45 | a newly recorded activity heads its user's list |
| Users.DeleteUserActivities | src/user/models.py:34 | deleting a user removes exactly that user's activities |
| Users.DeletedUserHasNoActivities | src/user/models.py:34 | after deletion the user's list is empty and every other user's list is unchanged |
| Users.SetNull | src/payments/models.py:5 | deleting the referenced user clears exactly the references to that user and keeps every other reference |
| CartModels.FindCart | src/cart/models.py:7 | a user's cart is found exactly when one exists |
| CartModels.ItemsOf | src/cart/models.py:20 | exactly the lines of one cart |
| CartModels.ItemInStock | src/cart/models.py:39-40 | a line of one unit is in stock exactly when its product is; with no stock, only a line of no units is |
| CartModels.Subtotal | src/cart/models.py:36-37 | one unit costs the price; with a non-negative price, a line of at least one unit costs at least the price |
| CartModels.Total | src/cart/models.py:15-16 | no lines total 0, and one line totals its subtotal |
| CartModels.ItemInStockVersusProduct | src/cart/models.py:39-40 | a line in stock means its product is in stock; an in-stock product can still leave a line short when the quantity exceeds the stock |
| CartModels.TotalAppend | src/cart/models.py:15-16 | adding a line adds its subtotal to the total |
| CartModels.TotalNonNegative | src/cart/models.py:15-16 | with valid prices and positive quantities the total is never negative |
| CartModels.GetTotal | src/cart/models.py:15-16 | the loop's sum over the given lines equals the sum of their subtotals, and no lines total 0 |
| CartModels.CartTotal | src/cart/models.py:15-16 | a cart's total is the sum of the subtotals of exactly its own lines, and a cart whose lines are all elsewhere totals 0 |
| CartModels.OtherCartLineIgnored | src/cart/models.py:20 | a line of another cart never enters this cart's lines, so it never changes this cart's total |
| CartModels.FindProductAt | src/cart/models.py:21 | with unique ids, a line's product resolves to that product's row |
| CartModels.SubtotalTracksPrice | src/cart/models.py:36-37 | a subtotal follows the product's current price: repricing a product changes its lines to new price × quantity and leaves other lines alone |
| CartModels.InsertItem | src/cart/models.py:20-30 | a line is refused exactly when its quantity is outside the column's range, the cart already has that product, the cart does not exist or the product does not exist; otherwise it is prepended with colour and size defaulting to "Default", and the cart invariants hold |
| CartModels.VariantIsNotPartOfKey | src/cart/models.py:29 | another colour or size of a product already in the cart is refused, with no merge |
| CartModels.SecondInsertRefused | src/cart/models.py:27-29 | once a line is inserted, inserting the same product into the same cart again is refused as a duplicate, whatever its variant |
| CartSerializers.StockMessageExample | src/cart/serializers.py:74-76 | the stock error names the `quantity` field and reads "Only 5 items available" for a stock of 5 |
| CartSerializers.FieldErrors | src/cart/serializers.py:35-52 | there is no field error exactly when product id and quantity are present (or the update is partial) and the quantity is at least 1 |
| CartSerializers.Validate | src/cart/serializers.py:58-82 | field errors come first; an unknown product is refused as not found; a quantity (default 1) above the stock is refused with the stock; on success the data is the input with colour and size trimmed, plus the resolved product |
| CartSerializers.StockBoundary | src/cart/serializers.py:73-76 | a quantity equal to the stock is accepted and one more is refused |
| CartSerializers.UnknownProductRefused | src/cart/serializers.py:79-82 | an unknown product id is refused under `product_id` with "Product not found" |
| CartSerializers.PartialUpdateWithoutProductFails | src/cart/serializers.py:72 | as written, a partial update that sends only a quantity fails on the missing `product_id` key |
| CartSerializers.ValidateUpdate | src/cart/serializers.py:58-82 | corrected update: without a product id, the line's own product is used and the stock checked against it; the missing key never fails |
| CartSerializers.PaddedColorTrimmed | src/cart/serializers.py:43-47 | whitespace around a colour never changes the outcome of validation |
| CartSerializers.SameTrimSameValidation | src/cart/serializers.py:43-52 | two bodies whose colour and size trim to the same values validate alike |
| CartSerializers.FindCategory | src/cart/serializers.py:93 | a product's category is found exactly when it exists |
| CartSerializers.ImagesOf | src/cart/serializers.py:95-101 | exactly the product's own images |
| CartSerializers.Represent | src/cart/serializers.py:84-108 | `cartItemId` reads back as the line id and `price` as the product's price; the category is blank when missing; quantity, variants, stock, name, description and every image field are copied live |
| CartSerializers.CartItemIdsDistinct | src/cart/serializers.py:89 | different lines get different `cartItemId` strings |
| CartViews.GetOrCreateCart | src/cart/views.py:38 | returns the user's cart, creating an empty one under the next id exactly when the user has none; the cart invariants hold afterwards |
| CartViews.NewCartIsEmpty | src/cart/views.py:38 | a newly created cart has no lines |
| CartViews.GetOrCreateIdempotent | src/cart/views.py:38 | a second get-or-create returns the same cart and creates nothing |
| CartViews.FindCartAppend | src/cart/views.py:38 | a cart appended for a user with no cart is the one later found |
| CartViews.ListCartItems | src/cart/views.py:35-39 | the list holds exactly the lines of the user's cart, and in a consistent database none belongs to another user |
| CartViews.FirstListingCreatesOneEmptyCart | src/cart/views.py:37-39 | the first listing creates exactly one empty cart and returns an empty list |
| CartViews.CartsOf | src/cart/views.py:20 | exactly the user's carts |
| CartViews.CartsOfAtMostOne | src/cart/models.py:7 | with one cart per user, a user has at most one cart |
| CartViews.ListCarts | src/cart/views.py:17-20 | the cart list holds only the user's carts, all of them, and at most one |
| Orders.ParseStatus | src/orders/models.py:15-21 | an accepted status string is exactly the code of the status it names |
| Orders.StatusCodesRoundTrip | src/orders/models.py:15-21 | each status reads back as itself, exactly the five listed codes are accepted, and the default is "pending" |
| Orders.RequiredTextErrors | src/orders/models.py:23-25 | a required text field is accepted exactly when it is present, not blank and, once trimmed, within its length; a blank value is reported as blank |
| Orders.OptionalTextErrors | src/orders/models.py:31 | an optional text field is refused exactly when its trimmed value exceeds the length |
| Orders.MoneyErrors | src/orders/models.py:24 | a money field is accepted exactly when it is present and fits ten digits with two places |
| Orders.ItemErrors | src/orders/serializers.py:10-23 | a line entry is accepted exactly when its product exists, its name is present and not blank, its quantity lies in the column's range, its price fits and colour and size fit; an unknown product and a negative quantity are reported |
| Orders.ListErrors | src/orders/serializers.py:26 | a list of entries has no error exactly when every entry has none, and every refused entry is reported under its index |
| Orders.ItemsFieldErrors | src/orders/serializers.py:26 | `items` is required; with it, the errors are empty exactly when every entry is acceptable, and each refused entry is reported under its index |
| Orders.UserErrors | src/orders/models.py:22 | a sent `user` is refused exactly when it names no user, with that pk |
| Orders.IntentErrors | src/orders/models.py:23 | the intent id is accepted exactly when it is present, not blank, within 100 characters once trimmed and not the intent of a stored order; a taken one is reported as a duplicate |
| Orders.StatusErrors | src/orders/models.py:30 | the status is refused exactly when it is sent and is not one of the five codes |
| Orders.TrackingUrlErrors | src/orders/models.py:32 | a tracking URL is accepted exactly when it is absent, blank, or a URL within 200 characters once trimmed |
| Orders.OrderErrors | src/orders/serializers.py:25-36 | a request has no field error exactly when it is acceptable; an unknown owner, a blank intent id or currency, a taken intent and a missing `items` are each reported |
| Orders.NewLines | src/orders/models.py:35-42 | one line per entry, in entry order, with consecutive ids |
| Orders.PlaceOrder | src/orders/views.py:15-16 | an accepted request stores one order under the next id, owned by the requester, with trimmed text and the requested or default status, followed by one line per entry; the database stays consistent |
| Orders.CreateOrder | src/orders/views.py:15-16 | a create is refused exactly when the request has field errors, and then reports all of them; otherwise it stores what `PlaceOrder` stores for the body without its `user` |
| Orders.CreatedOrder | src/orders/views.py:15-16 | a stored order belongs to the requester, has the trimmed, non-empty intent id and currency, is appended after every stored order, and is followed by exactly one line per entry of `items`; the database stays consistent |
| Orders.AcceptableWithoutOwner | src/orders/views.py:16 | dropping the body's `user` never turns an accepted request into a refused one |
| Orders.NewOrderKeepsValid | src/orders/models.py:23 | an order with a fresh id and an unused intent, with lines of its own, keeps ids and intents unique and every line on an existing order |
| Orders.CreateOrderAsWritten | src/orders/serializers.py:26 | as written, a create never stores anything: 400 exactly when the request has field errors, otherwise 500 |
| Orders.OrdersNeverCreatedAsWritten | src/orders/serializers.py:26 | every request the corrected create would store gets a server error as written, and nothing is stored |
| Orders.OwnerIsRequester | src/orders/views.py:15-16 | a client-sent owner that exists, or none, does not change the outcome; one that names no user is refused with its pk |
| Orders.OwnerOnlyChecked | src/orders/serializers.py:31-32 | two requests differing only in a valid or absent owner get the same field errors |
| Orders.SecondOrderForIntentRefused | src/orders/models.py:23 | a second order whose trimmed intent id matches a stored one is refused as a duplicate |
| Orders.AppendedIntentTaken | src/orders/models.py:23 | the intent of an appended order is taken |
| Orders.BlankIntentOrCurrencyRefused | src/orders/serializers.py:25-36 | an empty intent id, a currency of spaces or a missing `items` is refused |
| Orders.OrdersOf | src/orders/views.py:23 | exactly the user's own orders |
| Orders.VisibleOrders | src/orders/views.py:18-23 | staff see every order; others see exactly their own |
| Orders.OwnerlessOrdersStaffOnly | src/orders/views.py:21-22 | an order without owner is visible exactly to staff |
| Orders.NewOrderVisibility | src/orders/views.py:18-23 | a new order is visible to its creator and not to another non-staff user |
| Orders.AppendedOrderVisibility | src/orders/views.py:18-23 | an order appended with an owner is visible to that owner and to no other non-staff user |
| Orders.AddOrderItem | src/orders/models.py:35-42 | a line is refused exactly when its order is missing, a non-null product does not exist, or its quantity is outside the column's range; an unknown product is reported with its pk; otherwise the line keeps the snapshot with colour and size defaulting to "Default" |
| Orders.DeleteProductFromOrders | src/orders/models.py:37 | deleting a product nulls exactly its line references and keeps every snapshot field |
| Orders.NoLineReferencesDeletedProduct | src/orders/models.py:37 | afterwards no line refers to the product, and each line differs at most in its product link |
| Orders.ItemsNotOf | src/orders/models.py:36 | exactly the lines of other orders |
| Orders.OrdersExcept | src/orders/models.py:36 | exactly the other orders |
| Orders.DeleteOrder | src/orders/models.py:36 | deleting an order removes it and exactly its lines; the database stays consistent |
| Orders.SubMultisetKeepsUniqueOrders | src/orders/models.py:23 | removing orders keeps ids and payment intents unique |
| Orders.DeleteUserFromOrders | src/orders/models.py:22 | deleting a user clears exactly the orders that were theirs and leaves every other order as it was |
| Orders.DeletedUsersOrdersStaffOnly | src/orders/models.py:22 | a deleted user's orders remain, visible only to staff |
| Reviews.ReviewFieldErrors | src/review/models.py:10-17 | no field error exactly when the rating is 1 to 5 and the comment has at most 1000 characters |
| Reviews.AddReview | src/review/models.py:6-29 | a review is refused exactly when a bound fails, the product or parent is missing, or the user already reviewed the product; otherwise it is appended and the table stays valid |
| Reviews.AppendKeepsValid | src/review/models.py:6-29 | appending a fresh review with bounded rating and comment, an existing parent and a free product and user pair keeps the table valid |
| Reviews.ReplyCountsTowardUniqueness | src/review/models.py:27-29 | a reply by a user who already reviewed the product is refused too |
| Reviews.ReviewBounds | src/review/models.py:10-17 | ratings 0 and 6 and a 1001-character comment are refused |
| Reviews.ListReviews | src/review/models.py:26 | reviews list newest first, all of them |
| Reviews.ProperSubsetSmaller | src/review/models.py:8 | a proper subset of ids is smaller, so the cascade ends |
| Reviews.Cascade | src/review/models.py:8 | the deleted ids are the least set that holds the seed and every reply to a member |
| Reviews.DeleteCascading | src/review/models.py:8 | exactly the reviews outside the cascade remain |
| Reviews.RemoveIds | src/review/models.py:8 | exactly the reviews whose ids are kept remain |
| Reviews.DeleteReview | src/review/models.py:8 | deleting a review removes it and its replies, and every kept reply keeps its parent |
| Reviews.DeleteReviewKeepsNonDescendants | src/review/models.py:8 | a review outside a reply-closed set around the deleted one survives |
| Reviews.DeleteReviewPreservesValidity | src/review/models.py:8 | a cascading delete keeps bounds, uniqueness and parent links valid |
| Reviews.CascadeKeepsParents | src/review/models.py:8 | after a cascading delete every remaining reply still has its parent |
| Reviews.Referencing | src/review/models.py:7-9 | every review that refers to the deleted product or user is in the doomed set |
| Reviews.DeleteReferencing | src/review/models.py:7-9 | deleting a product or a user removes every review that refers to it and every reply to such a review, and keeps exactly the reviews outside that cascade |
| Reviews.DeleteReferencingKeepsOthers | src/review/models.py:7-9 | a review outside a reply-closed set that holds every referring review survives the deletion |
| Reviews.NothingReferencingKeepsAll | src/review/models.py:7-9 | when no review refers to the deleted row, the table is unchanged |
| Payments.ValidateIntentRequest | src/payments/serializers.py:3-6 | the request is valid exactly when the amount is present and at least 50 cents, the currency is absent or not blank, and no metadata value is blank; the currency is trimmed or defaults to "aud", the metadata keeps its keys with trimmed, non-empty values, and the blank metadata keys are reported |
| Payments.BlankKeys | src/payments/serializers.py:6 | exactly the metadata keys whose value is blank |
| Payments.CreatePaymentIntent | src/payments/views.py:36-48 | an invalid request is answered 400 with no provider call; a valid one makes exactly one call with amount, currency and metadata (empty by default), and answers only the client secret, or a server error when the provider refuses the call |
| Payments.ProviderCalledOnlyWhenValid | src/payments/views.py:39-47 | at most one provider call, made exactly when the request validates; the answer is 400 exactly for an invalid request, a client secret only as the call's answer, and 500 exactly when the call is refused; no call is below 50 cents, in a blank currency or with a blank metadata value |
| Payments.CurrencyDefaultsToAud | src/payments/serializers.py:5 | a request without currency is charged in "aud" |
| Payments.UnsupportedCurrencyIsServerError | src/payments/views.py:43-48 | a currency the request check accepts but the provider refuses, such as "xyz", still reaches the provider and is answered 500 |
| Payments.StripeWebhook | src/payments/views.py:53-88 | a bad payload or signature is answered 400 exactly and records nothing; a succeeded or failed event for an intent already recorded, or whose row cannot be built, is answered 500 and records nothing; otherwise it is answered 200 and records one row with the intent id, amount, currency and status, where only succeeded rows carry the metadata's user and order; other events are acknowledged with 200 and record nothing; intent ids stay unique |
| Payments.SucceededRecordsUserAndOrder | src/payments/views.py:64-77 | a succeeded event records the metadata's user and order |
| Payments.FailedRecordsNoOwner | src/payments/views.py:78-86 | a failed event records a row with no user and no order |
| Payments.RedeliveryRecordsOnce | src/payments/models.py:7 | delivering the same event twice records one row |
| Payments.ToPaymentOut | src/payments/serializers.py:10-13 | the output copies id, intent id, currency, status and time, and its amount text reads back as the stored cents |
| Payments.OutputHidesOwner | src/payments/serializers.py:13 | the output does not depend on the payment's user or order |
| Payments.PaymentsOf | src/payments/views.py:96 | exactly the user's payments |
| Payments.PaymentHistory | src/payments/views.py:95-96 | the history holds exactly the requester's payments, newest first |
| Payments.DeleteUserFromPayments | src/payments/models.py:5 | deleting a user clears exactly the payments that were theirs and leaves every other payment as it was |
| Payments.DeletedUserHistoryEmpty | src/payments/models.py:5 | afterwards that user's history is empty while every payment stays on record |
| Payments.NoPaymentsOfOther | src/payments/views.py:96 | a table with none of the user's payments gives an empty history |

## Left out

- Stripe's SDK, the webhook secret and the HTTP layer are not modelled. The signature check is an `Option<Event>` parameter. The provider is a function parameter that answers a call with a client secret, or with `None` when Stripe refuses it; which calls Stripe refuses is not modelled.
- `Payments.StripeWebhook` stores `intent.amount / 100` as exact cents. It does not model the binary-float division or the 10-digit decimal column. It also does not check that the metadata's user exists.
- `Payments.StripeWebhook` reads a metadata `user_id` as plain digits. Python's `int()` also accepts surrounding spaces, a sign and underscores.
- `Trending.AggregateOrderInfo` computes the revenue as the sales count times the price in integer cents. The source multiplies by `float(product.price)`, a binary float in dollars, so its stored revenue can differ from the exact value in the last places and is written in dollars.
- Trending scores and weights are exact reals, not binary floats.
- `Catalog.InsertByName` and `Catalog.AddCategory` order names by code point (`Text.LexLe`). The database applies its own collation to `ordering = ['name']`, which can place upper- and lower-case or accented names differently.
- `Trending.Sweep` leaves out the post-save receiver that each `product.save()` triggers (`src/product/signals.py:19-21`). That receiver also rewrites `aggregated_order_info` and schedules another sweep through `update_trending_scores.delay()`. `Trending.SweepWithReceiver` models the rewrite. The Celery scheduling and `cache_page` caching are not modelled.
- Concurrency is not modelled. Neither is transaction atomicity beyond what is stated: product creation is modelled as not atomic.
- The ORM is not modelled. `Ranking.SortDesc` does not state how rows with equal keys are ordered; the database leaves that unspecified too.
- As written, `src/product/serializers.py:2` imports `Manufacturer`, `ProductTag` and `Tag` from `src/product/models.py`, which defines none of them. `Manufacturer` is defined in `src/orders/models.py:5`; `Tag` and `ProductTag` are defined nowhere, so the module cannot be imported.
- As written, `ProductImageSerializer` lists a field `image` (`src/product/serializers.py:20`), but the model's column is `image_url` (`src/product/models.py:65`).
- As written, `Product` has no `manufacturer` column, yet `manufacturer_id` (`src/product/serializers.py:61-65`) puts a `manufacturer` into the validated data that `Product.objects.create(**validated_data)` receives (line 86).
- As written, the cart output reads `product.tags` (`src/cart/serializers.py:94`) and `img.image` (line 97); neither exists on the models, so both raise `AttributeError`.
- The model assumes the schema those paths evidently expect. A tag is a number from a set of known tag ids, and a product-tag row links a product, a tag and an optional image. One image URL field serves both the `image` and the `image_url` names. `manufacturer_id` is neither validated nor stored, and the cart output leaves out tags and the product timestamps. The second finding below rests on this assumption: it describes what the tag loop does once the imports resolve.
- Field-level validation of nested image entries (URL format, lengths) is not modelled. Column length limits are modelled for the username, the e-mail, the profile URL, the product name and the order request's fields: the intent id (100), the currency (10), the tracking number (100), the tracking URL (200) and, in each line entry, the name (255), the colour and the size (50). The cart line's colour and size limits (50) are not modelled.
- `Users.ValidateUser`, `Payments.ValidateIntentRequest`, `ProductSerializers.ValidateProduct` and `CartSerializers.Validate` do not model the `CharField` refusal of NUL characters and surrogate code points. They model its trimming and its blank check only.
- `Users.ValidateUser` treats the username pattern, the e-mail syntax and the URL syntax as opaque predicates. It does not model the `preferences` JSON field, which is accepted as sent.
- `Users.RecordActivity` treats IP address validity as an opaque predicate and stores a valid address as trimmed text. It does not model the field's normalisation of IPv6 addresses or the `meta_data` JSON field.
- `ProductSerializers.PriceField` takes the price as whole cents. A decimal text with more than two places after the point cannot be written in the model. When the digit limit is exceeded, the model reports the whole-digit message; the field picks one of its three digit messages from the way the number was written.
- `CartSerializer`'s own output shape is not modelled, and `CartItemViewSet` and the review views never set the cart or the user on create. The model takes them as parameters.
- `Users.CreateUser` treats `create_user` as storing the given fields verbatim once the username is set. E-mail and username normalisation and the rest of `AbstractUser.clean` are not modelled, and password hashing is an abstract `Hashed` value.
- The review output serializers, the order output shape, the thin views, the URL routes, the seed commands and the migrations are not modelled.
- `Orders.OrderErrors` does not model the JSON content of `shipping_info`; any present value is accepted. URL syntax is an opaque predicate. A null value and a missing key both give `Required`, although the framework words them differently.
- `ProductSerializers.ValidateProduct`, `Orders.OrderErrors`, `CartModels.InsertItem` and `Orders.AddOrderItem` use 2147483647 as the maximum of a `PositiveIntegerField`. That is Django's range on PostgreSQL and MySQL; on SQLite the bound is larger.
- DRF error texts are modelled only where the source writes them, plus the required, blank, field-minimum and missing-primary-key messages.
- `Catalog.DeleteCategory` does not state that the remaining categories stay sorted and unique. It states only which categories remain.

## Findings

| source | as written | input that shows it | evidently intended | confidence | as-written member | corrected member |
|---|---|---|---|---|---|---|
| src/cart/serializers.py:72 | `validate` reads `data['product_id']` unconditionally, and a partial update leaves that key out | PATCH of a cart line with body `{"quantity": 2}` | a partial update keeps the line's product and checks the stock against it | not executed; the `KeyError` escapes the `DoesNotExist` handler | CartSerializers.PartialUpdateWithoutProductFails | CartSerializers.ValidateUpdate |
| src/orders/serializers.py:26 | `items` is a writable nested serializer, and `ModelSerializer.create` refuses nested writes with an assertion, so no order is ever stored: a request with field errors gets 400 and every other one 500 | POST of a valid order with `"items": []` | the order is stored, owned by the requester, with one line per entry | not executed; relies on the framework's check for writable nested fields in `create` | Orders.OrdersNeverCreatedAsWritten | Orders.CreateOrder |
| src/product/serializers.py:93-97 | each validated tag entry is passed back to `ProductTagSerializer` as raw data; `tag_id` is then missing and `product` is read-only (line 25), so no tag row is created and the request fails after the product is stored | POST of a valid product with `"product_tags": [{"tag_id": 1}]` | every tag entry becomes a tag row linked to the new product, with an image for that product when one is given | not executed; relies on the framework storing `tag_id` under its source name `tag`, and on the `Tag` and `ProductTag` models that the serializers import but the repository does not define | ProductSerializers.TagEntriesNeverCreatedAsWritten | ProductSerializers.CreateProduct |

=== FILE: cart.dfy ===
/** The cart tables of src/cart/models.py: one cart per user, and line items
    unique per (cart, product) with a quantity of at least one. Subtotals and
    totals are computed from the product's current price. */
module CartModels {
  import opened Wrappers
  import opened Catalog
  import opened Users

  /** Default of `selected_color` and `selected_size`. */
  const DefaultVariant: string := "Default"

  /** Default of `quantity`. */
  const DefaultQuantity: int := 1

  datatype Cart = Cart(id: nat, user: UserId)

  datatype CartItem = CartItem(
    id: nat,
    cart: nat,
    product: ProductId,
    selectedColor: string,
    selectedSize: string,
    quantity: int)

  /** Both tables. `items` is kept newest first (`ordering = ['-added_at']`):
      an insert puts the new row in front. */
  datatype CartDb = CartDb(carts: seq<Cart>, items: seq<CartItem>, nextCartId: nat, nextItemId: nat)

  datatype InsertError = DuplicateCartProduct | UnknownCart | UnknownProduct | QuantityOutOfRange

  /** `user` is a `OneToOneField`. */
  predicate OneCartPerUser(carts: seq<Cart>)
  {
    forall i, j :: 0 <= i < j < |carts| ==> carts[i].user != carts[j].user
  }

  predicate UniqueCartIds(carts: seq<Cart>)
  {
    forall i, j :: 0 <= i < j < |carts| ==> carts[i].id != carts[j].id
  }

  /** The `unique_cart_product` constraint: colour and size are not part of the key. */
  predicate OneLinePerProduct(items: seq<CartItem>)
  {
    forall i, j :: 0 <= i < j < |items| && items[i].cart == items[j].cart ==>
      items[i].product != items[j].product
  }

  predicate UniqueItemIds(items: seq<CartItem>)
  {
    forall i, j :: 0 <= i < j < |items| ==> items[i].id != items[j].id
  }

  /** `MinValueValidator(1)` on the quantity. */
  predicate PositiveQuantities(items: seq<CartItem>)
  {
    forall i :: 0 <= i < |items| ==> items[i].quantity >= 1
  }

  predicate HasCart(carts: seq<Cart>, id: nat)
  {
    exists k :: 0 <= k < |carts| && carts[k].id == id
  }

  /** Every line belongs to an existing cart (`on_delete=CASCADE`). */
  predicate ItemsInCarts(db: CartDb)
  {
    forall i :: 0 <= i < |db.items| ==> HasCart(db.carts, db.items[i].cart)
  }

  /** Primary keys handed out so far are below the counters. */
  predicate IdsBelowCounters(db: CartDb)
  {
    && (forall k :: 0 <= k < |db.carts| ==> db.carts[k].id < db.nextCartId)
    && (forall i :: 0 <= i < |db.items| ==> db.items[i].id < db.nextItemId)
  }

  predicate ValidCartDb(db: CartDb)
  {
    && OneCartPerUser(db.carts)
    && UniqueCartIds(db.carts)
    && OneLinePerProduct(db.items)
    && UniqueItemIds(db.items)
    && PositiveQuantities(db.items)
    && ItemsInCarts(db)
    && IdsBelowCounters(db)
  }

  /** The user's cart, if one exists. */
  function FindCart(carts: seq<Cart>, user: UserId): (r: Option<Cart>)
    ensures r.Some? ==> r.value in carts && r.value.user == user
    ensures r.None? <==> forall c :: c in carts ==> c.user != user
  {
    if carts == [] then None
    else if carts[0].user == user then Some(carts[0])
    else FindCart(carts[1..], user)
  }

  /** The lines of one cart, newest first (`CartItem.objects.filter(cart=cart)`). */
  function ItemsOf(items: seq<CartItem>, cartId: nat): (r: seq<CartItem>)
    ensures forall it :: it in r <==> it in items && it.cart == cartId
    ensures multiset(r) <= multiset(items)
  {
    if items == [] then []
    else
      var rest := ItemsOf(items[1..], cartId);
      assert items == [items[0]] + items[1..];
      if items[0].cart == cartId then [items[0]] + rest else rest
  }

  /** `CartItem.is_in_stock`: the product's stock covers the line's quantity. */
  predicate ItemInStock(item: CartItem, product: Product)
    ensures item.quantity == 1 ==> (ItemInStock(item, product) <==> IsInStock(product))
    ensures product.currentStock == 0 ==> (ItemInStock(item, product) <==> item.quantity <= 0)
  {
    product.currentStock >= item.quantity
  }

  /** A line in stock makes its product in stock (quantity is at least one),
      and the converse fails exactly when the line wants more than the stock. */
  lemma ItemInStockVersusProduct(item: CartItem, product: Product)
    requires item.quantity >= 1
    ensures ItemInStock(item, product) ==> IsInStock(product)
    ensures IsInStock(product) && !ItemInStock(item, product) <==>
      0 < product.currentStock < item.quantity
  {
  }

  /** `CartItem.get_subtotal`: the product's current price times the quantity. */
  function Subtotal(item: CartItem, product: Product): (r: int)
    requires item.product == product.id
    ensures item.quantity == 1 ==> r == product.price
    ensures product.price >= 0 && item.quantity >= 1 ==> r >= product.price
  {
    product.price * item.quantity
  }

  /** Every line's product still exists. */
  predicate ProductsResolve(items: seq<CartItem>, catalog: seq<Product>)
  {
    forall i :: 0 <= i < |items| ==> FindProduct(catalog, items[i].product).Some?
  }

  function LineSubtotal(item: CartItem, catalog: seq<Product>): int
    requires FindProduct(catalog, item.product).Some?
  {
    Subtotal(item, FindProduct(catalog, item.product).value)
  }

  /** The reference definition of `Cart.get_total`: the sum of the subtotals. */
  function Total(items: seq<CartItem>, catalog: seq<Product>): (r: int)
    requires ProductsResolve(items, catalog)
    ensures items == [] ==> r == 0
    ensures |items| == 1 ==> r == LineSubtotal(items[0], catalog)
  {
    if items == [] then 0 else LineSubtotal(items[0], catalog) + Total(items[1..], catalog)
  }

  lemma {:induction false} TotalAppend(items: seq<CartItem>, item: CartItem, catalog: seq<Product>)
    requires ProductsResolve(items, catalog) && FindProduct(catalog, item.product).Some?
    ensures ProductsResolve(items + [item], catalog)
    ensures Total(items + [item], catalog) == Total(items, catalog) + LineSubtotal(item, catalog)
  {
    assert forall i :: 0 <= i < |items| ==> (items + [item])[i] == items[i];
    if items != [] {
      assert (items + [item])[1..] == items[1..] + [item];
      TotalAppend(items[1..], item, catalog);
    }
  }

  /** With non-negative prices and positive quantities the total is never negative. */
  lemma {:induction false} TotalNonNegative(items: seq<CartItem>, catalog: seq<Product>)
    requires ProductsResolve(items, catalog)
    requires PositiveQuantities(items)
    requires forall p :: p in catalog ==> ValidProduct(p)
    ensures Total(items, catalog) >= 0
  {
    if items != [] {
      var p := FindProduct(catalog, items[0].product).value;
      assert p.price * items[0].quantity >= 0;
      TotalNonNegative(items[1..], catalog);
    }
  }

  /** `Cart.get_total`: the subtotals of the cart's lines added up, in one
      pass; an empty cart totals zero. */
  method GetTotal(items: seq<CartItem>, catalog: seq<Product>) returns (total: int)
    requires ProductsResolve(items, catalog)
    ensures total == Total(items, catalog)
    ensures items == [] ==> total == 0
  {
    total := 0;
    var i := 0;
    while i < |items|
      invariant 0 <= i <= |items|
      invariant ProductsResolve(items[..i], catalog)
      invariant total == Total(items[..i], catalog)
    {
      assert items[..i + 1] == items[..i] + [items[i]];
      TotalAppend(items[..i], items[i], catalog);
      var product := FindProduct(catalog, items[i].product).value;
      total := total + product.price * items[i].quantity;
      i := i + 1;
    }
    assert items[..i] == items;
  }

  /** `Cart.get_total` on a cart: `self.items` are the lines whose `cart`
      is this cart, so the total sums exactly those lines and a cart
      without lines totals zero whatever the other carts hold. */
  method CartTotal(items: seq<CartItem>, catalog: seq<Product>, cartId: nat) returns (total: int)
    requires ProductsResolve(items, catalog)
    ensures ProductsResolve(ItemsOf(items, cartId), catalog)
    ensures total == Total(ItemsOf(items, cartId), catalog)
    ensures (forall it :: it in items ==> it.cart != cartId) ==> total == 0
  {
    var mine := ItemsOf(items, cartId);
    forall i | 0 <= i < |mine| ensures FindProduct(catalog, mine[i].product).Some? {
      assert mine[i] in items;
      var k :| 0 <= k < |items| && items[k] == mine[i];
    }
    if forall it :: it in items ==> it.cart != cartId {
      if mine != [] {
        assert mine[0] in items;
      }
    }
    total := GetTotal(mine, catalog);
  }

  /** A line of another cart never enters this cart's lines, so it never
      changes this cart's total. */
  lemma {:induction false} OtherCartLineIgnored(items: seq<CartItem>, other: CartItem, cartId: nat)
    requires other.cart != cartId
    ensures ItemsOf(items + [other], cartId) == ItemsOf(items, cartId)
  {
    if items == [] {
      assert ItemsOf([other], cartId) == ItemsOf([], cartId);
    } else {
      assert (items + [other])[1..] == items[1..] + [other];
      OtherCartLineIgnored(items[1..], other, cartId);
    }
  }

  /** With unique product ids, looking up the product at position k finds it. */
  lemma FindProductAt(catalog: seq<Product>, k: nat)
    requires UniqueProductIds(catalog) && k < |catalog|
    ensures FindProduct(catalog, catalog[k].id) == Some(catalog[k])
  {
    if k > 0 && catalog[0].id != catalog[k].id {
      FindProductAt(catalog[1..], k - 1);
    }
  }

  /** Subtotals follow the live price: after product k is repriced, a line for
      it is worth the new price times its quantity, and a line for any other
      product is unaffected. */
  lemma SubtotalTracksPrice(item: CartItem, catalog: seq<Product>, k: nat, newPrice: int)
    requires UniqueProductIds(catalog) && k < |catalog|
    requires FindProduct(catalog, item.product).Some?
    ensures var repriced := catalog[k := catalog[k].(price := newPrice)];
      && FindProduct(repriced, item.product).Some?
      && LineSubtotal(item, repriced) ==
         if item.product == catalog[k].id then newPrice * item.quantity
         else LineSubtotal(item, catalog)
  {
    var repriced := catalog[k := catalog[k].(price := newPrice)];
    assert UniqueProductIds(repriced);
    var p := FindProduct(catalog, item.product).value;
    var j :| 0 <= j < |catalog| && catalog[j] == p;
    FindProductAt(catalog, j);
    FindProductAt(repriced, j);
  }

  predicate LineTaken(items: seq<CartItem>, cartId: nat, product: ProductId)
  {
    exists i :: 0 <= i < |items| && items[i].cart == cartId && items[i].product == product
  }

  /** Inserting a cart line. The quantity column is a `PositiveIntegerField`
      (a check that it is not negative, within the column's integer range),
      the cart and the product are foreign keys (`products` holds the
      product ids in the table), and a second
      line for the same (cart, product) is refused by the unique constraint
      whatever its colour and size (there is no merging); otherwise the row
      gets the next id and the column defaults for any variant not supplied. */
  function InsertItem(db: CartDb, products: set<ProductId>, cartId: nat, product: ProductId, color: Option<string>,
                      size: Option<string>, quantity: int): (r: Result<(CartDb, CartItem), InsertError>)
    ensures r.Err? <==>
      || quantity < 0 || quantity > PositiveIntegerMax || LineTaken(db.items, cartId, product)
      || !HasCart(db.carts, cartId) || product !in products
    ensures product !in products && !LineTaken(db.items, cartId, product) && HasCart(db.carts, cartId) ==>
      0 <= quantity <= PositiveIntegerMax ==> r == Err(UnknownProduct)
    ensures r.Ok? ==> var (db', item) := r.value;
      && db'.items == [item] + db.items
      && db'.carts == db.carts
      && item.cart == cartId && item.product == product && item.quantity == quantity
      && item.selectedColor == color.GetOr(DefaultVariant)
      && item.selectedSize == size.GetOr(DefaultVariant)
    ensures r.Ok? && ValidCartDb(db) && quantity >= 1 ==> ValidCartDb(r.value.0)
  {
    if quantity < 0 || quantity > PositiveIntegerMax then Err(QuantityOutOfRange)
    else if LineTaken(db.items, cartId, product) then Err(DuplicateCartProduct)
    else if !HasCart(db.carts, cartId) then Err(UnknownCart)
    else if product !in products then Err(UnknownProduct)
    else
      var item := CartItem(db.nextItemId, cartId, product, color.GetOr(DefaultVariant),
                           size.GetOr(DefaultVariant), quantity);
      var db' := db.(items := [item] + db.items, nextItemId := db.nextItemId + 1);
      assert ValidCartDb(db) && quantity >= 1 ==> ValidCartDb(db') by {
        if ValidCartDb(db) && quantity >= 1 {
          forall i, j | 0 <= i < j < |db'.items| && db'.items[i].cart == db'.items[j].cart
            ensures db'.items[i].product != db'.items[j].product
          {
            if i == 0 {
              assert db'.items[j] == db.items[j - 1];
            } else {
              assert db'.items[i] == db.items[i - 1] && db'.items[j] == db.items[j - 1];
            }
          }
          forall i, j | 0 <= i < j < |db'.items| ensures db'.items[i].id != db'.items[j].id {
            if i == 0 {
              assert db'.items[j] == db.items[j - 1];
            } else {
              assert db'.items[i] == db.items[i - 1] && db'.items[j] == db.items[j - 1];
            }
          }
          assert forall i :: 1 <= i < |db'.items| ==> db'.items[i] == db.items[i - 1];
        }
      }
      Ok((db', item))
  }

  /** Colour and size are not part of the key: once a cart holds a line for a
      product, no further line for that product can be inserted, whatever
      variant it names. */
  lemma VariantIsNotPartOfKey(db: CartDb, products: set<ProductId>, existing: CartItem, color: Option<string>,
                              size: Option<string>, quantity: int)
    requires existing in db.items
    ensures InsertItem(db, products, existing.cart, existing.product, color, size, quantity).Err?
  {
    var i :| 0 <= i < |db.items| && db.items[i] == existing;
  }

  /** An inserted line takes its (cart, product) pair: inserting the same
      product into the same cart again is refused as a duplicate, whatever
      the second variant and a quantity in range. */
  lemma SecondInsertRefused(db: CartDb, products: set<ProductId>, cartId: nat, product: ProductId,
                            color: Option<string>, size: Option<string>, quantity: int,
                            color2: Option<string>, size2: Option<string>, quantity2: int)
    requires InsertItem(db, products, cartId, product, color, size, quantity).Ok?
    requires 0 <= quantity2 <= PositiveIntegerMax
    ensures var db' := InsertItem(db, products, cartId, product, color, size, quantity).value.0;
      InsertItem(db', products, cartId, product, color2, size2, quantity2) == Err(DuplicateCartProduct)
  {
    var db' := InsertItem(db, products, cartId, product, color, size, quantity).value.0;
    assert db'.items[0].cart == cartId && db'.items[0].product == product;
    assert LineTaken(db'.items, cartId, product);
  }
}

=== FILE: cart_serializers.dfy ===
/** `CartItemSerializer` of src/cart/serializers.py: field validation, the
    product lookup and stock check of `validate`, and the frontend output
    shape of `to_representation`. */
module CartSerializers {
  import opened Wrappers
  import opened Text
  import opened Catalog
  import opened CartModels

  /** A cart-item request body; a field the client left out is `None`. */
  datatype CartItemInput = CartItemInput(
    productId: Option<int>,
    quantity: Option<int>,
    selectedColor: Option<string>,
    selectedSize: Option<string>)

  /** The validated data: the input with its variants trimmed, plus the
      resolved product. */
  datatype ValidatedItem = ValidatedItem(data: CartItemInput, product: Product)

  /** Validation failures, each reported under a field name. `MissingKey` is
      not a validation error: it is a `KeyError` escaping `validate`, which
      the framework turns into a server error. */
  datatype ItemError =
    | Required(field: string)
    | BelowMinimum(field: string)
    | ProductNotFound
    | OnlyAvailable(stock: nat)
    | MissingKey(key: string)

  /** `min_value` of the `quantity` field. */
  const MinQuantity: int := 1

  function ErrorField(e: ItemError): string
  {
    match e
    case Required(f) => f
    case BelowMinimum(f) => f
    case ProductNotFound => "product_id"
    case OnlyAvailable(_) => "quantity"
    case MissingKey(k) => k
  }

  function ErrorMessage(e: ItemError): string
  {
    match e
    case Required(_) => "This field is required."
    case BelowMinimum(_) => "Ensure this value is greater than or equal to 1."
    case ProductNotFound => "Product not found"
    case OnlyAvailable(n) => "Only " + NatToString(n) + " items available"
    case MissingKey(k) => k
  }

  /** The stock message names the stock itself, e.g. "Only 5 items available". */
  lemma StockMessageExample()
    ensures ErrorField(OnlyAvailable(5)) == "quantity"
    ensures ErrorMessage(OnlyAvailable(5)) == "Only 5 items available"
  {
  }

  /** Field-level validation, in declaration order. `product_id` and
      `quantity` are required except on a partial update; a quantity below
      one is refused whenever it is present. */
  function FieldErrors(input: CartItemInput, partial: bool): (r: seq<ItemError>)
    ensures r == [] <==>
      && (partial || (input.productId.Some? && input.quantity.Some?))
      && (input.quantity.Some? ==> input.quantity.value >= MinQuantity)
  {
    (if !partial && input.productId.None? then [Required("product_id")] else [])
    + (if input.quantity.None? then (if partial then [] else [Required("quantity")])
       else if input.quantity.value < MinQuantity then [BelowMinimum("quantity")]
       else [])
  }

  /** What the fields hand to `validate`: `selected_color` and
      `selected_size` are `CharField`s, trimmed (a blank one becomes ""). */
  function TrimVariants(input: CartItemInput): CartItemInput
  {
    input.(selectedColor := StripOption(input.selectedColor), selectedSize := StripOption(input.selectedSize))
  }

  /** `is_valid()` followed by `validate(data)`, as written. The stock check
      compares the requested quantity (one when absent) with the product's
      stock and nothing else: what the cart already holds plays no part. */
  function Validate(input: CartItemInput, catalog: seq<Product>, partial: bool): (r: Result<ValidatedItem, seq<ItemError>>)
    ensures FieldErrors(input, partial) != [] ==> r == Err(FieldErrors(input, partial))
    ensures r.Ok? ==>
      && r.value.data == TrimVariants(input)
      && input.productId.Some? && r.value.product.id == input.productId.value
      && r.value.product in catalog
      && input.quantity.GetOr(DefaultQuantity) <= r.value.product.currentStock
    ensures FieldErrors(input, partial) == [] && input.productId.Some? ==>
      if input.productId.value < 0 then r == Err([ProductNotFound])
      else match FindProduct(catalog, input.productId.value)
      case None => r == Err([ProductNotFound])
      case Some(p) =>
        if input.quantity.GetOr(DefaultQuantity) > p.currentStock then r == Err([OnlyAvailable(p.currentStock)])
        else r.Ok?
  {
    var fieldErrors := FieldErrors(input, partial);
    if fieldErrors != [] then Err(fieldErrors)
    else if input.productId.None? then Err([MissingKey("product_id")])
    else if input.productId.value < 0 then Err([ProductNotFound])
    else
      match FindProduct(catalog, input.productId.value)
      case None => Err([ProductNotFound])
      case Some(product) =>
        if input.quantity.GetOr(DefaultQuantity) > product.currentStock
        then Err([OnlyAvailable(product.currentStock)])
        else Ok(ValidatedItem(TrimVariants(input), product))
  }

  /** The stock bound is inclusive: asking for exactly the stock is accepted,
      one more is refused with the "Only N items available" error. */
  lemma StockBoundary(catalog: seq<Product>, p: Product, color: Option<string>, size: Option<string>)
    requires p in catalog && UniqueProductIds(catalog) && p.currentStock >= 1
    ensures Validate(CartItemInput(Some(p.id), Some(p.currentStock), color, size), catalog, false).Ok?
    ensures Validate(CartItemInput(Some(p.id), Some(p.currentStock + 1), color, size), catalog, false)
            == Err([OnlyAvailable(p.currentStock)])
  {
    var k :| 0 <= k < |catalog| && catalog[k] == p;
    FindProductAt(catalog, k);
  }

  /** An id that names no product is refused under `product_id`. */
  lemma UnknownProductRefused(catalog: seq<Product>, input: CartItemInput, partial: bool)
    requires FieldErrors(input, partial) == []
    requires input.productId.Some?
    requires forall p :: p in catalog ==> p.id != input.productId.value
    ensures Validate(input, catalog, partial) == Err([ProductNotFound])
    ensures ErrorField(ProductNotFound) == "product_id" && ErrorMessage(ProductNotFound) == "Product not found"
  {
  }

  /** As written, a partial update that leaves out `product_id` (for instance
      a body carrying only a new quantity) reaches `data['product_id']` and
      fails with a `KeyError`, whatever the item and the stock. */
  lemma PartialUpdateWithoutProductFails(catalog: seq<Product>, quantity: int)
    requires quantity >= MinQuantity
    ensures Validate(CartItemInput(None, Some(quantity), None, None), catalog, true)
            == Err([MissingKey("product_id")])
  {
  }

  /** The validation an update evidently intends: the product defaults to the
      one the line already holds. A partial update is then judged on its
      quantity against that product's stock and never fails with a `KeyError`. */
  function ValidateUpdate(input: CartItemInput, catalog: seq<Product>, current: CartItem): (r: Result<ValidatedItem, seq<ItemError>>)
    ensures r.Err? ==> forall e :: e in r.error ==> !e.MissingKey?
    ensures input.productId.None? && FieldErrors(input, true) == [] ==>
      match FindProduct(catalog, current.product)
      case None => r == Err([ProductNotFound])
      case Some(p) =>
        (r.Ok? <==> input.quantity.GetOr(DefaultQuantity) <= p.currentStock)
        && (r.Ok? ==> r.value.product == p && r.value.data == TrimVariants(input))
    ensures input.productId.Some? ==> r == Validate(input, catalog, true)
  {
    var fieldErrors := FieldErrors(input, true);
    if fieldErrors != [] then Err(fieldErrors)
    else if input.productId.Some? then Validate(input, catalog, true)
    else
      match FindProduct(catalog, current.product)
      case None => Err([ProductNotFound])
      case Some(product) =>
        if input.quantity.GetOr(DefaultQuantity) > product.currentStock
        then Err([OnlyAvailable(product.currentStock)])
        else Ok(ValidatedItem(TrimVariants(input), product))
  }

  /** Whitespace around a colour is not part of it: " Red " validates to
      the same data as "Red". */
  lemma PaddedColorTrimmed(input: CartItemInput, pad: string, pad': string, catalog: seq<Product>, partial: bool)
    requires input.selectedColor.Some?
    requires AllSpace(pad) && AllSpace(pad')
    ensures Validate(input.(selectedColor := Some(pad + input.selectedColor.value + pad')), catalog, partial)
            == Validate(input, catalog, partial)
  {
    var padded := input.(selectedColor := Some(pad + input.selectedColor.value + pad'));
    StripPadding(pad, input.selectedColor.value, pad');
    assert TrimVariants(padded) == TrimVariants(input);
    SameTrimSameValidation(padded, input, catalog, partial);
  }

  /** Validation sees the variants only through their trimmed form. */
  lemma SameTrimSameValidation(a: CartItemInput, b: CartItemInput, catalog: seq<Product>, partial: bool)
    requires a.productId == b.productId && a.quantity == b.quantity
    requires TrimVariants(a) == TrimVariants(b)
    ensures Validate(a, catalog, partial) == Validate(b, catalog, partial)
  {
    assert FieldErrors(a, partial) == FieldErrors(b, partial);
    if FieldErrors(b, partial) == [] && b.productId.Some? && b.productId.value >= 0 {
      match FindProduct(catalog, b.productId.value)
      case None =>
      case Some(p) =>
        if b.quantity.GetOr(DefaultQuantity) <= p.currentStock {
          assert Validate(a, catalog, partial) == Ok(ValidatedItem(TrimVariants(a), p));
          assert Validate(b, catalog, partial) == Ok(ValidatedItem(TrimVariants(b), p));
        }
    }
  }

  // ---------------------------------------------------------------------------
  // Output shape.

  datatype ImageOut = ImageOut(id: nat, image: string, mediaType: string, altText: string, isPrimary: bool)

  /** The frontend shape of one cart line. Tags and the product timestamps
      are not part of this model. */
  datatype CartItemOut = CartItemOut(
    id: nat,
    cartItemId: string,
    name: string,
    price: string,
    description: string,
    category: string,
    images: seq<ImageOut>,
    quantity: int,
    selectedColor: string,
    selectedSize: string,
    currentStock: nat)

  function FindCategory(cs: seq<Category>, id: CategoryId): (r: Option<Category>)
    ensures r.Some? ==> r.value in cs && r.value.id == id
    ensures r.None? ==> forall c :: c in cs ==> c.id != id
  {
    if cs == [] then None
    else if cs[0].id == id then Some(cs[0])
    else FindCategory(cs[1..], id)
  }

  /** The category name shown for a product: blank when it has none. */
  function CategoryName(product: Product, cs: seq<Category>): string
  {
    match product.category
    case None => ""
    case Some(id) =>
      match FindCategory(cs, id)
      case Some(c) => c.name
      case None => ""
  }

  /** The product's own images, in table order. */
  function ImagesOf(imgs: seq<ProductImage>, product: ProductId): (r: seq<ProductImage>)
    ensures forall img :: img in r <==> img in imgs && img.product == product
  {
    if imgs == [] then []
    else if imgs[0].product == product then [imgs[0]] + ImagesOf(imgs[1..], product)
    else ImagesOf(imgs[1..], product)
  }

  /** `to_representation`: the frontend shape of a line, with the product's
      fields read live and the id given both as a number and as text. */
  function Represent(item: CartItem, product: Product, cs: seq<Category>, imgs: seq<ProductImage>): (r: CartItemOut)
    requires item.product == product.id
    ensures r.id == item.id && ParseNat(r.cartItemId) == Some(item.id)
    ensures ParseDecimal(r.price) == Some(product.price)
    ensures product.category.None? ==> r.category == ""
    ensures product.category.Some? && FindCategory(cs, product.category.value).Some? ==>
      r.category == FindCategory(cs, product.category.value).value.name
    ensures r.selectedColor == item.selectedColor && r.selectedSize == item.selectedSize
    ensures r.quantity == item.quantity && r.currentStock == product.currentStock
    ensures r.name == product.name && r.description == product.description
    ensures |r.images| == |ImagesOf(imgs, product.id)|
    ensures forall k :: 0 <= k < |r.images| ==>
      r.images[k].id == ImagesOf(imgs, product.id)[k].id
      && r.images[k].image == ImagesOf(imgs, product.id)[k].imageUrl
      && r.images[k].mediaType == ImagesOf(imgs, product.id)[k].mediaType
      && r.images[k].altText == ImagesOf(imgs, product.id)[k].altText
      && r.images[k].isPrimary == ImagesOf(imgs, product.id)[k].isPrimary
  {
    ParseNatToString(item.id);
    DecimalRoundTrip(product.price);
    var own := ImagesOf(imgs, product.id);
    CartItemOut(
      item.id,
      NatToString(item.id),
      product.name,
      DecimalToString(product.price),
      product.description,
      CategoryName(product, cs),
      seq(|own|, k requires 0 <= k < |own| =>
        ImageOut(own[k].id, own[k].imageUrl, own[k].mediaType, own[k].altText, own[k].isPrimary)),
      item.quantity,
      item.selectedColor,
      item.selectedSize,
      product.currentStock)
  }

  /** Distinct lines are told apart by their `cartItemId` strings. */
  lemma CartItemIdsDistinct(a: CartItem, pa: Product, b: CartItem, pb: Product,
                            cs: seq<Category>, imgs: seq<ProductImage>)
    requires a.product == pa.id && b.product == pb.id && a.id != b.id
    ensures Represent(a, pa, cs, imgs).cartItemId != Represent(b, pb, cs, imgs).cartItemId
  {
    if NatToString(a.id) == NatToString(b.id) {
      NatToStringInjective(a.id, b.id);
    }
  }
}

=== FILE: cart_views.dfy ===
/** The querysets of src/cart/views.py: the item list creates the user's cart
    on first use and shows only that cart's lines; the cart list shows only
    the user's own cart. */
module CartViews {
  import opened Wrappers
  import opened CartModels
  import opened Users

  /** `Cart.objects.get_or_create(user=user)`: the user's cart, created empty
      under the next id when the user has none. The flag says whether a row
      was created. */
  function GetOrCreateCart(db: CartDb, user: UserId): (r: (CartDb, Cart, bool))
    ensures r.1.user == user && r.1 in r.0.carts
    ensures r.0.items == db.items
    ensures r.2 <==> FindCart(db.carts, user).None?
    ensures !r.2 ==> r.0 == db && r.1 in db.carts
    ensures r.2 ==> r.0.carts == db.carts + [r.1] && r.1.id == db.nextCartId
    ensures ValidCartDb(db) ==> ValidCartDb(r.0)
  {
    match FindCart(db.carts, user)
    case Some(cart) => (db, cart, false)
    case None =>
      var cart := Cart(db.nextCartId, user);
      var db' := db.(carts := db.carts + [cart], nextCartId := db.nextCartId + 1);
      assert ValidCartDb(db) ==> ValidCartDb(db') by {
        if ValidCartDb(db) {
          assert forall k :: 0 <= k < |db.carts| ==> db'.carts[k] == db.carts[k];
          assert forall i :: 0 <= i < |db.items| ==> HasCart(db'.carts, db.items[i].cart) by {
            forall i | 0 <= i < |db.items| ensures HasCart(db'.carts, db.items[i].cart) {
              var k :| 0 <= k < |db.carts| && db.carts[k].id == db.items[i].cart;
              assert db'.carts[k].id == db.items[i].cart;
            }
          }
        }
      }
      (db', cart, true)
  }

  /** A cart just created owns no line yet. */
  lemma NewCartIsEmpty(db: CartDb, user: UserId)
    requires ValidCartDb(db)
    requires FindCart(db.carts, user).None?
    ensures ItemsOf(db.items, GetOrCreateCart(db, user).1.id) == []
  {
    var cart := GetOrCreateCart(db, user).1;
    forall it | it in db.items ensures it.cart != cart.id {
      var i :| 0 <= i < |db.items| && db.items[i] == it;
      var k :| 0 <= k < |db.carts| && db.carts[k].id == it.cart;
    }
    if ItemsOf(db.items, cart.id) != [] {
      assert ItemsOf(db.items, cart.id)[0] in ItemsOf(db.items, cart.id);
    }
  }

  /** Get-or-create is idempotent: a second call finds the cart the first
      returned and changes nothing. */
  lemma GetOrCreateIdempotent(db: CartDb, user: UserId)
    ensures var (db1, cart1, _) := GetOrCreateCart(db, user);
      GetOrCreateCart(db1, user) == (db1, cart1, false)
  {
    var (db1, cart1, created) := GetOrCreateCart(db, user);
    if created {
      FindCartAppend(db.carts, cart1);
    }
  }

  /** Looking a user up after their cart was appended finds that cart, when
      none of theirs came before it. */
  lemma {:induction false} FindCartAppend(carts: seq<Cart>, cart: Cart)
    requires FindCart(carts, cart.user).None?
    ensures FindCart(carts + [cart], cart.user) == Some(cart)
  {
    if carts != [] {
      assert (carts + [cart])[1..] == carts[1..] + [cart];
      FindCartAppend(carts[1..], cart);
    }
  }

  /** `CartItemViewSet.get_queryset`: the lines of the requester's cart, which
      is created first if missing. The list holds exactly that cart's lines;
      in a consistent database every listed line belongs to a cart of the
      requester and so never to another user. */
  function ListCartItems(db: CartDb, user: UserId): (r: (CartDb, seq<CartItem>))
    ensures var (_, cart, _) := GetOrCreateCart(db, user);
      forall it :: it in r.1 <==> it in db.items && it.cart == cart.id
    ensures r.0 == GetOrCreateCart(db, user).0
    ensures ValidCartDb(db) ==>
      forall it, c :: it in r.1 && c in r.0.carts && c.id == it.cart ==> c.user == user
  {
    var (db', cart, _) := GetOrCreateCart(db, user);
    var items := ItemsOf(db'.items, cart.id);
    assert ValidCartDb(db) ==>
      forall it, c :: it in items && c in db'.carts && c.id == it.cart ==> c.user == user by {
      if ValidCartDb(db) {
        forall it, c | it in items && c in db'.carts && c.id == it.cart ensures c.user == user {
          var a :| 0 <= a < |db'.carts| && db'.carts[a] == c;
          var b :| 0 <= b < |db'.carts| && db'.carts[b] == cart;
          assert a == b;
        }
      }
    }
    (db', items)
  }

  /** A user without a cart gets exactly one new, empty cart and an empty list. */
  lemma FirstListingCreatesOneEmptyCart(db: CartDb, user: UserId)
    requires ValidCartDb(db)
    requires FindCart(db.carts, user).None?
    ensures var (db', items) := ListCartItems(db, user);
      && items == []
      && |db'.carts| == |db.carts| + 1
      && db'.items == db.items
  {
    NewCartIsEmpty(db, user);
  }

  /** The carts belonging to `user`, in table order. */
  function CartsOf(carts: seq<Cart>, user: UserId): (r: seq<Cart>)
    ensures forall c :: c in r <==> c in carts && c.user == user
  {
    if carts == [] then []
    else if carts[0].user == user then [carts[0]] + CartsOf(carts[1..], user)
    else CartsOf(carts[1..], user)
  }

  /** With one cart per user, a user's carts number at most one. */
  lemma {:induction false} CartsOfAtMostOne(carts: seq<Cart>, user: UserId)
    requires OneCartPerUser(carts)
    ensures |CartsOf(carts, user)| <= 1
  {
    if carts != [] {
      if carts[0].user == user {
        OwnerHasNoSecondCart(carts, user);
      } else {
        TailKeepsOneCartPerUser(carts);
        CartsOfAtMostOne(carts[1..], user);
      }
    }
  }

  lemma TailKeepsOneCartPerUser(carts: seq<Cart>)
    requires carts != []
    ensures OneCartPerUser(carts) ==> OneCartPerUser(carts[1..])
  {
    if OneCartPerUser(carts) {
      forall i, j | 0 <= i < j < |carts| - 1 ensures carts[1..][i].user != carts[1..][j].user {
        assert carts[1..][i] == carts[i + 1] && carts[1..][j] == carts[j + 1];
      }
    }
  }

  /** When the first cart is the user's, no later cart is. */
  lemma OwnerHasNoSecondCart(carts: seq<Cart>, user: UserId)
    requires carts != [] && carts[0].user == user
    ensures OneCartPerUser(carts) ==> CartsOf(carts[1..], user) == []
  {
    if OneCartPerUser(carts) {
      var tail := carts[1..];
      assert forall k :: 0 <= k < |tail| ==> tail[k] == carts[k + 1];
      NoCartsOfOther(tail, user);
    }
  }

  lemma {:induction false} NoCartsOfOther(carts: seq<Cart>, user: UserId)
    requires forall k :: 0 <= k < |carts| ==> carts[k].user != user
    ensures CartsOf(carts, user) == []
  {
    if carts != [] {
      NoCartsOfOther(carts[1..], user);
    }
  }

  /** `CartViewSet.get_queryset`: only the requester's cart, so at most one. */
  function ListCarts(carts: seq<Cart>, user: UserId): (r: seq<Cart>)
    ensures forall c :: c in r ==> c.user == user
    ensures forall c :: c in carts && c.user == user ==> c in r
    ensures OneCartPerUser(carts) ==> |r| <= 1
  {
    if OneCartPerUser(carts) then
      CartsOfAtMostOne(carts, user);
      CartsOf(carts, user)
    else CartsOf(carts, user)
  }
}

=== FILE: catalog.dfy ===
/** The catalog tables of src/product/models.py: categories, products and
    product images, with the column bounds, defaults and constraints the
    schema enforces. Money is integer cents (a `DecimalField` with two
    places); timestamps are integers on one clock. */
module Catalog {
  import opened Wrappers
  import opened Text

  type ProductId = nat
  type CategoryId = nat
  type Time = int

  /** `aggregated_order_info`: revenue in cents and the order count. */
  datatype OrderInfo = OrderInfo(totalRevenue: int, totalOrders: nat)

  datatype Category = Category(
    id: CategoryId,
    name: string,
    description: Option<string>,
    slug: Option<string>)

  /** Counters and stock are `PositiveIntegerField`s, so `nat` (the database
      refuses negatives); the price bound is only a validator, so `int`
      with `ValidProduct` saying what validation guarantees. */
  datatype Product = Product(
    id: ProductId,
    category: Option<CategoryId>,
    name: string,
    description: string,
    price: int,
    salesCount: nat,
    viewsCount: nat,
    trendingScore: real,
    aggregatedOrderInfo: Option<OrderInfo>,
    currentStock: nat,
    isLaunch: bool,
    releaseDate: Option<Time>,
    createdAt: Time)

  datatype ProductImage = ProductImage(
    id: nat,
    product: ProductId,
    imageUrl: string,
    mediaType: string,
    altText: string,
    isPrimary: bool)

  /** Every money column is `DecimalField(max_digits=10, decimal_places=2)`,
      which leaves eight digits before the point: an amount is representable
      exactly when it is under 10^8 units, that is 10^10 cents, in absolute
      value. */
  const PriceBound: int := 10_000_000_000

  /** The largest value a `PositiveIntegerField` takes: Django's integer range
      for that field on PostgreSQL and MySQL, which `ModelSerializer` turns
      into a `max_value` on the field. */
  const PositiveIntegerMax: int := 2147483647

  datatype CatalogError = DuplicateCategoryName | DuplicateSlug | DuplicatePrimaryImage

  /** `Product.is_released`: a release date is set and has passed. */
  predicate IsReleased(p: Product, now: Time)
    ensures p.releaseDate.None? ==> !IsReleased(p, now)
    ensures p.releaseDate == Some(now) ==> IsReleased(p, now)
    ensures p.releaseDate.Some? && now < p.releaseDate.value ==> !IsReleased(p, now)
  {
    p.releaseDate.Some? && p.releaseDate.value <= now
  }

  /** Once released, a product stays released. */
  lemma ReleaseIsPermanent(p: Product, now: Time, later: Time)
    requires IsReleased(p, now) && now <= later
    ensures IsReleased(p, later)
  {
  }

  /** `Product.is_in_stock`: at least one unit is left. */
  predicate IsInStock(p: Product)
    ensures p.currentStock == 0 ==> !IsInStock(p)
    ensures p.currentStock >= 1 ==> IsInStock(p)
  {
    p.currentStock > 0
  }

  /** What `MinValueValidator(0)` on the price guarantees of a validated row. */
  predicate ValidProduct(p: Product)
  {
    p.price >= 0
  }

  /** Product ids are primary keys. */
  predicate UniqueProductIds(ps: seq<Product>)
  {
    forall i, j :: 0 <= i < j < |ps| ==> ps[i].id != ps[j].id
  }

  /** Resolves a product id (`Product.objects.get(id=...)`). */
  function FindProduct(ps: seq<Product>, id: ProductId): (r: Option<Product>)
    ensures r.Some? ==> r.value in ps && r.value.id == id
    ensures r.None? <==> forall p :: p in ps ==> p.id != id
  {
    if ps == [] then None
    else if ps[0].id == id then Some(ps[0])
    else FindProduct(ps[1..], id)
  }

  // ---------------------------------------------------------------------------
  // Categories: unique name, unique (nullable) slug, listed in name order.

  /** Each category's name precedes (or equals) the next one's. */
  predicate SortedByName(cs: seq<Category>)
  {
    forall i :: 0 <= i < |cs| - 1 ==> LexLe(cs[i].name, cs[i + 1].name)
  }

  predicate UniqueNames(cs: seq<Category>)
  {
    forall i, j :: 0 <= i < j < |cs| ==> cs[i].name != cs[j].name
  }

  predicate NameTaken(cs: seq<Category>, name: string)
  {
    exists i :: 0 <= i < |cs| && cs[i].name == name
  }

  predicate SlugTaken(cs: seq<Category>, slug: Option<string>)
  {
    slug.Some? && exists i :: 0 <= i < |cs| && cs[i].slug == slug
  }

  /** Places `c` before the first category whose name does not precede its own. */
  function InsertByName(c: Category, cs: seq<Category>): (r: seq<Category>)
    requires SortedByName(cs)
    ensures SortedByName(r)
    ensures multiset(r) == multiset(cs) + multiset{c}
    ensures |r| == |cs| + 1
    ensures r[0] == c || (cs != [] && r[0] == cs[0])
  {
    if cs == [] || LexLe(c.name, cs[0].name) then
      [c] + cs
    else
      LexLeTotal(c.name, cs[0].name);
      var rest := InsertByName(c, cs[1..]);
      assert cs == [cs[0]] + cs[1..];
      [cs[0]] + rest
  }

  /** Creating a category: the unique name and slug columns refuse a clash;
      otherwise the category joins the name-ordered listing. Its id is the
      fresh one the database's auto-increment assigns. */
  function AddCategory(cs: seq<Category>, c: Category): (r: Result<seq<Category>, CatalogError>)
    requires SortedByName(cs)
    requires forall k :: k in cs ==> k.id != c.id
    ensures r.Err? <==> NameTaken(cs, c.name) || SlugTaken(cs, c.slug)
    ensures r.Ok? ==> SortedByName(r.value) && multiset(r.value) == multiset(cs) + multiset{c}
    ensures r.Ok? ==> forall k :: k in r.value && k.id == c.id ==> k == c
    ensures r.Ok? && UniqueNames(cs) ==> UniqueNames(r.value)
  {
    if NameTaken(cs, c.name) then Err(DuplicateCategoryName)
    else if SlugTaken(cs, c.slug) then Err(DuplicateSlug)
    else
      assert UniqueNames(cs) ==> UniqueNames(InsertByName(c, cs)) by {
        if UniqueNames(cs) {
          InsertByNameUnique(c, cs);
        }
      }
      var r := InsertByName(c, cs);
      assert forall k :: k in r ==> k in cs || k == c by {
        forall k | k in r ensures k in cs || k == c {
          assert k in multiset(r);
        }
      }
      Ok(r)
  }

  /** A new name inserted into a listing with unique names leaves the names unique. */
  lemma {:induction false} InsertByNameUnique(c: Category, cs: seq<Category>)
    requires SortedByName(cs) && UniqueNames(cs) && !NameTaken(cs, c.name)
    ensures UniqueNames(InsertByName(c, cs))
  {
    if cs != [] && !LexLe(c.name, cs[0].name) {
      var tail := cs[1..];
      assert UniqueNames(tail) by {
        forall i, j | 0 <= i < j < |tail| ensures tail[i].name != tail[j].name {
          assert tail[i] == cs[i + 1] && tail[j] == cs[j + 1];
        }
      }
      assert !NameTaken(tail, c.name) by {
        forall k | 0 <= k < |tail| ensures tail[k].name != c.name {
          assert tail[k] == cs[k + 1];
        }
      }
      InsertByNameUnique(c, tail);
      var rest := InsertByName(c, tail);
      forall j | 0 <= j < |rest| ensures rest[j].name != cs[0].name {
        assert rest[j] in multiset(tail) + multiset{c};
        if rest[j] != c {
          assert rest[j] in tail;
          var k :| 0 <= k < |tail| && tail[k] == rest[j];
          assert cs[k + 1] == rest[j];
        } else {
          assert cs[0].name != c.name;
        }
      }
      PrependUniqueName(cs[0], rest);
    } else {
      forall j | 0 <= j < |cs| ensures cs[j].name != c.name {
        assert cs[j] in cs;
      }
      PrependUniqueName(c, cs);
    }
  }

  /** A category whose name no listed category has keeps the names unique
      when it is put in front. */
  lemma PrependUniqueName(x: Category, rest: seq<Category>)
    requires UniqueNames(rest)
    requires forall j :: 0 <= j < |rest| ==> rest[j].name != x.name
    ensures UniqueNames([x] + rest)
  {
    var r := [x] + rest;
    forall i, j | 0 <= i < j < |r| ensures r[i].name != r[j].name {
      assert r[j] == rest[j - 1];
      if i > 0 {
        assert r[i] == rest[i - 1];
      }
    }
  }

  // ---------------------------------------------------------------------------
  // Category deletion: `on_delete=SET_NULL` on `Product.category`.

  /** Deletes category `id`; its products stay, with no category. */
  function DeleteCategory(cs: seq<Category>, ps: seq<Product>, id: CategoryId): (r: (seq<Category>, seq<Product>))
    ensures forall c :: c in r.0 <==> c in cs && c.id != id
    ensures |r.1| == |ps|
    ensures forall i :: 0 <= i < |ps| ==> r.1[i].category != Some(id)
    ensures forall i :: 0 <= i < |ps| ==> r.1[i].(category := ps[i].category) == ps[i]
    ensures forall i :: 0 <= i < |ps| && ps[i].category != Some(id) ==> r.1[i] == ps[i]
  {
    (Filter(cs, (c: Category) => c.id != id),
     seq(|ps|, i requires 0 <= i < |ps| =>
       if ps[i].category == Some(id) then ps[i].(category := None) else ps[i]))
  }

  // ---------------------------------------------------------------------------
  // Product images: at most one primary image per product (a unique
  // constraint on `product` conditioned on `is_primary`).

  predicate AtMostOnePrimary(imgs: seq<ProductImage>)
  {
    forall i, j :: 0 <= i < j < |imgs| && imgs[i].isPrimary && imgs[j].isPrimary ==>
      imgs[i].product != imgs[j].product
  }

  predicate HasPrimary(imgs: seq<ProductImage>, product: ProductId)
  {
    exists i :: 0 <= i < |imgs| && imgs[i].isPrimary && imgs[i].product == product
  }

  /** Inserting an image row: a second primary image for the same product is
      refused by the conditional unique constraint; every other insert succeeds. */
  function AddImage(imgs: seq<ProductImage>, img: ProductImage): (r: Result<seq<ProductImage>, CatalogError>)
    ensures r.Err? <==> img.isPrimary && HasPrimary(imgs, img.product)
    ensures r.Ok? ==> r.value == imgs + [img]
    ensures r.Ok? && AtMostOnePrimary(imgs) ==> AtMostOnePrimary(r.value)
  {
    if img.isPrimary && HasPrimary(imgs, img.product) then Err(DuplicatePrimaryImage)
    else Ok(imgs + [img])
  }
}

=== FILE: http.dfy ===
/** The HTTP status codes the modelled endpoints answer with. */
module Http {
  const StatusOk: int := 200
  const StatusBadRequest: int := 400
  const StatusServerError: int := 500
}

=== FILE: orders.dfy ===
/** Orders and order lines of src/orders/models.py and the order endpoint of
    src/orders/views.py: the status enumeration, the unique payment-intent
    id, owner stamping on create, staff-or-owner visibility, lines that
    keep their own copy of what was bought, and the three deletion rules. */
module Orders {
  import opened Wrappers
  import opened Text
  import opened Catalog
  import opened Http
  import Users

  type UserId = Users.UserId

  // ---------------------------------------------------------------------------
  // Status: `STATUS_CHOICES`, default "pending".

  datatype OrderStatus = Pending | Paid | Shipped | Delivered | Cancelled

  function StatusCode(s: OrderStatus): string
  {
    match s
    case Pending => "pending"
    case Paid => "paid"
    case Shipped => "shipped"
    case Delivered => "delivered"
    case Cancelled => "cancelled"
  }

  function ParseStatus(s: string): (r: Option<OrderStatus>)
    ensures r.Some? ==> StatusCode(r.value) == s
  {
    if s == "pending" then Some(Pending)
    else if s == "paid" then Some(Paid)
    else if s == "shipped" then Some(Shipped)
    else if s == "delivered" then Some(Delivered)
    else if s == "cancelled" then Some(Cancelled)
    else None
  }

  const DefaultStatus: OrderStatus := Pending

  /** The five codes are exactly the accepted status values. */
  lemma StatusCodesRoundTrip(st: OrderStatus, s: string)
    ensures ParseStatus(StatusCode(st)) == Some(st)
    ensures ParseStatus(s).Some? <==> s in {"pending", "paid", "shipped", "delivered", "cancelled"}
    ensures StatusCode(DefaultStatus) == "pending"
  {
  }

  // ---------------------------------------------------------------------------
  // Tables.

  /** Money columns are cents; `shippingInfo` is the JSON text. */
  datatype Order = Order(
    id: nat,
    user: Option<UserId>,
    paymentIntentId: string,
    amount: int,
    currency: string,
    shippingInfo: string,
    subtotal: int,
    shipping: int,
    total: int,
    status: OrderStatus,
    trackingNumber: Option<string>,
    trackingUrl: Option<string>,
    createdAt: Time)

  /** A line keeps its own name, quantity, price, colour and size; `product`
      is only a nullable link back to the catalog. */
  datatype OrderItem = OrderItem(
    id: nat,
    order: nat,
    product: Option<ProductId>,
    name: string,
    quantity: nat,
    price: int,
    color: string,
    size: string)

  datatype OrderDb = OrderDb(orders: seq<Order>, items: seq<OrderItem>, nextOrderId: nat, nextItemId: nat)

  /** Default of `color` and `size`. */
  const DefaultVariant: string := "Default"

  predicate IntentTaken(orders: seq<Order>, intent: string)
  {
    exists k :: 0 <= k < |orders| && orders[k].paymentIntentId == intent
  }

  /** `payment_intent_id` is `unique=True`. */
  predicate UniqueIntentIds(orders: seq<Order>)
  {
    forall i, j :: 0 <= i < j < |orders| ==> orders[i].paymentIntentId != orders[j].paymentIntentId
  }

  predicate UniqueOrderIds(orders: seq<Order>)
  {
    forall i, j :: 0 <= i < j < |orders| ==> orders[i].id != orders[j].id
  }

  predicate HasOrder(orders: seq<Order>, id: nat)
  {
    exists k :: 0 <= k < |orders| && orders[k].id == id
  }

  predicate ValidOrderDb(db: OrderDb)
  {
    && UniqueIntentIds(db.orders)
    && UniqueOrderIds(db.orders)
    && (forall k :: 0 <= k < |db.orders| ==> db.orders[k].id < db.nextOrderId)
    && (forall i :: 0 <= i < |db.items| ==> HasOrder(db.orders, db.items[i].order))
  }

  // ---------------------------------------------------------------------------
  // Validating an order request: the fields `OrderSerializer` takes from the
  // model, and the nested `OrderItemSerializer` for `items`.

  /** One entry of `items`; `None` is an absent key. Money is in cents. */
  datatype ItemRequest = ItemRequest(
    productId: Option<ProductId>,
    name: Option<string>,
    quantity: Option<int>,
    price: Option<int>,
    color: Option<string>,
    size: Option<string>)

  /** An order request body; `None` is an absent key, or a null for the
      nullable fields. `shippingInfo` is the JSON text, kept as it is. */
  datatype OrderInput = OrderInput(
    user: Option<UserId>,
    paymentIntentId: Option<string>,
    amount: Option<int>,
    currency: Option<string>,
    shippingInfo: Option<string>,
    subtotal: Option<int>,
    shipping: Option<int>,
    total: Option<int>,
    status: Option<string>,
    trackingNumber: Option<string>,
    trackingUrl: Option<string>,
    items: Option<seq<ItemRequest>>)

  datatype OrderError =
    | Required(field: string)
    | Blank(field: string)
    | TooLong(field: string, limit: nat)
    | TooManyDigits(field: string)
    | BelowMinimum(field: string)
    | AboveMaximum(field: string)
    | InvalidChoice(value: string)
    | InvalidUrl
    | UnknownUser(pk: UserId)
    | UnknownProduct(pk: ProductId)
    | DuplicatePaymentIntent
    | InItem(index: nat, errors: seq<OrderError>)

  /** The `max_length` of each text column. */
  const IntentMaxLength: nat := 100
  const CurrencyMaxLength: nat := 10
  const TrackingNumberMaxLength: nat := 100
  const TrackingUrlMaxLength: nat := 200
  const LineNameMaxLength: nat := 255
  const VariantMaxLength: nat := 50

  /** A required `CharField`: present, not blank once trimmed, and within its
      length once trimmed. */
  predicate RequiredTextOk(value: Option<string>, limit: nat)
  {
    value.Some? && !IsBlank(value.value) && |Strip(value.value)| <= limit
  }

  /** A `CharField` that may be absent or blank. */
  predicate OptionalTextOk(value: Option<string>, limit: nat)
  {
    value.None? || |Strip(value.value)| <= limit
  }

  /** A required money field within `max_digits`. */
  predicate MoneyOk(value: Option<int>)
  {
    value.Some? && -PriceBound < value.value < PriceBound
  }

  /** What the nested serializer accepts for one line: an existing product,
      a name, a quantity in the `PositiveIntegerField` range, a price, and
      optional colour and size. */
  predicate ItemAcceptable(item: ItemRequest, products: set<ProductId>)
  {
    && item.productId.Some? && item.productId.value in products
    && RequiredTextOk(item.name, LineNameMaxLength)
    && item.quantity.Some? && 0 <= item.quantity.value <= PositiveIntegerMax
    && MoneyOk(item.price)
    && OptionalTextOk(item.color, VariantMaxLength)
    && OptionalTextOk(item.size, VariantMaxLength)
  }

  /** The status a request asks for: the default when absent. */
  function RequestedStatus(input: OrderInput): Option<OrderStatus>
  {
    match input.status
    case None => Some(DefaultStatus)
    case Some(s) => ParseStatus(s)
  }

  /** A blank or absent tracking URL is allowed; any other is trimmed and
      must fit the column and be a URL. */
  predicate TrackingUrlOk(value: Option<string>, isUrl: string -> bool)
  {
    value.None? || IsBlank(value.value)
    || (|Strip(value.value)| <= TrackingUrlMaxLength && isUrl(Strip(value.value)))
  }

  /** Every entry of a present `items` list is acceptable. */
  predicate ItemsOk(items: Option<seq<ItemRequest>>, products: set<ProductId>)
  {
    items.Some? && forall k :: 0 <= k < |items.value| ==> ItemAcceptable(items.value[k], products)
  }

  /** What `OrderSerializer` accepts: a sent `user` must exist; the intent id
      is required and unused by any order; the currency, the shipping
      details, the money fields and `items` are required; the status is a
      choice; the tracking fields may be absent or blank. */
  predicate OrderAcceptable(orders: seq<Order>, input: OrderInput, users: set<UserId>,
                            products: set<ProductId>, isUrl: string -> bool)
  {
    && (input.user.None? || input.user.value in users)
    && RequiredTextOk(input.paymentIntentId, IntentMaxLength)
    && !IntentTaken(orders, Strip(input.paymentIntentId.value))
    && MoneyOk(input.amount)
    && RequiredTextOk(input.currency, CurrencyMaxLength)
    && input.shippingInfo.Some?
    && MoneyOk(input.subtotal) && MoneyOk(input.shipping) && MoneyOk(input.total)
    && RequestedStatus(input).Some?
    && OptionalTextOk(input.trackingNumber, TrackingNumberMaxLength)
    && TrackingUrlOk(input.trackingUrl, isUrl)
    && ItemsOk(input.items, products)
  }

  function RequiredTextErrors(field: string, value: Option<string>, limit: nat): (r: seq<OrderError>)
    ensures r == [] <==> RequiredTextOk(value, limit)
    ensures value.Some? && IsBlank(value.value) ==> r == [Blank(field)]
  {
    if value.None? then [Required(field)]
    else if IsBlank(value.value) then [Blank(field)]
    else if |Strip(value.value)| > limit then [TooLong(field, limit)]
    else []
  }

  function OptionalTextErrors(field: string, value: Option<string>, limit: nat): (r: seq<OrderError>)
    ensures r == [] <==> OptionalTextOk(value, limit)
  {
    if value.Some? && |Strip(value.value)| > limit then [TooLong(field, limit)] else []
  }

  function MoneyErrors(field: string, value: Option<int>): (r: seq<OrderError>)
    ensures r == [] <==> MoneyOk(value)
  {
    if value.None? then [Required(field)]
    else if value.value <= -PriceBound || PriceBound <= value.value then [TooManyDigits(field)]
    else []
  }

  /** The field errors of one line, in field order. */
  function ItemErrors(item: ItemRequest, products: set<ProductId>): (r: seq<OrderError>)
    ensures r == [] <==> ItemAcceptable(item, products)
    ensures item.productId.Some? && item.productId.value !in products ==> UnknownProduct(item.productId.value) in r
    ensures item.quantity.Some? && item.quantity.value < 0 ==> BelowMinimum("quantity") in r
  {
    var product :=
      if item.productId.None? then [Required("product_id")]
      else if item.productId.value !in products then [UnknownProduct(item.productId.value)]
      else [];
    var quantity :=
      if item.quantity.None? then [Required("quantity")]
      else if item.quantity.value < 0 then [BelowMinimum("quantity")]
      else if item.quantity.value > PositiveIntegerMax then [AboveMaximum("quantity")]
      else [];
    product + RequiredTextErrors("name", item.name, LineNameMaxLength) + quantity + MoneyErrors("price", item.price)
      + OptionalTextErrors("color", item.color, VariantMaxLength)
      + OptionalTextErrors("size", item.size, VariantMaxLength)
  }

  /** The errors of a list of nested entries, each refused entry under its
      index, given the errors `errorsOf` of one entry; `from` is the index of
      `items[0]`. */
  function ListErrors(items: seq<ItemRequest>, errorsOf: ItemRequest -> seq<OrderError>, from: nat): (r: seq<OrderError>)
    decreases |items|
    ensures r == [] <==> forall k :: 0 <= k < |items| ==> errorsOf(items[k]) == []
    ensures forall k :: 0 <= k < |items| && errorsOf(items[k]) != [] ==> InItem(from + k, errorsOf(items[k])) in r
  {
    if items == [] then []
    else
      var e := errorsOf(items[0]);
      var rest := ListErrors(items[1..], errorsOf, from + 1);
      assert forall k :: 1 <= k < |items| ==> items[1..][k - 1] == items[k];
      (if e == [] then [] else [InItem(from, e)]) + rest
  }

  function ItemsFieldErrors(items: Option<seq<ItemRequest>>, products: set<ProductId>): (r: seq<OrderError>)
    ensures r == [] <==> ItemsOk(items, products)
    ensures items.None? ==> r == [Required("items")]
    ensures items.Some? ==> forall k :: 0 <= k < |items.value| && !ItemAcceptable(items.value[k], products) ==>
      InItem(k, ItemErrors(items.value[k], products)) in r
  {
    if items.None? then [Required("items")]
    else
      var r := ListErrors(items.value, item => ItemErrors(item, products), 0);
      assert r == [] <==> ItemsOk(items, products) by {
        assert forall k :: 0 <= k < |items.value| ==>
          (ItemErrors(items.value[k], products) == [] <==> ItemAcceptable(items.value[k], products));
      }
      r
  }

  function UserErrors(user: Option<UserId>, users: set<UserId>): (r: seq<OrderError>)
    ensures r == [] <==> user.None? || user.value in users
    ensures user.Some? && user.value !in users ==> r == [UnknownUser(user.value)]
  {
    if user.Some? && user.value !in users then [UnknownUser(user.value)] else []
  }

  /** The intent id: a required `CharField`, then both of its validators,
      `max_length` and the unique check against the stored orders. */
  function IntentErrors(orders: seq<Order>, value: Option<string>): (r: seq<OrderError>)
    ensures r == [] <==> RequiredTextOk(value, IntentMaxLength) && !IntentTaken(orders, Strip(value.value))
    ensures value.Some? && IsBlank(value.value) ==> r == [Blank("payment_intent_id")]
    ensures value.Some? && !IsBlank(value.value) && IntentTaken(orders, Strip(value.value)) ==>
      DuplicatePaymentIntent in r
  {
    if value.None? || IsBlank(value.value) then RequiredTextErrors("payment_intent_id", value, IntentMaxLength)
    else
      var v := Strip(value.value);
      (if |v| > IntentMaxLength then [TooLong("payment_intent_id", IntentMaxLength)] else [])
      + (if IntentTaken(orders, v) then [DuplicatePaymentIntent] else [])
  }

  function StatusErrors(input: OrderInput): (r: seq<OrderError>)
    ensures r == [] <==> RequestedStatus(input).Some?
  {
    if RequestedStatus(input).None? then [InvalidChoice(input.status.value)] else []
  }

  function TrackingUrlErrors(value: Option<string>, isUrl: string -> bool): (r: seq<OrderError>)
    ensures r == [] <==> TrackingUrlOk(value, isUrl)
  {
    if value.None? || IsBlank(value.value) then []
    else if |Strip(value.value)| > TrackingUrlMaxLength then [TooLong("tracking_url", TrackingUrlMaxLength)]
    else if !isUrl(Strip(value.value)) then [InvalidUrl]
    else []
  }

  /** The field errors of an order request, in the serializer's field order. */
  function OrderErrors(orders: seq<Order>, input: OrderInput, users: set<UserId>,
                       products: set<ProductId>, isUrl: string -> bool): (r: seq<OrderError>)
    ensures r == [] <==> OrderAcceptable(orders, input, users, products, isUrl)
    ensures input.user.Some? && input.user.value !in users ==> UnknownUser(input.user.value) in r
    ensures input.paymentIntentId.Some? && IsBlank(input.paymentIntentId.value) ==> Blank("payment_intent_id") in r
    ensures input.paymentIntentId.Some? && !IsBlank(input.paymentIntentId.value) ==>
      (IntentTaken(orders, Strip(input.paymentIntentId.value)) ==> DuplicatePaymentIntent in r)
    ensures input.currency.Some? && IsBlank(input.currency.value) ==> Blank("currency") in r
    ensures input.items.None? ==> Required("items") in r
  {
    var head := UserErrors(input.user, users) + IntentErrors(orders, input.paymentIntentId)
      + MoneyErrors("amount", input.amount) + RequiredTextErrors("currency", input.currency, CurrencyMaxLength)
      + (if input.shippingInfo.None? then [Required("shipping_info")] else []);
    var money := MoneyErrors("subtotal", input.subtotal) + MoneyErrors("shipping", input.shipping)
      + MoneyErrors("total", input.total);
    var tail := StatusErrors(input)
      + OptionalTextErrors("tracking_number", input.trackingNumber, TrackingNumberMaxLength)
      + TrackingUrlErrors(input.trackingUrl, isUrl) + ItemsFieldErrors(input.items, products);
    head + money + tail
  }

  // ---------------------------------------------------------------------------
  // Creating an order.

  /** The stored colour or size: the trimmed value sent, or the default. */
  function StoredVariant(v: Option<string>): string
  {
    if v.Some? then Strip(v.value) else DefaultVariant
  }

  /** `line` stores request entry `req` as a line of order `orderId`. */
  predicate StoresLine(line: OrderItem, orderId: nat, req: ItemRequest)
  {
    && line.order == orderId
    && line.product == req.productId
    && req.name.Some? && line.name == Strip(req.name.value)
    && req.quantity.Some? && line.quantity == req.quantity.value
    && req.price.Some? && line.price == req.price.value
    && line.color == StoredVariant(req.color) && line.size == StoredVariant(req.size)
  }

  /** The fields a line cannot be stored without. */
  predicate ItemComplete(req: ItemRequest)
  {
    req.name.Some? && req.quantity.Some? && req.quantity.value >= 0 && req.price.Some?
  }

  function LineOf(id: nat, orderId: nat, req: ItemRequest): (r: OrderItem)
    requires ItemComplete(req)
    ensures StoresLine(r, orderId, req) && r.id == id
  {
    OrderItem(id, orderId, req.productId, Strip(req.name.value), req.quantity.value as nat,
              req.price.value, StoredVariant(req.color), StoredVariant(req.size))
  }

  function NewLines(orderId: nat, firstId: nat, items: seq<ItemRequest>): (r: seq<OrderItem>)
    requires forall k :: 0 <= k < |items| ==> ItemComplete(items[k])
    ensures |r| == |items|
    ensures forall k :: 0 <= k < |items| ==> StoresLine(r[k], orderId, items[k]) && r[k].id == firstId + k
  {
    seq(|items|, k requires 0 <= k < |items| => LineOf(firstId + k, orderId, items[k]))
  }

  lemma AcceptedItemsComplete(items: seq<ItemRequest>, products: set<ProductId>)
    requires forall k :: 0 <= k < |items| ==> ItemAcceptable(items[k], products)
    ensures forall k :: 0 <= k < |items| ==> ItemComplete(items[k])
  {
  }

  /** Storing an accepted request: the order goes under the next id, owned
      by the requester, with trimmed text; each entry of `items` becomes one
      line of it, in request order. */
  function PlaceOrder(db: OrderDb, input: OrderInput, users: set<UserId>, products: set<ProductId>,
                      isUrl: string -> bool, requester: UserId, now: Time): (r: (OrderDb, Order))
    requires OrderAcceptable(db.orders, input, users, products, isUrl)
    ensures var (db', o) := r;
      && o.id == db.nextOrderId && o.user == Some(requester) && o.createdAt == now
      && o.paymentIntentId == Strip(input.paymentIntentId.value) && o.paymentIntentId != ""
      && o.currency == Strip(input.currency.value) && o.currency != ""
      && Some(o.amount) == input.amount && Some(o.total) == input.total
      && Some(o.subtotal) == input.subtotal && Some(o.shipping) == input.shipping
      && Some(o.status) == RequestedStatus(input) && (input.status.None? ==> o.status == Pending)
      && o.trackingNumber == StripOption(input.trackingNumber) && o.trackingUrl == StripOption(input.trackingUrl)
      && db'.orders == db.orders + [o]
      && |db'.items| == |db.items| + |input.items.value| && db'.items[..|db.items|] == db.items
      && (forall k :: 0 <= k < |input.items.value| ==> StoresLine(db'.items[|db.items| + k], o.id, input.items.value[k]))
    ensures ValidOrderDb(db) ==> ValidOrderDb(r.0)
  {
    var o := Order(db.nextOrderId, Some(requester), Strip(input.paymentIntentId.value), input.amount.value,
                   Strip(input.currency.value), input.shippingInfo.value, input.subtotal.value,
                   input.shipping.value, input.total.value, RequestedStatus(input).value,
                   StripOption(input.trackingNumber), StripOption(input.trackingUrl), now);
    AcceptedItemsComplete(input.items.value, products);
    var lines := NewLines(o.id, db.nextItemId, input.items.value);
    var db' := OrderDb(db.orders + [o], db.items + lines, db.nextOrderId + 1, db.nextItemId + |lines|);
    assert db'.items[..|db.items|] == db.items;
    assert forall k :: 0 <= k < |lines| ==> db'.items[|db.items| + k] == lines[k];
    assert ValidOrderDb(db) ==> ValidOrderDb(db') by {
      if ValidOrderDb(db) {
        NewOrderKeepsValid(db, o, lines, db');
      }
    }
    (db', o)
  }

  /** The create endpoint with its nested lines written as the serializer
      evidently intends: a request with field errors is refused with all of
      them; otherwise `PlaceOrder` stores it, owned by the requester
      whatever the body says. */
  function CreateOrder(db: OrderDb, input: OrderInput, users: set<UserId>, products: set<ProductId>,
                       isUrl: string -> bool, requester: UserId, now: Time): (r: Result<(OrderDb, Order), seq<OrderError>>)
    ensures r.Err? <==> !OrderAcceptable(db.orders, input, users, products, isUrl)
    ensures r.Err? ==> r.error == OrderErrors(db.orders, input, users, products, isUrl)
    ensures r.Ok? ==>
      && OrderAcceptable(db.orders, input.(user := None), users, products, isUrl)
      && r.value == PlaceOrder(db, input.(user := None), users, products, isUrl, requester, now)
  {
    var errors := OrderErrors(db.orders, input, users, products, isUrl);
    if errors != [] then Err(errors)
    else
      // The body's `user` plays no part in what is stored.
      var unowned := input.(user := None);
      AcceptableWithoutOwner(db.orders, input, users, products, isUrl);
      var placed := PlaceOrder(db, unowned, users, products, isUrl, requester, now);
      Ok(placed)
  }

  /** What a successful create stores: one order under the next id, owned by
      the requester whatever the body says, with the trimmed intent id and
      currency and the requested (or default) status, followed by one line
      per entry of `items` in request order; the tables stay consistent. */
  lemma CreatedOrder(db: OrderDb, input: OrderInput, users: set<UserId>, products: set<ProductId>,
                     isUrl: string -> bool, requester: UserId, now: Time)
    requires CreateOrder(db, input, users, products, isUrl, requester, now).Ok?
    ensures var (db', o) := CreateOrder(db, input, users, products, isUrl, requester, now).value;
      && o.id == db.nextOrderId && o.user == Some(requester) && o.createdAt == now
      && o.paymentIntentId == Strip(input.paymentIntentId.value) && o.paymentIntentId != ""
      && o.currency == Strip(input.currency.value) && o.currency != ""
      && Some(o.amount) == input.amount && Some(o.total) == input.total
      && Some(o.status) == RequestedStatus(input) && (input.status.None? ==> o.status == Pending)
      && db'.orders == db.orders + [o]
      && |db'.items| == |db.items| + |input.items.value| && db'.items[..|db.items|] == db.items
      && (forall k :: 0 <= k < |input.items.value| ==> StoresLine(db'.items[|db.items| + k], o.id, input.items.value[k]))
      && (ValidOrderDb(db) ==> ValidOrderDb(db'))
  {
    var unowned := input.(user := None);
    assert RequestedStatus(unowned) == RequestedStatus(input);
    var placed := PlaceOrder(db, unowned, users, products, isUrl, requester, now);
    assert CreateOrder(db, input, users, products, isUrl, requester, now).value == placed;
  }

  /** Dropping the body's `user` never makes an accepted request refused. */
  lemma AcceptableWithoutOwner(orders: seq<Order>, input: OrderInput, users: set<UserId>,
                               products: set<ProductId>, isUrl: string -> bool)
    requires OrderAcceptable(orders, input, users, products, isUrl)
    ensures OrderAcceptable(orders, input.(user := None), users, products, isUrl)
  {
    assert RequestedStatus(input.(user := None)) == RequestedStatus(input);
  }

  /** Appending an order with a fresh id and an unused intent, with lines that
      all belong to it, keeps the tables consistent. */
  lemma NewOrderKeepsValid(db: OrderDb, o: Order, lines: seq<OrderItem>, db': OrderDb)
    requires ValidOrderDb(db)
    requires o.id == db.nextOrderId && !IntentTaken(db.orders, o.paymentIntentId)
    requires forall k :: 0 <= k < |lines| ==> lines[k].order == o.id
    requires db' == OrderDb(db.orders + [o], db.items + lines, db.nextOrderId + 1, db.nextItemId + |lines|)
    ensures ValidOrderDb(db')
  {
    assert forall k :: 0 <= k < |db.orders| ==> db'.orders[k] == db.orders[k];
    assert db'.orders[|db.orders|] == o;
    forall i | 0 <= i < |db'.items| ensures HasOrder(db'.orders, db'.items[i].order) {
      if i < |db.items| {
        assert db'.items[i] == db.items[i];
        var k :| 0 <= k < |db.orders| && db.orders[k].id == db.items[i].order;
        assert db'.orders[k].id == db.items[i].order;
      } else {
        assert db'.items[i] == lines[i - |db.items|];
      }
    }
  }

  /** As written, `items` is a writable nested serializer and
      `ModelSerializer.create` refuses nested writes with an assertion. A
      request with field errors gets 400; every other request reaches
      `serializer.save` and fails there with 500. No order is ever stored. */
  function CreateOrderAsWritten(db: OrderDb, input: OrderInput, users: set<UserId>, products: set<ProductId>,
                                isUrl: string -> bool, requester: UserId, now: Time): (r: (int, OrderDb))
    ensures r.1 == db
    ensures r.0 == StatusBadRequest <==> !OrderAcceptable(db.orders, input, users, products, isUrl)
    ensures r.0 == StatusServerError <==> OrderAcceptable(db.orders, input, users, products, isUrl)
  {
    if OrderErrors(db.orders, input, users, products, isUrl) != [] then (StatusBadRequest, db)
    else (StatusServerError, db)
  }

  /** Every order the corrected endpoint would store, the endpoint as written
      answers with a server error, storing nothing. */
  lemma OrdersNeverCreatedAsWritten(db: OrderDb, input: OrderInput, users: set<UserId>, products: set<ProductId>,
                                    isUrl: string -> bool, requester: UserId, now: Time)
    requires CreateOrder(db, input, users, products, isUrl, requester, now).Ok?
    ensures |CreateOrder(db, input, users, products, isUrl, requester, now).value.0.orders| == |db.orders| + 1
    ensures CreateOrderAsWritten(db, input, users, products, isUrl, requester, now) == (StatusServerError, db)
  {
    CreatedOrder(db, input, users, products, isUrl, requester, now);
    assert OrderAcceptable(db.orders, input, users, products, isUrl);
  }

  /** The owner sent in the body is ignored when it names an existing user:
      only the requester counts. A `user` that names no user is refused. */
  lemma OwnerIsRequester(db: OrderDb, input: OrderInput, claimed: Option<UserId>, users: set<UserId>,
                         products: set<ProductId>, isUrl: string -> bool, requester: UserId, now: Time)
    ensures (claimed.None? || claimed.value in users) && (input.user.None? || input.user.value in users) ==>
      CreateOrder(db, input.(user := claimed), users, products, isUrl, requester, now)
      == CreateOrder(db, input, users, products, isUrl, requester, now)
    ensures claimed.Some? && claimed.value !in users ==>
      var r := CreateOrder(db, input.(user := claimed), users, products, isUrl, requester, now);
      r.Err? && UnknownUser(claimed.value) in r.error
  {
    var sent := input.(user := claimed);
    if (claimed.None? || claimed.value in users) && (input.user.None? || input.user.value in users) {
      OwnerOnlyChecked(db.orders, input, sent, users, products, isUrl);
      assert sent.(user := None) == input.(user := None);
    }
  }

  /** Two requests that differ only in an existing or absent owner get the
      same field errors. */
  lemma OwnerOnlyChecked(orders: seq<Order>, a: OrderInput, b: OrderInput, users: set<UserId>,
                         products: set<ProductId>, isUrl: string -> bool)
    requires b == a.(user := b.user)
    requires (a.user.None? || a.user.value in users) && (b.user.None? || b.user.value in users)
    ensures OrderErrors(orders, a, users, products, isUrl) == OrderErrors(orders, b, users, products, isUrl)
  {
    assert UserErrors(a.user, users) == [] == UserErrors(b.user, users);
    assert RequestedStatus(a) == RequestedStatus(b);
  }

  /** A second order for the same payment intent, once trimmed, is refused. */
  lemma SecondOrderForIntentRefused(db: OrderDb, input: OrderInput, other: OrderInput, users: set<UserId>,
                                    products: set<ProductId>, isUrl: string -> bool, requester: UserId, who: UserId,
                                    now: Time, later: Time)
    requires CreateOrder(db, input, users, products, isUrl, requester, now).Ok?
    requires other.paymentIntentId.Some? && !IsBlank(other.paymentIntentId.value)
    requires Strip(other.paymentIntentId.value) == Strip(input.paymentIntentId.value)
    ensures var r := CreateOrder(CreateOrder(db, input, users, products, isUrl, requester, now).value.0,
                                 other, users, products, isUrl, who, later);
      r.Err? && DuplicatePaymentIntent in r.error
  {
    CreatedOrder(db, input, users, products, isUrl, requester, now);
    var (db', o) := CreateOrder(db, input, users, products, isUrl, requester, now).value;
    AppendedIntentTaken(db.orders, o);
    var errors := OrderErrors(db'.orders, other, users, products, isUrl);
    assert DuplicatePaymentIntent in errors;
  }

  lemma AppendedIntentTaken(orders: seq<Order>, o: Order)
    ensures IntentTaken(orders + [o], o.paymentIntentId)
  {
    assert (orders + [o])[|orders|] == o;
  }

  /** A blank intent id or currency is refused, as is a body without `items`. */
  lemma BlankIntentOrCurrencyRefused(db: OrderDb, input: OrderInput, users: set<UserId>, products: set<ProductId>,
                                     isUrl: string -> bool, requester: UserId, now: Time)
    requires input.paymentIntentId == Some("") || input.currency == Some("  ") || input.items.None?
    ensures CreateOrder(db, input, users, products, isUrl, requester, now).Err?
  {
    var errors := OrderErrors(db.orders, input, users, products, isUrl);
    if input.paymentIntentId == Some("") {
      assert IsBlank(input.paymentIntentId.value);
      assert Blank("payment_intent_id") in errors;
    } else if input.currency == Some("  ") {
      assert IsBlank(input.currency.value) by {
        assert AllSpace(input.currency.value);
      }
      assert Blank("currency") in errors;
    } else {
      assert Required("items") in errors;
    }
  }

  // ---------------------------------------------------------------------------
  // Visibility: `OrderViewSet.get_queryset`.

  /** The orders whose user is `user`, in table order. */
  function OrdersOf(orders: seq<Order>, user: UserId): (r: seq<Order>)
    ensures forall o :: o in r <==> o in orders && o.user == Some(user)
  {
    if orders == [] then []
    else if orders[0].user == Some(user) then [orders[0]] + OrdersOf(orders[1..], user)
    else OrdersOf(orders[1..], user)
  }

  /** Staff see every order; anyone else sees exactly their own. */
  function VisibleOrders(orders: seq<Order>, requester: UserId, isStaff: bool): (r: seq<Order>)
    ensures isStaff ==> r == orders
    ensures forall o :: o in r <==> o in orders && (isStaff || o.user == Some(requester))
  {
    if isStaff then orders else OrdersOf(orders, requester)
  }

  /** An order without a user is visible to staff only. */
  lemma OwnerlessOrdersStaffOnly(orders: seq<Order>, o: Order, requester: UserId, isStaff: bool)
    requires o in orders && o.user.None?
    ensures o in VisibleOrders(orders, requester, isStaff) <==> isStaff
  {
  }

  /** The order just placed is visible to the user who placed it and to no
      other non-staff user. */
  lemma NewOrderVisibility(db: OrderDb, input: OrderInput, users: set<UserId>, products: set<ProductId>,
                           isUrl: string -> bool, requester: UserId, other: UserId, now: Time)
    requires CreateOrder(db, input, users, products, isUrl, requester, now).Ok?
    requires other != requester
    ensures var (db', o) := CreateOrder(db, input, users, products, isUrl, requester, now).value;
      o in VisibleOrders(db'.orders, requester, false) && o !in VisibleOrders(db'.orders, other, false)
  {
    CreatedOrder(db, input, users, products, isUrl, requester, now);
    var (db', o) := CreateOrder(db, input, users, products, isUrl, requester, now).value;
    AppendedOrderVisibility(db.orders, o, requester, other);
  }

  /** An order appended with owner `owner` is seen by that owner and by no
      other non-staff user. */
  lemma AppendedOrderVisibility(orders: seq<Order>, o: Order, owner: UserId, other: UserId)
    requires o.user == Some(owner) && other != owner
    ensures o in VisibleOrders(orders + [o], owner, false) && o !in VisibleOrders(orders + [o], other, false)
  {
    assert (orders + [o])[|orders|] == o;
  }

  // ---------------------------------------------------------------------------
  // Lines.

  datatype ItemInput = ItemInput(
    product: Option<ProductId>,
    name: string,
    quantity: int,
    price: int,
    color: Option<string>,
    size: Option<string>)

  datatype ItemError = UnknownOrder | UnknownLineProduct(pk: ProductId) | QuantityOutOfRange

  /** Adding a line to an order: the order must exist, a non-null product
      must be one of `products` (the product ids in the table; both are
      foreign keys) and the quantity (a `PositiveIntegerField`) must be
      within the column's range; colour and size default to "Default".
      What was bought is copied into the line itself. */
  function AddOrderItem(db: OrderDb, products: set<ProductId>, orderId: nat, input: ItemInput)
    : (r: Result<(OrderDb, OrderItem), ItemError>)
    ensures r.Err? <==>
      || !HasOrder(db.orders, orderId) || input.quantity < 0 || input.quantity > PositiveIntegerMax
      || (input.product.Some? && input.product.value !in products)
    ensures HasOrder(db.orders, orderId) && input.product.Some? && input.product.value !in products ==>
      r == Err(UnknownLineProduct(input.product.value))
    ensures r.Ok? ==> var (db', item) := r.value;
      && db'.orders == db.orders && db'.items == db.items + [item]
      && item.order == orderId && item.product == input.product
      && item.name == input.name && item.quantity == input.quantity && item.price == input.price
      && item.color == input.color.GetOr(DefaultVariant) && item.size == input.size.GetOr(DefaultVariant)
    ensures r.Ok? && ValidOrderDb(db) ==> ValidOrderDb(r.value.0)
  {
    if !HasOrder(db.orders, orderId) then Err(UnknownOrder)
    else if input.product.Some? && input.product.value !in products then Err(UnknownLineProduct(input.product.value))
    else if input.quantity < 0 || input.quantity > PositiveIntegerMax then Err(QuantityOutOfRange)
    else
      var item := OrderItem(db.nextItemId, orderId, input.product, input.name, input.quantity as nat,
                            input.price, input.color.GetOr(DefaultVariant), input.size.GetOr(DefaultVariant));
      Ok((db.(items := db.items + [item], nextItemId := db.nextItemId + 1), item))
  }

  // ---------------------------------------------------------------------------
  // Deletion.

  /** The columns a line keeps for itself. */
  predicate SameSnapshot(a: OrderItem, b: OrderItem)
  {
    a.id == b.id && a.order == b.order && a.name == b.name && a.quantity == b.quantity
    && a.price == b.price && a.color == b.color && a.size == b.size
  }

  /** Deleting a product (`on_delete=SET_NULL` on `OrderItem.product`):
      every line stays, its link to that product becomes null and nothing
      else about it changes. */
  function DeleteProductFromOrders(db: OrderDb, product: ProductId): (r: OrderDb)
    ensures r.orders == db.orders && |r.items| == |db.items|
    ensures forall i :: 0 <= i < |db.items| ==> SameSnapshot(r.items[i], db.items[i])
    ensures forall i :: 0 <= i < |db.items| ==>
      r.items[i].product == (if db.items[i].product == Some(product) then None else db.items[i].product)
    ensures ValidOrderDb(db) ==> ValidOrderDb(r)
  {
    var items := seq(|db.items|, i requires 0 <= i < |db.items| =>
      if db.items[i].product == Some(product) then db.items[i].(product := None) else db.items[i]);
    db.(items := items)
  }

  /** After the product is gone no line points at it, and every line still
      reports what was bought. */
  lemma NoLineReferencesDeletedProduct(db: OrderDb, product: ProductId)
    ensures forall it :: it in DeleteProductFromOrders(db, product).items ==> it.product != Some(product)
    ensures forall i :: 0 <= i < |db.items| ==>
      DeleteProductFromOrders(db, product).items[i].(product := db.items[i].product) == db.items[i]
  {
    var r := DeleteProductFromOrders(db, product);
    forall it | it in r.items ensures it.product != Some(product) {
      var i :| 0 <= i < |r.items| && r.items[i] == it;
    }
  }

  /** The lines of every order except `id`, in table order. */
  function ItemsNotOf(items: seq<OrderItem>, id: nat): (r: seq<OrderItem>)
    ensures forall it :: it in r <==> it in items && it.order != id
  {
    if items == [] then []
    else if items[0].order != id then [items[0]] + ItemsNotOf(items[1..], id)
    else ItemsNotOf(items[1..], id)
  }

  function OrdersExcept(orders: seq<Order>, id: nat): (r: seq<Order>)
    ensures forall o :: o in r <==> o in orders && o.id != id
    ensures multiset(r) <= multiset(orders)
  {
    if orders == [] then []
    else
      var rest := OrdersExcept(orders[1..], id);
      assert orders == [orders[0]] + orders[1..];
      if orders[0].id != id then [orders[0]] + rest else rest
  }

  /** Deleting an order deletes its lines (`on_delete=CASCADE`) and leaves
      every other order and line in place. */
  function DeleteOrder(db: OrderDb, id: nat): (r: OrderDb)
    ensures forall o :: o in r.orders <==> o in db.orders && o.id != id
    ensures forall it :: it in r.items <==> it in db.items && it.order != id
    ensures ValidOrderDb(db) ==> ValidOrderDb(r)
  {
    var orders := OrdersExcept(db.orders, id);
    var items := ItemsNotOf(db.items, id);
    var r := db.(orders := orders, items := items);
    assert ValidOrderDb(db) ==> ValidOrderDb(r) by {
      if ValidOrderDb(db) {
        SubMultisetKeepsUniqueOrders(orders, db.orders);
        forall k | 0 <= k < |orders| ensures orders[k].id < db.nextOrderId {
          assert orders[k] in orders;
        }
        forall i | 0 <= i < |items| ensures HasOrder(orders, items[i].order) {
          assert items[i] in items;
          var j :| 0 <= j < |db.items| && db.items[j] == items[i];
          var k :| 0 <= k < |db.orders| && db.orders[k].id == items[i].order;
          assert db.orders[k] in orders;
          var m :| 0 <= m < |orders| && orders[m] == db.orders[k];
        }
      }
    }
    r
  }

  /** Uniqueness of ids and intent ids survives dropping orders. */
  lemma SubMultisetKeepsUniqueOrders(a: seq<Order>, b: seq<Order>)
    requires multiset(a) <= multiset(b)
    requires UniqueIntentIds(b) && UniqueOrderIds(b)
    ensures UniqueIntentIds(a) && UniqueOrderIds(a)
  {
    assert Distinct(b) by {
      forall i, j | 0 <= i < j < |b| ensures b[i] != b[j] {
        assert b[i].id != b[j].id;
      }
    }
    SubMultisetDistinct(a, b);
    forall i, j | 0 <= i < j < |a| ensures a[i].paymentIntentId != a[j].paymentIntentId && a[i].id != a[j].id {
      assert a[i] in multiset(a) && a[j] in multiset(a);
      var p :| 0 <= p < |b| && b[p] == a[i];
      var q :| 0 <= q < |b| && b[q] == a[j];
      if p > q {
        assert b[q].paymentIntentId != b[p].paymentIntentId && b[q].id != b[p].id;
      }
    }
  }

  /** Deleting a user (`on_delete=SET_NULL` on `Order.user`): their orders
      stay, ownerless; no other column of any order changes. */
  function DeleteUserFromOrders(orders: seq<Order>, user: UserId): (r: seq<Order>)
    ensures |r| == |orders|
    ensures forall k :: 0 <= k < |orders| ==> r[k].(user := orders[k].user) == orders[k]
    ensures forall k :: 0 <= k < |orders| && orders[k].user == Some(user) ==> r[k].user == None
    ensures forall k :: 0 <= k < |orders| && orders[k].user != Some(user) ==> r[k] == orders[k]
  {
    seq(|orders|, k requires 0 <= k < |orders| =>
      orders[k].(user := Users.SetNull(orders[k].user, user)))
  }

  /** The former owner's orders are then seen by staff only: the deleted
      user's own view is empty, staff still see every order. */
  lemma DeletedUsersOrdersStaffOnly(orders: seq<Order>, user: UserId)
    ensures VisibleOrders(DeleteUserFromOrders(orders, user), user, false) == []
    ensures |VisibleOrders(DeleteUserFromOrders(orders, user), user, true)| == |orders|
  {
    NoOrdersOfOther(DeleteUserFromOrders(orders, user), user);
  }

  lemma {:induction false} NoOrdersOfOther(orders: seq<Order>, user: UserId)
    requires forall k :: 0 <= k < |orders| ==> orders[k].user != Some(user)
    ensures OrdersOf(orders, user) == []
  {
    if orders != [] {
      NoOrdersOfOther(orders[1..], user);
    }
  }
}

=== FILE: payments.dfy ===
/** Payments of src/payments: the create-intent request and its single
    provider call, the webhook that records Stripe payment-intent events as
    `Payment` rows, the payment output shape and the requester's history.
    The provider and the signature check are parameters: an event that
    fails to parse or verify arrives as `None`. Amounts are integer cents
    throughout; the row's dollar column holds exactly the intent's cents
    divided by one hundred. */
module Payments {
  import opened Wrappers
  import opened Text
  import opened Catalog
  import opened Users
  import opened Ranking
  import opened Http

  // ---------------------------------------------------------------------------
  // The create-intent request.

  /** `min_value` of `amount`, in cents. */
  const MinIntentAmount: int := 50

  /** Default of `currency`, in the request and in the table. */
  const DefaultCurrency: string := "aud"

  datatype IntentRequest = IntentRequest(
    amount: Option<int>,
    currency: Option<string>,
    metadata: Option<map<string, string>>)

  datatype ValidIntentRequest = ValidIntentRequest(amount: int, currency: string, metadata: Option<map<string, string>>)

  datatype RequestError = AmountRequired | AmountBelowMinimum | CurrencyBlank | MetadataBlank(keys: set<string>)

  /** The metadata keys whose value the child `CharField` refuses as blank. */
  function BlankKeys(m: map<string, string>): (r: set<string>)
    ensures forall k :: k in r <==> k in m && IsBlank(m[k])
  {
    set k | k in m && IsBlank(m[k])
  }

  /** The metadata the child `CharField`s hand on: every value trimmed. */
  function TrimValues(m: map<string, string>): (r: map<string, string>)
    ensures r.Keys == m.Keys
    ensures BlankKeys(m) == {} ==> forall k :: k in r ==> r[k] == Strip(m[k]) != ""
  {
    map k | k in m :: Strip(m[k])
  }

  /** `CreatePaymentIntentSerializer`: the amount is required and at least
      50 cents; the currency defaults to "aud", may not be blank and is
      trimmed; the metadata is optional, and each of its values may not be
      blank and is trimmed. */
  function ValidateIntentRequest(req: IntentRequest): (r: Result<ValidIntentRequest, seq<RequestError>>)
    ensures r.Ok? <==>
      && req.amount.Some? && req.amount.value >= MinIntentAmount
      && (req.currency.Some? ==> !IsBlank(req.currency.value))
      && (req.metadata.Some? ==> forall k :: k in req.metadata.value ==> !IsBlank(req.metadata.value[k]))
    ensures r.Ok? ==>
      && r.value.amount == req.amount.value
      && r.value.currency == (if req.currency.Some? then Strip(req.currency.value) else DefaultCurrency)
      && r.value.currency != ""
      && (r.value.metadata.Some? <==> req.metadata.Some?)
      && (req.metadata.Some? ==>
            && r.value.metadata.value.Keys == req.metadata.value.Keys
            && forall k :: k in req.metadata.value ==> r.value.metadata.value[k] == Strip(req.metadata.value[k]) != "")
    ensures r.Err? ==> r.error != []
    ensures req.metadata.Some? && BlankKeys(req.metadata.value) != {} ==>
      r.Err? && MetadataBlank(BlankKeys(req.metadata.value)) in r.error
  {
    var amountErrors :=
      if req.amount.None? then [AmountRequired]
      else if req.amount.value < MinIntentAmount then [AmountBelowMinimum]
      else [];
    var currencyErrors := if req.currency.Some? && IsBlank(req.currency.value) then [CurrencyBlank] else [];
    var metadataErrors :=
      if req.metadata.Some? && BlankKeys(req.metadata.value) != {} then [MetadataBlank(BlankKeys(req.metadata.value))] else [];
    var errors := amountErrors + currencyErrors + metadataErrors;
    if errors != [] then
      assert req.metadata.Some? && BlankKeys(req.metadata.value) != {} ==> errors[|errors| - 1] == MetadataBlank(BlankKeys(req.metadata.value));
      Err(errors)
    else
      assert req.metadata.Some? ==> BlankKeys(req.metadata.value) == {};
      Ok(ValidIntentRequest(req.amount.value,
                            if req.currency.Some? then Strip(req.currency.value) else DefaultCurrency,
                            if req.metadata.Some? then Some(TrimValues(req.metadata.value)) else None))
  }

  /** One call to the payment provider's intent creation. */
  datatype ProviderCall = CreateIntent(amount: int, currency: string, metadata: map<string, string>)

  /** What the endpoint answers: the field errors (400), a body holding
      nothing but the intent's client secret (200), or, when the provider
      refuses the call, the uncaught error (500). */
  datatype IntentResponse = BadRequest(errors: seq<RequestError>) | ClientSecret(clientSecret: string) | ProviderFailed

  /** The HTTP status of an answer. */
  function IntentStatus(resp: IntentResponse): int
  {
    match resp
    case BadRequest(_) => StatusBadRequest
    case ClientSecret(_) => StatusOk
    case ProviderFailed => StatusServerError
  }

  /** `CreatePaymentIntentView.post`. The provider maps a call to the new
      intent's client secret, or to `None` when it refuses the call (an
      unsupported currency, say); nothing catches that refusal. The trace
      lists the calls made. */
  function CreatePaymentIntent(req: IntentRequest, provider: ProviderCall -> Option<string>): (r: (IntentResponse, seq<ProviderCall>))
    ensures ValidateIntentRequest(req).Err? ==> r == (BadRequest(ValidateIntentRequest(req).error), [])
    ensures ValidateIntentRequest(req).Ok? ==>
      var v := ValidateIntentRequest(req).value;
      && r.1 == [CreateIntent(v.amount, v.currency, v.metadata.GetOr(map[]))]
      && (provider(r.1[0]).Some? ==> r.0 == ClientSecret(provider(r.1[0]).value))
      && (provider(r.1[0]).None? ==> r.0 == ProviderFailed)
  {
    match ValidateIntentRequest(req)
    case Err(errors) => (BadRequest(errors), [])
    case Ok(v) =>
      var call := CreateIntent(v.amount, v.currency, v.metadata.GetOr(map[]));
      match provider(call)
      case Some(secret) => (ClientSecret(secret), [call])
      case None => (ProviderFailed, [call])
  }

  /** Validation comes before any provider call: an invalid request reaches
      the provider never and is answered 400, a valid one exactly once, and
      a call is never made for less than 50 cents, in a blank currency or
      with blank metadata. A client secret always comes from a call, and a
      refused call is answered 500. */
  lemma ProviderCalledOnlyWhenValid(req: IntentRequest, provider: ProviderCall -> Option<string>)
    ensures var (resp, calls) := CreatePaymentIntent(req, provider);
      && |calls| <= 1
      && (|calls| == 1 <==> !resp.BadRequest?)
      && (IntentStatus(resp) == StatusBadRequest <==> ValidateIntentRequest(req).Err?)
      && (resp.ClientSecret? ==> |calls| == 1 && provider(calls[0]) == Some(resp.clientSecret))
      && (IntentStatus(resp) == StatusServerError <==> |calls| == 1 && provider(calls[0]).None?)
      && (forall c :: c in calls ==> c.amount >= MinIntentAmount && c.currency != "")
      && (forall c :: c in calls ==> forall k :: k in c.metadata ==> c.metadata[k] != "")
  {
  }

  /** A request without currency is made in Australian dollars. */
  lemma CurrencyDefaultsToAud(amount: int, provider: ProviderCall -> Option<string>)
    requires amount >= MinIntentAmount
    ensures CreatePaymentIntent(IntentRequest(Some(amount), None, None), provider).1
            == [CreateIntent(amount, "aud", map[])]
  {
  }

  /** A currency the request check accepts can still be refused by the
      provider: the call is made, and the answer is a server error. */
  lemma UnsupportedCurrencyIsServerError(amount: int, provider: ProviderCall -> Option<string>)
    requires amount >= MinIntentAmount
    requires provider(CreateIntent(amount, "xyz", map[])).None?
    ensures var (resp, calls) := CreatePaymentIntent(IntentRequest(Some(amount), Some("xyz"), None), provider);
      && calls == [CreateIntent(amount, "xyz", map[])]
      && IntentStatus(resp) == StatusServerError
  {
    var req := IntentRequest(Some(amount), Some("xyz"), None);
    StripKeepsTrimmed("xyz");
    assert !IsBlank("xyz");
    var v := ValidateIntentRequest(req);
    assert v.Ok? && v.value == ValidIntentRequest(amount, "xyz", None);
  }

  // ---------------------------------------------------------------------------
  // The payment table.

  datatype Payment = Payment(
    id: nat,
    user: Option<UserId>,
    orderId: Option<string>,
    intentId: string,
    amountCents: int,
    currency: string,
    status: string,
    createdAt: Time)

  datatype PaymentDb = PaymentDb(payments: seq<Payment>, nextId: nat)

  predicate IntentRecorded(payments: seq<Payment>, intentId: string)
  {
    exists k :: 0 <= k < |payments| && payments[k].intentId == intentId
  }

  /** `stripe_payment_intent_id` is `unique=True`. */
  predicate OnePaymentPerIntent(payments: seq<Payment>)
  {
    forall i, j :: 0 <= i < j < |payments| ==> payments[i].intentId != payments[j].intentId
  }

  // ---------------------------------------------------------------------------
  // The webhook.

  datatype Intent = Intent(id: string, amount: int, currency: string, status: string, metadata: map<string, string>)

  datatype Event = Event(eventType: string, intent: Intent)

  const Succeeded: string := "payment_intent.succeeded"
  const PaymentFailed: string := "payment_intent.payment_failed"

  /** `metadata.get(key)`. */
  function MetaGet(m: map<string, string>, key: string): Option<string>
  {
    if key in m then Some(m[key]) else None
  }

  /** The user a succeeded intent names: none when `user_id` is absent, the
      number it spells otherwise; a value that is not a number cannot be
      stored in the foreign key. */
  function MetadataUser(m: map<string, string>): Result<Option<UserId>, string>
  {
    match MetaGet(m, "user_id")
    case None => Ok(None)
    case Some(s) =>
      match ParseNat(s)
      case None => Err(s)
      case Some(n) => Ok(Some(n))
  }

  /** The row a succeeded or failed event records, when it can be stored. */
  function RecordFor(e: Event, id: nat, now: Time): Result<Payment, string>
  {
    if e.eventType == Succeeded then
      match MetadataUser(e.intent.metadata)
      case Err(s) => Err(s)
      case Ok(user) =>
        Ok(Payment(id, user, MetaGet(e.intent.metadata, "order_id"), e.intent.id, e.intent.amount,
                   e.intent.currency, e.intent.status, now))
    else Ok(Payment(id, None, None, e.intent.id, e.intent.amount, e.intent.currency, e.intent.status, now))
  }

  /** `stripe_webhook` as a decision table. An event that does not parse or
      verify is answered 400 and records nothing. A succeeded or failed
      intent records one row (user and order only for succeeded), unless the
      row cannot be stored: an intent already recorded, or a user id that is
      not a number, ends in a server error with nothing recorded. Any other
      event is acknowledged with 200 and records nothing. */
  function StripeWebhook(db: PaymentDb, event: Option<Event>, now: Time): (r: (int, PaymentDb))
    ensures r.0 == StatusBadRequest <==> event.None?
    ensures event.None? ==> r.1 == db
    ensures event.Some? && event.value.eventType != Succeeded && event.value.eventType != PaymentFailed ==>
      r == (StatusOk, db)
    ensures r.1 == db || (r.0 == StatusOk && |r.1.payments| == |db.payments| + 1 && r.1.payments == db.payments + [r.1.payments[|db.payments|]])
    ensures r.1 != db ==>
      var e := event.value;
      var p := r.1.payments[|db.payments|];
      && !IntentRecorded(db.payments, e.intent.id)
      && p.intentId == e.intent.id && p.amountCents == e.intent.amount
      && p.currency == e.intent.currency && p.status == e.intent.status && p.createdAt == now
      && (e.eventType == PaymentFailed ==> p.user.None? && p.orderId.None?)
      && (e.eventType == Succeeded ==> p.orderId == MetaGet(e.intent.metadata, "order_id"))
      && (e.eventType == Succeeded ==>
            match MetaGet(e.intent.metadata, "user_id")
            case None => p.user.None?
            case Some(s) => p.user.Some? && ParseNat(s) == Some(p.user.value))
    ensures event.Some? && (event.value.eventType == Succeeded || event.value.eventType == PaymentFailed) ==>
      var e := event.value;
      && (IntentRecorded(db.payments, e.intent.id) ==> r == (StatusServerError, db))
      && (!IntentRecorded(db.payments, e.intent.id) && RecordFor(e, db.nextId, now).Err? ==> r == (StatusServerError, db))
      && (!IntentRecorded(db.payments, e.intent.id) && RecordFor(e, db.nextId, now).Ok? ==>
            r.0 == StatusOk && |r.1.payments| == |db.payments| + 1 && r.1.nextId == db.nextId + 1)
    ensures OnePaymentPerIntent(db.payments) ==> OnePaymentPerIntent(r.1.payments)
  {
    match event
    case None => (StatusBadRequest, db)
    case Some(e) =>
      if e.eventType != Succeeded && e.eventType != PaymentFailed then (StatusOk, db)
      else if IntentRecorded(db.payments, e.intent.id) then (StatusServerError, db)
      else
        match RecordFor(e, db.nextId, now)
        case Err(_) => (StatusServerError, db)
        case Ok(p) =>
          var db' := PaymentDb(db.payments + [p], db.nextId + 1);
          assert db'.payments[|db.payments|] == p;
          (StatusOk, db')
  }

  /** A succeeded event names the paying user and the order. */
  lemma SucceededRecordsUserAndOrder(db: PaymentDb, intent: Intent, user: UserId, order: string, now: Time)
    requires !IntentRecorded(db.payments, intent.id)
    requires MetaGet(intent.metadata, "user_id") == Some(NatToString(user))
    requires MetaGet(intent.metadata, "order_id") == Some(order)
    ensures var (status, db') := StripeWebhook(db, Some(Event(Succeeded, intent)), now);
      && status == StatusOk
      && |db'.payments| == |db.payments| + 1
      && db'.payments[|db.payments|].user == Some(user)
      && db'.payments[|db.payments|].orderId == Some(order)
  {
    ParseNatToString(user);
  }

  /** A failed event records a row with neither user nor order, whatever
      the metadata says. */
  lemma FailedRecordsNoOwner(db: PaymentDb, intent: Intent, now: Time)
    requires !IntentRecorded(db.payments, intent.id)
    ensures var (status, db') := StripeWebhook(db, Some(Event(PaymentFailed, intent)), now);
      && status == StatusOk
      && |db'.payments| == |db.payments| + 1
      && db'.payments[|db.payments|].user.None?
      && db'.payments[|db.payments|].orderId.None?
  {
  }

  /** A redelivered event cannot add a second row: the second delivery
      changes nothing, whichever of the two event types it is. */
  lemma RedeliveryRecordsOnce(db: PaymentDb, e: Event, now: Time, later: Time)
    requires e.eventType == Succeeded || e.eventType == PaymentFailed
    ensures var (_, once) := StripeWebhook(db, Some(e), now);
      StripeWebhook(once, Some(e), later).1 == once
  {
    var (_, once) := StripeWebhook(db, Some(e), now);
    if once != db {
      assert once.payments[|db.payments|].intentId == e.intent.id;
      assert IntentRecorded(once.payments, e.intent.id);
    }
  }

  // ---------------------------------------------------------------------------
  // Output and history.

  /** `PaymentSerializer`: the amount as a two-place decimal string; there is
      no field for the user or the order. */
  datatype PaymentOut = PaymentOut(id: nat, intentId: string, amount: string, currency: string, status: string, createdAt: Time)

  function ToPaymentOut(p: Payment): (r: PaymentOut)
    ensures r.id == p.id && r.intentId == p.intentId && r.currency == p.currency
    ensures r.status == p.status && r.createdAt == p.createdAt
    ensures ParseDecimal(r.amount) == Some(p.amountCents)
  {
    DecimalRoundTrip(p.amountCents);
    PaymentOut(p.id, p.intentId, DecimalToString(p.amountCents), p.currency, p.status, p.createdAt)
  }

  /** Nothing about the owner leaks into the output: two payments that differ
      only in user and order render identically. */
  lemma OutputHidesOwner(p: Payment, user: Option<UserId>, order: Option<string>)
    ensures ToPaymentOut(p.(user := user, orderId := order)) == ToPaymentOut(p)
  {
  }

  function PaymentTime(p: Payment): real
  {
    p.createdAt as real
  }

  /** The payments whose user is `user`, in table order. */
  function PaymentsOf(payments: seq<Payment>, user: UserId): (r: seq<Payment>)
    ensures forall p :: p in r <==> p in payments && p.user == Some(user)
    ensures multiset(r) <= multiset(payments)
  {
    if payments == [] then []
    else
      var rest := PaymentsOf(payments[1..], user);
      assert payments == [payments[0]] + payments[1..];
      if payments[0].user == Some(user) then [payments[0]] + rest else rest
  }

  /** `PaymentHistoryView.get_queryset`: the requester's payments, newest
      first, and nobody else's. */
  function PaymentHistory(payments: seq<Payment>, user: UserId): (r: seq<Payment>)
    ensures SortedDesc(r, PaymentTime)
    ensures multiset(r) == multiset(PaymentsOf(payments, user))
    ensures forall p :: p in r <==> p in payments && p.user == Some(user)
  {
    var own := PaymentsOf(payments, user);
    var r := SortDesc(own, PaymentTime);
    assert forall p :: p in r <==> p in multiset(r);
    assert forall p :: p in own <==> p in multiset(own);
    r
  }

  /** Deleting a user (`on_delete=SET_NULL`): their payments stay, ownerless,
      with every other column as it was. */
  function DeleteUserFromPayments(payments: seq<Payment>, user: UserId): (r: seq<Payment>)
    ensures |r| == |payments|
    ensures forall k :: 0 <= k < |payments| ==> r[k].(user := payments[k].user) == payments[k]
    ensures forall k :: 0 <= k < |payments| && payments[k].user == Some(user) ==> r[k].user == None
    ensures forall k :: 0 <= k < |payments| && payments[k].user != Some(user) ==> r[k] == payments[k]
  {
    seq(|payments|, k requires 0 <= k < |payments| =>
      payments[k].(user := SetNull(payments[k].user, user)))
  }

  /** After the user is deleted their history is empty while every payment
      is still on record. */
  lemma DeletedUserHistoryEmpty(payments: seq<Payment>, user: UserId)
    ensures PaymentHistory(DeleteUserFromPayments(payments, user), user) == []
    ensures |DeleteUserFromPayments(payments, user)| == |payments|
  {
    var r := DeleteUserFromPayments(payments, user);
    NoPaymentsOfOther(r, user);
  }

  lemma {:induction false} NoPaymentsOfOther(payments: seq<Payment>, user: UserId)
    requires forall k :: 0 <= k < |payments| ==> payments[k].user != Some(user)
    ensures PaymentsOf(payments, user) == []
  {
    if payments != [] {
      NoPaymentsOfOther(payments[1..], user);
    }
  }
}

=== FILE: product_serializers.dfy ===
/** Product creation through `ProductSerializer` of src/product/serializers.py:
    field validation (price last in the pipeline, after the field's own
    minimum), the read-only counters a client cannot set, and the nested
    construction of image rows and product-tag rows. The writes are not in
    one transaction: a refused image row leaves everything written before it
    in place. `Tag` and `Manufacturer` are not part of this model; a tag is
    a number drawn from a set of known tag ids. Every `CharField` trims its
    value and refuses a blank one. */
module ProductSerializers {
  import opened Wrappers
  import opened Text
  import opened Catalog
  import Trending

  // ---------------------------------------------------------------------------
  // Field validation.

  datatype FieldError =
    | Required(field: string)
    | Blank(field: string)
    | TooLong(field: string, limit: nat)
    | BelowMinimum(field: string)
    | AboveMaximum(field: string)
    | TooManyDigits(field: string)
    | PriceNegative
    | DoesNotExist(field: string, pk: nat)

  /** The text of `validate_price`'s error. */
  const PriceNegativeMessage: string := "Price cannot be negative."

  /** The text of the minimum the price field inherits from the model's
      `MinValueValidator(0)`. */
  const MinValueMessage: string := "Ensure this value is greater than or equal to 0."

  /** `max_length` of the product name. */
  const NameMaxLength: nat := 255

  function ErrorMessage(e: FieldError): string
  {
    match e
    case Required(_) => "This field is required."
    case Blank(_) => "This field may not be blank."
    case TooLong(_, n) => "Ensure this field has no more than " + NatToString(n) + " characters."
    case BelowMinimum(_) => MinValueMessage
    case AboveMaximum(_) => "Ensure this value is less than or equal to " + NatToString(PositiveIntegerMax) + "."
    case TooManyDigits(_) => "Ensure that there are no more than 8 digits before the decimal point."
    case PriceNegative => PriceNegativeMessage
    case DoesNotExist(_, pk) => InvalidPkMessage(pk)
  }

  /** `ProductSerializer.validate_price`: a negative price is refused, any
      other price comes back as it was. */
  function ValidatePrice(value: int): (r: Result<int, FieldError>)
    ensures r.Err? <==> value < 0
    ensures r.Err? ==> ErrorMessage(r.error) == "Price cannot be negative."
    ensures r.Ok? ==> r.value == value
  {
    if value < 0 then Err(PriceNegative) else Ok(value)
  }

  /** The whole price pipeline: the decimal field's digit limits are checked
      while the value is parsed, then the field's minimum (copied from the
      model's validator) runs, and `validate_price` only sees what passed
      both. */
  function PriceField(value: int): (r: Result<int, FieldError>)
    ensures r.Ok? <==> 0 <= value < PriceBound
    ensures r.Ok? ==> r.value == value
    ensures value <= -PriceBound || PriceBound <= value ==> r == Err(TooManyDigits("price"))
  {
    if value <= -PriceBound || PriceBound <= value then Err(TooManyDigits("price"))
    else if value < 0 then Err(BelowMinimum("price"))
    else ValidatePrice(value)
  }

  /** A negative price the column can hold is refused by the field's
      minimum, so the hook's own message never reaches a client; the refusal
      itself is the hook's. */
  lemma NegativePriceRefusedBeforeHook(value: int)
    requires -PriceBound < value < 0
    ensures ValidatePrice(value).Err?
    ensures PriceField(value) == Err(BelowMinimum("price"))
    ensures ErrorMessage(PriceField(value).error) == MinValueMessage
  {
  }

  /** The largest price is 99999999.99; one cent more has nine digits before
      the point and is refused. */
  lemma PriceDigitBoundary()
    ensures PriceField(9_999_999_999) == Ok(9_999_999_999)
    ensures PriceField(10_000_000_000) == Err(TooManyDigits("price"))
  {
  }

  // ---------------------------------------------------------------------------
  // The request.

  /** A nested `ProductImageSerializer` entry, already field-valid. */
  datatype ImageInput = ImageInput(imageUrl: string, mediaType: string, altText: Option<string>, isPrimary: Option<bool>)

  /** A `product_tags` entry as the client sends it: `tag_id` and an optional
      image. The `product` and `tag` keys are read-only and not read. */
  datatype TagEntryInput = TagEntryInput(tagId: Option<nat>, image: Option<ImageInput>)

  /** A validated `product_tags` entry: the tag (stored under its source
      name, `tag`) and the image. */
  datatype TagEntry = TagEntry(tag: nat, image: Option<ImageInput>)

  /** The request body. `salesCount`, `viewsCount` and `trendingScore` are
      what a client may send for the read-only counters. */
  datatype ProductInput = ProductInput(
    name: Option<string>,
    description: Option<string>,
    price: Option<int>,
    categoryId: Option<CategoryId>,
    currentStock: Option<int>,
    isLaunch: Option<bool>,
    releaseDate: Option<Time>,
    aggregatedOrderInfo: Option<OrderInfo>,
    salesCount: Option<int>,
    viewsCount: Option<int>,
    trendingScore: Option<real>,
    images: seq<ImageInput>,
    productTags: seq<TagEntryInput>)

  /** What validation hands to `create`. */
  datatype ProductData = ProductData(
    name: string,
    description: string,
    price: int,
    category: CategoryId,
    currentStock: nat,
    isLaunch: bool,
    releaseDate: Option<Time>,
    aggregatedOrderInfo: Option<OrderInfo>,
    images: seq<ImageInput>,
    tags: seq<TagEntry>)

  /** A required `CharField` without `allow_blank`: absent, blank (empty or
      whitespace alone), or, once trimmed, longer than `limit` when there is
      one. */
  function TextFieldErrors(value: Option<string>, field: string, limit: Option<nat>): (r: seq<FieldError>)
    ensures r == [] <==> value.Some? && !IsBlank(value.value) && (limit.Some? ==> |Strip(value.value)| <= limit.value)
  {
    if value.None? then [Required(field)]
    else if IsBlank(value.value) then [Blank(field)]
    else if limit.Some? && |Strip(value.value)| > limit.value then [TooLong(field, limit.value)]
    else []
  }

  /** `ProductTagSerializer` validation of one entry: `tag_id` is required
      and must name a known tag. */
  function ValidateTagEntry(e: TagEntryInput, knownTags: set<nat>): (r: Result<TagEntry, FieldError>)
    ensures r.Ok? <==> e.tagId.Some? && e.tagId.value in knownTags
    ensures r.Ok? ==> r.value == TagEntry(e.tagId.value, e.image)
  {
    if e.tagId.None? then Err(Required("tag_id"))
    else if e.tagId.value !in knownTags then Err(DoesNotExist("tag_id", e.tagId.value))
    else Ok(TagEntry(e.tagId.value, e.image))
  }

  predicate TagEntriesValid(entries: seq<TagEntryInput>, knownTags: set<nat>)
  {
    forall k :: 0 <= k < |entries| ==> ValidateTagEntry(entries[k], knownTags).Ok?
  }

  /** The errors of the refused entries, in entry order. */
  function TagEntryErrors(entries: seq<TagEntryInput>, knownTags: set<nat>): (r: seq<FieldError>)
    ensures r == [] <==> TagEntriesValid(entries, knownTags)
  {
    if entries == [] then []
    else
      var rest := TagEntryErrors(entries[1..], knownTags);
      assert forall k :: 1 <= k < |entries| ==> entries[k] == entries[1..][k - 1];
      match ValidateTagEntry(entries[0], knownTags)
      case Ok(_) => rest
      case Err(e) => [e] + rest
  }

  function ValidatedTags(entries: seq<TagEntryInput>, knownTags: set<nat>): (r: seq<TagEntry>)
    requires TagEntriesValid(entries, knownTags)
    ensures |r| == |entries|
    ensures forall k :: 0 <= k < |r| ==> r[k] == TagEntry(entries[k].tagId.value, entries[k].image)
  {
    seq(|entries|, k requires 0 <= k < |entries| => ValidateTagEntry(entries[k], knownTags).value)
  }

  /** Every field error of the request, in field order. The counters are not
      read at all. */
  function ProductFieldErrors(input: ProductInput, categories: seq<Category>, knownTags: set<nat>): seq<FieldError>
  {
    TextFieldErrors(input.name, "name", Some(NameMaxLength))
    + TextFieldErrors(input.description, "description", None)
    + (if input.price.None? then [Required("price")]
       else if PriceField(input.price.value).Err? then [PriceField(input.price.value).error] else [])
    + (if input.currentStock.Some? && input.currentStock.value < 0 then [BelowMinimum("current_stock")]
       else if input.currentStock.Some? && input.currentStock.value > PositiveIntegerMax then [AboveMaximum("current_stock")]
       else [])
    + (if input.categoryId.None? then [Required("category_id")]
       else if !(exists c :: c in categories && c.id == input.categoryId.value) then [DoesNotExist("category_id", input.categoryId.value)]
       else [])
    + TagEntryErrors(input.productTags, knownTags)
  }

  /** `ProductSerializer.is_valid`. */
  function ValidateProduct(input: ProductInput, categories: seq<Category>, knownTags: set<nat>): (r: Result<ProductData, seq<FieldError>>)
    ensures r.Err? <==> ProductFieldErrors(input, categories, knownTags) != []
    ensures r.Err? ==> r.error == ProductFieldErrors(input, categories, knownTags)
    ensures r.Ok? ==> r.value.images == input.images && r.value.tags == ValidatedTags(input.productTags, knownTags)
    ensures r.Ok? ==>
      && input.name.Some? && r.value.name == Strip(input.name.value) && r.value.name != ""
      && |r.value.name| <= NameMaxLength
      && input.description.Some? && r.value.description == Strip(input.description.value) && r.value.description != ""
      && input.price == Some(r.value.price) && 0 <= r.value.price < PriceBound
      && input.categoryId == Some(r.value.category)
      && (exists c :: c in categories && c.id == r.value.category)
      && r.value.currentStock == input.currentStock.GetOr(0) && r.value.currentStock <= PositiveIntegerMax
      && r.value.isLaunch == input.isLaunch.GetOr(false)
      && r.value.images == input.images
      && |r.value.tags| == |input.productTags|
  {
    var errors := ProductFieldErrors(input, categories, knownTags);
    if errors != [] then Err(errors)
    else
      assert TextFieldErrors(input.name, "name", Some(NameMaxLength)) == [];
      assert TextFieldErrors(input.description, "description", None) == [];
      assert input.price.Some? && PriceField(input.price.value).Ok?;
      assert TagEntryErrors(input.productTags, knownTags) == [];
      Ok(ProductData(Strip(input.name.value), Strip(input.description.value), input.price.value, input.categoryId.value,
                     input.currentStock.GetOr(0), input.isLaunch.GetOr(false), input.releaseDate,
                     input.aggregatedOrderInfo, input.images, ValidatedTags(input.productTags, knownTags)))
  }

  /** A stock beyond the column's range is refused under `current_stock`. */
  lemma StockAboveMaximumRefused(input: ProductInput, categories: seq<Category>, knownTags: set<nat>)
    requires input.currentStock == Some(PositiveIntegerMax + 1)
    ensures ValidateProduct(input, categories, knownTags).Err?
    ensures AboveMaximum("current_stock") in ValidateProduct(input, categories, knownTags).error
  {
  }

  /** A name of whitespace alone is blank: the request is refused and the
      error is reported under `name`. */
  lemma BlankNameRefused(input: ProductInput, categories: seq<Category>, knownTags: set<nat>)
    requires input.name.Some? && AllSpace(input.name.value)
    ensures ValidateProduct(input, categories, knownTags).Err?
    ensures ValidateProduct(input, categories, knownTags).error[0] == Blank("name")
  {
  }

  // ---------------------------------------------------------------------------
  // The rows `create` writes.

  /** A product-tag row; its optional image is an image id. */
  datatype ProductTag = ProductTag(id: nat, product: ProductId, tag: nat, image: Option<nat>)

  datatype Store = Store(
    products: seq<Product>,
    images: seq<ProductImage>,
    tags: seq<ProductTag>,
    nextProductId: nat,
    nextImageId: nat,
    nextTagId: nat)

  /** `Product.objects.create(**validated_data)`: the counters take their
      column defaults. */
  function ProductRow(d: ProductData, id: ProductId, now: Time): (p: Product)
    ensures p.salesCount == 0 && p.viewsCount == 0 && p.trendingScore == 0.0
    ensures p.id == id && p.category == Some(d.category) && p.price == d.price && p.createdAt == now
  {
    Product(id, Some(d.category), d.name, d.description, d.price, 0, 0, 0.0, d.aggregatedOrderInfo,
            d.currentStock, d.isLaunch, d.releaseDate, now)
  }

  /** The row a creation leaves in the table. `Product.objects.create`
      inserts `ProductRow`, and the post-save receiver then overwrites its
      aggregated order information with that of a product with no sales:
      no orders and no revenue, whatever the request sent. */
  function StoredRow(d: ProductData, id: ProductId, now: Time): (p: Product)
    ensures p.aggregatedOrderInfo == Some(OrderInfo(0, 0))
    ensures p.(aggregatedOrderInfo := d.aggregatedOrderInfo) == ProductRow(d, id, now)
  {
    Trending.UnsoldProductHasNoOrders(ProductRow(d, id, now));
    Trending.RecordOrderInfo(ProductRow(d, id, now))
  }

  /** `ProductImage.objects.create(product=product, **image_dict)`: the alt
      text defaults to "Image" and the primary flag to false. */
  function ImageRow(id: nat, product: ProductId, e: ImageInput): (img: ProductImage)
    ensures img.product == product && img.id == id
    ensures img.altText == (if e.altText.Some? then e.altText.value else "Image")
    ensures img.isPrimary == (e.isPrimary == Some(true))
  {
    ProductImage(id, product, e.imageUrl, e.mediaType, e.altText.GetOr("Image"), e.isPrimary.GetOr(false))
  }

  /** The top-level image loop: one row per entry, in order, each linked to
      `product`, stopping at the first row the unique-primary constraint
      refuses (with the rows before it kept). */
  function CreateImages(images: seq<ProductImage>, product: ProductId, entries: seq<ImageInput>, nextId: nat)
    : (r: (seq<ProductImage>, nat, Option<CatalogError>))
    decreases |entries|
    ensures |images| <= |r.0| <= |images| + |entries|
    ensures r.0[..|images|] == images
    ensures r.1 == nextId + (|r.0| - |images|)
    ensures r.2.None? ==> |r.0| == |images| + |entries|
    ensures r.2.Some? ==> |r.0| < |images| + |entries| && entries[|r.0| - |images|].isPrimary == Some(true)
    ensures forall k :: 0 <= k < |r.0| - |images| ==> r.0[|images| + k] == ImageRow(nextId + k, product, entries[k])
    ensures AtMostOnePrimary(images) ==> AtMostOnePrimary(r.0)
  {
    if entries == [] then (images, nextId, None)
    else
      match AddImage(images, ImageRow(nextId, product, entries[0]))
      case Err(e) => (images, nextId, Some(e))
      case Ok(images') =>
        var rest := CreateImages(images', product, entries[1..], nextId + 1);
        PrefixOfPrefix(images, images', rest.0);
        ImageRowsShift(rest.0, images, product, entries, nextId);
        rest
  }

  /** The first new image row followed by the rows for the remaining entries
      covers every entry, ids counting up from `nextId`. */
  lemma ImageRowsShift(all: seq<ProductImage>, images: seq<ProductImage>, product: ProductId,
                       entries: seq<ImageInput>, nextId: nat)
    requires entries != []
    requires |images| + 1 <= |all| <= |images| + |entries|
    requires all[..|images| + 1] == images + [ImageRow(nextId, product, entries[0])]
    requires forall k :: 0 <= k < |all| - (|images| + 1) ==>
      all[|images| + 1 + k] == ImageRow(nextId + 1 + k, product, entries[1..][k])
    ensures forall k :: 0 <= k < |all| - |images| ==> all[|images| + k] == ImageRow(nextId + k, product, entries[k])
  {
    assert all[|images|] == all[..|images| + 1][|images|];
    forall k | 0 <= k < |all| - |images| ensures all[|images| + k] == ImageRow(nextId + k, product, entries[k]) {
      if k > 0 {
        assert all[|images| + 1 + (k - 1)] == ImageRow(nextId + 1 + (k - 1), product, entries[1..][k - 1]);
      }
    }
  }

  /** What writing one validated tag entry leaves behind. */
  datatype Written = Written(images: seq<ProductImage>, tags: seq<ProductTag>, nextImageId: nat, nextTagId: nat, error: Option<CatalogError>)

  /** Tag row `t` records entry `e` for `product`: linked to the product,
      naming the entry's tag, and carrying an image exactly when the entry
      has image data, that image being a row of `images` for the product. */
  predicate TagRowFor(t: ProductTag, product: ProductId, e: TagEntry, images: seq<ProductImage>)
  {
    && t.product == product
    && t.tag == e.tag
    && (t.image.Some? <==> e.image.Some?)
    && (t.image.Some? && e.image.Some? ==> ImageRow(t.image.value, product, e.image.value) in images)
  }

  lemma TagRowForGrows(t: ProductTag, product: ProductId, e: TagEntry, images: seq<ProductImage>, more: seq<ProductImage>)
    requires TagRowFor(t, product, e, images)
    requires |images| <= |more| && more[..|images|] == images
    ensures TagRowFor(t, product, e, more)
  {
    if t.image.Some? && e.image.Some? {
      var x := ImageRow(t.image.value, product, e.image.value);
      var i :| 0 <= i < |images| && images[i] == x;
      assert more[..|images|][i] == x;
    }
  }

  /** The tag loop as the design intends it: one tag row per entry, linked to
      `product`, with an image row (also linked to `product`) exactly when
      the entry carries image data. */
  function CreateTags(images: seq<ProductImage>, tags: seq<ProductTag>, product: ProductId, entries: seq<TagEntry>,
                      nextImageId: nat, nextTagId: nat): (r: Written)
    decreases |entries|
    ensures |images| <= |r.images| && r.images[..|images|] == images
    ensures |tags| <= |r.tags| <= |tags| + |entries| && r.tags[..|tags|] == tags
    ensures r.error.None? ==> |r.tags| == |tags| + |entries|
    ensures forall i :: |images| <= i < |r.images| ==> r.images[i].product == product
    ensures forall k :: 0 <= k < |r.tags| - |tags| ==> TagRowFor(r.tags[|tags| + k], product, entries[k], r.images)
    ensures AtMostOnePrimary(images) ==> AtMostOnePrimary(r.images)
  {
    if entries == [] then Written(images, tags, nextImageId, nextTagId, None)
    else
      var e := entries[0];
      var step: Result<(seq<ProductImage>, Option<nat>, nat), CatalogError> :=
        if e.image.None? then Ok((images, None, nextImageId))
        else
          match AddImage(images, ImageRow(nextImageId, product, e.image.value))
          case Err(err) => Err(err)
          case Ok(images') => Ok((images', Some(nextImageId), nextImageId + 1));
      match step
      case Err(err) => Written(images, tags, nextImageId, nextTagId, Some(err))
      case Ok((images', imageId, nextImageId')) =>
        var row := ProductTag(nextTagId, product, e.tag, imageId);
        var tags' := tags + [row];
        assert TagRowFor(row, product, e, images') by {
          if e.image.Some? {
            assert images'[|images|] == ImageRow(imageId.value, product, e.image.value);
          }
        }
        var rest := CreateTags(images', tags', product, entries[1..], nextImageId', nextTagId + 1);
        PrefixOfPrefix(images, images', rest.images);
        PrefixOfPrefix(tags, tags', rest.tags);
        TagRowForGrows(row, product, e, images', rest.images);
        TagRowsShift(rest.tags, tags, row, product, entries, rest.images);
        NewImagesOfProduct(images, images', rest.images, product);
        rest
  }

  lemma PrefixOfPrefix<T>(a: seq<T>, b: seq<T>, c: seq<T>)
    requires |a| <= |b| && b[..|a|] == a
    requires |b| <= |c| && c[..|b|] == b
    ensures c[..|a|] == a
  {
    assert c[..|a|] == c[..|b|][..|a|];
  }

  /** The first new tag row followed by the rows for the remaining entries
      covers every entry. */
  lemma TagRowsShift(all: seq<ProductTag>, tags: seq<ProductTag>, row: ProductTag, product: ProductId,
                     entries: seq<TagEntry>, images: seq<ProductImage>)
    requires entries != []
    requires |tags| + 1 <= |all| <= |tags| + |entries| && all[..|tags| + 1] == tags + [row]
    requires TagRowFor(row, product, entries[0], images)
    requires forall k :: 0 <= k < |all| - (|tags| + 1) ==> TagRowFor(all[|tags| + 1 + k], product, entries[1..][k], images)
    ensures forall k :: 0 <= k < |all| - |tags| ==> TagRowFor(all[|tags| + k], product, entries[k], images)
  {
    assert all[|tags|] == all[..|tags| + 1][|tags|];
    forall k | 0 <= k < |all| - |tags| ensures TagRowFor(all[|tags| + k], product, entries[k], images) {
      if k > 0 {
        assert TagRowFor(all[|tags| + 1 + (k - 1)], product, entries[1..][k - 1], images);
      }
    }
  }

  /** Rows appended in two steps, each step's rows for `product`, are all for `product`. */
  lemma NewImagesOfProduct(images: seq<ProductImage>, mid: seq<ProductImage>, all: seq<ProductImage>, product: ProductId)
    requires |images| <= |mid| && mid[..|images|] == images
    requires forall i :: |images| <= i < |mid| ==> mid[i].product == product
    requires |mid| <= |all| && all[..|mid|] == mid
    requires forall i :: |mid| <= i < |all| ==> all[i].product == product
    ensures forall i :: |images| <= i < |all| ==> all[i].product == product
  {
    forall i | |images| <= i < |mid| ensures all[i].product == product {
      assert all[..|mid|][i] == mid[i];
    }
  }

  /** The tag loop on the store: the rows it adds, and nothing else. */
  function WriteTags(s: Store, product: ProductId, entries: seq<TagEntry>): (r: (Store, Option<CatalogError>))
    ensures r.0.products == s.products && r.0.nextProductId == s.nextProductId
    ensures |s.images| <= |r.0.images| && r.0.images[..|s.images|] == s.images
    ensures |s.tags| <= |r.0.tags| <= |s.tags| + |entries| && r.0.tags[..|s.tags|] == s.tags
    ensures r.1.None? ==> |r.0.tags| == |s.tags| + |entries|
    ensures forall i :: |s.images| <= i < |r.0.images| ==> r.0.images[i].product == product
    ensures forall k :: 0 <= k < |r.0.tags| - |s.tags| ==> TagRowFor(r.0.tags[|s.tags| + k], product, entries[k], r.0.images)
    ensures AtMostOnePrimary(s.images) ==> AtMostOnePrimary(r.0.images)
  {
    var w := CreateTags(s.images, s.tags, product, entries, s.nextImageId, s.nextTagId);
    (s.(images := w.images, tags := w.tags, nextImageId := w.nextImageId, nextTagId := w.nextTagId), w.error)
  }

  datatype CreateError = Invalid(errors: seq<FieldError>) | Refused(error: CatalogError)

  /** Validation, the product row and the top-level images: the part of
      `ProductSerializer.create` the as-written and the intended versions
      share. The second component is the new product's id. */
  function WriteProductAndImages(s: Store, d: ProductData, now: Time): (r: (Store, ProductId, Option<CatalogError>))
    ensures r.1 == s.nextProductId
    ensures r.0.products == s.products + [StoredRow(d, s.nextProductId, now)]
    ensures r.0.tags == s.tags && r.0.nextTagId == s.nextTagId
    ensures |s.images| <= |r.0.images| <= |s.images| + |d.images|
    ensures r.0.images[..|s.images|] == s.images
    ensures r.2.None? ==> |r.0.images| == |s.images| + |d.images|
    ensures forall k :: 0 <= k < |r.0.images| - |s.images| ==>
      r.0.images[|s.images| + k] == ImageRow(s.nextImageId + k, r.1, d.images[k])
    ensures AtMostOnePrimary(s.images) ==> AtMostOnePrimary(r.0.images)
  {
    var id := s.nextProductId;
    var (images', nextImageId', err) := CreateImages(s.images, id, d.images, s.nextImageId);
    (Store(s.products + [StoredRow(d, id, now)], images', s.tags, id + 1, nextImageId', s.nextTagId), id, err)
  }

  /** `ProductSerializer.create` as intended, given validated data: the
      product, one image row per image entry and one tag row per tag entry,
      all linked to the new product; a refused image row stops the writes
      where it occurs. */
  function CreateFromData(s: Store, d: ProductData, now: Time): (r: (Store, Result<ProductId, CatalogError>))
    requires d.price >= 0
    ensures r.0.products == s.products + [StoredRow(d, s.nextProductId, now)]
    ensures |s.images| <= |r.0.images| && r.0.images[..|s.images|] == s.images
    ensures |s.tags| <= |r.0.tags| && r.0.tags[..|s.tags|] == s.tags
    ensures r.1.Ok? ==>
      var pid := r.1.value;
      && pid == s.nextProductId
      && |r.0.products| == |s.products| + 1
      && r.0.products[..|s.products|] == s.products
      && NewProductRow(r.0.products[|s.products|], pid)
      && |s.images| + |d.images| <= |r.0.images|
      && (forall i :: |s.images| <= i < |r.0.images| ==> r.0.images[i].product == pid)
      && (forall k :: 0 <= k < |d.images| ==> r.0.images[|s.images| + k] == ImageRow(s.nextImageId + k, pid, d.images[k]))
      && |r.0.tags| == |s.tags| + |d.tags|
      && (forall k :: 0 <= k < |d.tags| ==> TagRowFor(r.0.tags[|s.tags| + k], pid, d.tags[k], r.0.images))
    ensures AtMostOnePrimary(s.images) ==> AtMostOnePrimary(r.0.images)
  {
    var (s1, pid, imageError) := WriteProductAndImages(s, d, now);
    if imageError.Some? then (s1, Err(imageError.value))
    else
      var (s2, tagError) := WriteTags(s1, pid, d.tags);
      ImagesSurviveTags(s, s1, s2, pid, d.images);
      if tagError.Some? then (s2, Err(tagError.value))
      else (s2, Ok(pid))
  }

  /** `ProductSerializer.create` behind `is_valid()`. A refused request
      writes nothing. */
  function CreateProduct(s: Store, input: ProductInput, categories: seq<Category>, knownTags: set<nat>, now: Time)
    : (r: (Store, Result<ProductId, CreateError>))
    ensures r.1 == Err(Invalid(ProductFieldErrors(input, categories, knownTags))) <==>
      ProductFieldErrors(input, categories, knownTags) != []
    ensures ProductFieldErrors(input, categories, knownTags) != [] ==> r.0 == s
    ensures |s.images| <= |r.0.images| && r.0.images[..|s.images|] == s.images
    ensures |s.tags| <= |r.0.tags| && r.0.tags[..|s.tags|] == s.tags
    ensures r.1.Ok? ==>
      var pid := r.1.value;
      && pid == s.nextProductId
      && |r.0.products| == |s.products| + 1
      && r.0.products[..|s.products|] == s.products
      && NewProductRow(r.0.products[|s.products|], pid)
      && |s.images| + |input.images| <= |r.0.images|
      && (forall i :: |s.images| <= i < |r.0.images| ==> r.0.images[i].product == pid)
      && (forall k :: 0 <= k < |input.images| ==>
            r.0.images[|s.images| + k] == ImageRow(s.nextImageId + k, pid, input.images[k]))
      && |r.0.tags| == |s.tags| + |input.productTags|
      && (forall k :: 0 <= k < |input.productTags| ==>
            TagRowFor(r.0.tags[|s.tags| + k], pid, TagEntry(input.productTags[k].tagId.value, input.productTags[k].image), r.0.images))
    ensures AtMostOnePrimary(s.images) ==> AtMostOnePrimary(r.0.images)
  {
    match ValidateProduct(input, categories, knownTags)
    case Err(errors) => (s, Err(Invalid(errors)))
    case Ok(d) =>
      var (s', result) := CreateFromData(s, d, now);
      CreateFromEntries(s, d, now, input.images, input.productTags);
      match result
      case Err(e) => (s', Err(Refused(e)))
      case Ok(pid) => (s', Ok(pid))
  }

  /** A valid request stores its product row, even when a later image or
      tag write fails; the row holds the request's stock, or 0 when none is
      sent, and that value never exceeds the column's maximum. */
  lemma CreatedStockInRange(s: Store, input: ProductInput, categories: seq<Category>, knownTags: set<nat>, now: Time)
    requires ProductFieldErrors(input, categories, knownTags) == []
    ensures var r := CreateProduct(s, input, categories, knownTags, now);
      && |r.0.products| == |s.products| + 1
      && r.0.products[|s.products|].currentStock == input.currentStock.GetOr(0) <= PositiveIntegerMax
  {
    var d := ValidateProduct(input, categories, knownTags).value;
    assert CreateProduct(s, input, categories, knownTags, now).0 == CreateFromData(s, d, now).0;
  }

  /** Whatever aggregated order information the request sends, a valid
      request stores a product row with no orders and no revenue: the
      post-save receiver overwrites the value. */
  lemma NewProductAggregatesNothing(s: Store, input: ProductInput, categories: seq<Category>, knownTags: set<nat>, now: Time)
    requires ProductFieldErrors(input, categories, knownTags) == []
    ensures var r := CreateProduct(s, input, categories, knownTags, now);
      && |r.0.products| == |s.products| + 1
      && r.0.products[|s.products|].aggregatedOrderInfo == Some(OrderInfo(0, 0))
  {
    var d := ValidateProduct(input, categories, knownTags).value;
    assert CreateProduct(s, input, categories, knownTags, now).0 == CreateFromData(s, d, now).0;
  }

  /** The client's aggregated order information changes nothing that is
      created: the request with any other value stores the same rows. */
  lemma OrderInfoIsReadOnly(s: Store, input: ProductInput, info: Option<OrderInfo>,
                            categories: seq<Category>, knownTags: set<nat>, now: Time)
    ensures CreateProduct(s, input.(aggregatedOrderInfo := info), categories, knownTags, now)
            == CreateProduct(s, input, categories, knownTags, now)
  {
    ValidateCarriesOrderInfo(input, info, categories, knownTags);
    var v := ValidateProduct(input, categories, knownTags);
    if v.Ok? {
      CreateIgnoresOrderInfo(s, v.value, info, now);
    }
  }

  /** Validation neither checks nor refuses the aggregated order
      information; it only carries the sent value along. */
  lemma ValidateCarriesOrderInfo(input: ProductInput, info: Option<OrderInfo>, categories: seq<Category>, knownTags: set<nat>)
    ensures var v := ValidateProduct(input, categories, knownTags);
      ValidateProduct(input.(aggregatedOrderInfo := info), categories, knownTags)
      == (if v.Ok? then Ok(v.value.(aggregatedOrderInfo := info)) else v)
  {
    assert ProductFieldErrors(input.(aggregatedOrderInfo := info), categories, knownTags)
           == ProductFieldErrors(input, categories, knownTags);
  }

  /** Creation from validated data does not read the aggregated order
      information. */
  lemma CreateIgnoresOrderInfo(s: Store, d: ProductData, info: Option<OrderInfo>, now: Time)
    requires d.price >= 0
    ensures CreateFromData(s, d.(aggregatedOrderInfo := info), now) == CreateFromData(s, d, now)
  {
    var d' := d.(aggregatedOrderInfo := info);
    assert StoredRow(d', s.nextProductId, now) == StoredRow(d, s.nextProductId, now);
    assert WriteProductAndImages(s, d', now) == WriteProductAndImages(s, d, now);
  }

  /** `CreateFromData` read back in terms of the request's own image and
      tag entries, which validation hands on one for one. */
  lemma CreateFromEntries(s: Store, d: ProductData, now: Time, images: seq<ImageInput>, entries: seq<TagEntryInput>)
    requires d.price >= 0 && d.images == images && |d.tags| == |entries|
    requires forall k :: 0 <= k < |entries| ==> entries[k].tagId.Some?
    requires forall k :: 0 <= k < |entries| ==> d.tags[k] == TagEntry(entries[k].tagId.value, entries[k].image)
    ensures var r := CreateFromData(s, d, now);
      r.1.Ok? ==>
        && |s.images| + |images| <= |r.0.images|
        && (forall k :: 0 <= k < |images| ==>
              r.0.images[|s.images| + k] == ImageRow(s.nextImageId + k, r.1.value, images[k]))
        && |r.0.tags| == |s.tags| + |entries|
        && (forall k :: 0 <= k < |entries| ==>
              TagRowFor(r.0.tags[|s.tags| + k], r.1.value, TagEntry(entries[k].tagId.value, entries[k].image), r.0.images))
  {
  }

  /** A freshly created product row: its id, a valid price, the counters at
      their defaults and no orders aggregated yet. */
  predicate NewProductRow(p: Product, id: ProductId)
  {
    && p.id == id && ValidProduct(p) && p.salesCount == 0 && p.viewsCount == 0 && p.trendingScore == 0.0
    && p.aggregatedOrderInfo == Some(OrderInfo(0, 0))
  }

  /** The image rows written before the tag loop stay where they are. */
  lemma ImagesSurviveTags(s: Store, s1: Store, s2: Store, pid: ProductId, entries: seq<ImageInput>)
    requires |s.images| + |entries| == |s1.images| && s1.images[..|s.images|] == s.images
    requires forall k :: 0 <= k < |entries| ==> s1.images[|s.images| + k] == ImageRow(s.nextImageId + k, pid, entries[k])
    requires |s1.images| <= |s2.images| && s2.images[..|s1.images|] == s1.images
    requires forall i :: |s1.images| <= i < |s2.images| ==> s2.images[i].product == pid
    ensures s2.images[..|s.images|] == s.images
    ensures forall k :: 0 <= k < |entries| ==> s2.images[|s.images| + k] == ImageRow(s.nextImageId + k, pid, entries[k])
    ensures forall i :: |s.images| <= i < |s2.images| ==> s2.images[i].product == pid
  {
    assert s2.images[..|s.images|] == s2.images[..|s1.images|][..|s.images|];
    forall k | 0 <= k < |entries|
      ensures s2.images[|s.images| + k] == ImageRow(s.nextImageId + k, pid, entries[k])
    {
      assert s2.images[..|s1.images|][|s.images| + k] == s1.images[|s.images| + k];
    }
    forall i | |s.images| <= i < |s2.images| ensures s2.images[i].product == pid {
      if i < |s1.images| {
        assert s2.images[..|s1.images|][i] == s1.images[i];
        assert s1.images[|s.images| + (i - |s.images|)] == ImageRow(s.nextImageId + (i - |s.images|), pid, entries[i - |s.images|]);
      }
    }
  }

  /** A client cannot set the read-only counters: two requests that differ
      only in them create the same rows, and the new product starts from
      zero sales, zero views and a zero score. */
  lemma CountersAreReadOnly(s: Store, input: ProductInput, sales: Option<int>, views: Option<int>, score: Option<real>,
                            categories: seq<Category>, knownTags: set<nat>, now: Time)
    ensures CreateProduct(s, input.(salesCount := sales, viewsCount := views, trendingScore := score), categories, knownTags, now)
            == CreateProduct(s, input, categories, knownTags, now)
  {
    assert ProductFieldErrors(input.(salesCount := sales, viewsCount := views, trendingScore := score), categories, knownTags)
           == ProductFieldErrors(input, categories, knownTags);
  }

  // ---------------------------------------------------------------------------
  // The nested tag serializer as written.

  /** Revalidation of a validated entry, as the loop at lines 93-97 does it.
      `tag_dict` is handed back to `ProductTagSerializer(data=...)`, but
      validation stored the tag under `tag` and `product` is read-only, so the
      only key this serializer reads from it is the image: `tag_id` is gone. */
  function RevalidateAsWritten(e: TagEntry, product: ProductId, knownTags: set<nat>): (r: Result<TagEntry, FieldError>)
  {
    ValidateTagEntry(TagEntryInput(None, e.image), knownTags)
  }

  /** Every validated tag entry fails its second validation with `tag_id`
      required, whatever the entry and the product. */
  lemma NestedTagEntryRefused(e: TagEntry, product: ProductId, knownTags: set<nat>)
    ensures RevalidateAsWritten(e, product, knownTags) == Err(Required("tag_id"))
  {
  }

  /** `ProductSerializer.create` as written: after the product and its images
      are stored, the first tag entry is refused on revalidation, so no tag
      row is ever written and the request fails with the product left in
      place. */
  function CreateProductAsWritten(s: Store, input: ProductInput, categories: seq<Category>, knownTags: set<nat>, now: Time)
    : (r: (Store, Result<ProductId, CreateError>))
    ensures r.0.tags == s.tags
  {
    match ValidateProduct(input, categories, knownTags)
    case Err(errors) => (s, Err(Invalid(errors)))
    case Ok(d) =>
      var (s1, pid, imageError) := WriteProductAndImages(s, d, now);
      if imageError.Some? then (s1, Err(Refused(imageError.value)))
      else if d.tags == [] then (s1, Ok(pid))
      else
        match RevalidateAsWritten(d.tags[0], pid, knownTags)
        case Err(e) => (s1, Err(Invalid([e])))
        case Ok(_) => (s1, Ok(pid))
  }

  /** The discrepancy: a valid request with at least one tag entry is
      answered with an error while the product row it was refused for
      persists, and no tag row links to it; the intended version creates
      one tag row per entry for the same request. */
  lemma TagEntriesNeverCreatedAsWritten(s: Store, input: ProductInput, categories: seq<Category>, knownTags: set<nat>, now: Time)
    requires ProductFieldErrors(input, categories, knownTags) == []
    requires CreateProduct(s, input, categories, knownTags, now).1.Ok?
    requires input.productTags != []
    ensures var (s', r) := CreateProductAsWritten(s, input, categories, knownTags, now);
      && r == Err(Invalid([Required("tag_id")]))
      && |s'.products| == |s.products| + 1
      && s'.tags == s.tags
    ensures |CreateProduct(s, input, categories, knownTags, now).0.tags| == |s.tags| + |input.productTags|
  {
    var d := ValidateProduct(input, categories, knownTags).value;
    var (s1, pid, imageError) := WriteProductAndImages(s, d, now);
    assert imageError.None?;
    NestedTagEntryRefused(d.tags[0], pid, knownTags);
  }
}

=== FILE: product_views.dfy ===
/** The catalog listings of `ProductViewSet` (src/product/views.py): the default
    product listing and the three dynamic sections, each a descending order
    on one column cut to a page of ten, always answered with status 200. */
module ProductViews {
  import opened Wrappers
  import opened Catalog
  import opened Ranking
  import opened Http

  /** A listing response: status code and the products, in response order. */
  datatype Listing = Listing(status: int, products: seq<Product>)

  function SalesKey(p: Product): real
  {
    p.salesCount as real
  }

  function TrendingKey(p: Product): real
  {
    p.trendingScore
  }

  /** Only consulted for released products, whose release date is set. */
  function ReleaseKey(p: Product): real
  {
    p.releaseDate.GetOr(0) as real
  }

  function CreatedKey(p: Product): real
  {
    p.createdAt as real
  }

  /** The default product listing: `ordering = ['-created_at']`, newest first,
      every product exactly once. */
  function ListProducts(catalog: seq<Product>): (r: Listing)
    ensures r.status == StatusOk
    ensures multiset(r.products) == multiset(catalog)
    ensures forall i, j :: 0 <= i < j < |r.products| ==>
      r.products[i].createdAt >= r.products[j].createdAt
  {
    var sorted := SortDesc(catalog, CreatedKey);
    assert forall i, j :: 0 <= i < j < |sorted| ==> CreatedKey(sorted[i]) >= CreatedKey(sorted[j]);
    Listing(StatusOk, sorted)
  }

  /** The top page of `candidates` by `key`, with the properties every section shares. */
  function Section(candidates: seq<Product>, key: Product -> real): (r: seq<Product>)
    ensures |r| == if |candidates| < PageSize then |candidates| else PageSize
    ensures SortedDesc(r, key)
    ensures multiset(r) <= multiset(candidates)
    ensures forall p :: p in candidates && p !in r ==> r != [] && key(p) <= key(r[|r| - 1])
  {
    var r := TopN(candidates, key, PageSize);
    TopNShape(candidates, key, PageSize);
    assert forall p :: p in candidates && p !in r ==> r != [] && key(p) <= key(r[|r| - 1]) by {
      forall p | p in candidates && p !in r
        ensures r != [] && key(p) <= key(r[|r| - 1])
      {
        TopNMaximal(candidates, key, PageSize, p);
      }
    }
    r
  }

  /** `bestsellers`: at most ten products by non-increasing `sales_count`;
      no product left out sold more than the last one shown. */
  function Bestsellers(catalog: seq<Product>): (r: Listing)
    ensures r.status == StatusOk
    ensures |r.products| == if |catalog| < PageSize then |catalog| else PageSize
    ensures forall i, j :: 0 <= i < j < |r.products| ==>
      r.products[i].salesCount >= r.products[j].salesCount
    ensures multiset(r.products) <= multiset(catalog)
    ensures forall p :: p in catalog && p !in r.products ==>
      r.products != [] && p.salesCount <= r.products[|r.products| - 1].salesCount
  {
    var page := Section(catalog, SalesKey);
    SalesPage(catalog, page);
    Listing(StatusOk, page)
  }

  /** The section's order and top-N guarantees, read on the `salesCount` column. */
  lemma SalesPage(catalog: seq<Product>, page: seq<Product>)
    requires SortedDesc(page, SalesKey)
    requires forall p :: p in catalog && p !in page ==> page != [] && SalesKey(p) <= SalesKey(page[|page| - 1])
    ensures forall i, j :: 0 <= i < j < |page| ==> page[i].salesCount >= page[j].salesCount
    ensures forall p :: p in catalog && p !in page ==> page != [] && p.salesCount <= page[|page| - 1].salesCount
  {
    forall i, j | 0 <= i < j < |page| ensures page[i].salesCount >= page[j].salesCount {
      assert SalesKey(page[i]) >= SalesKey(page[j]);
    }
    forall p | p in catalog && p !in page ensures page != [] && p.salesCount <= page[|page| - 1].salesCount {
      assert SalesKey(p) <= SalesKey(page[|page| - 1]);
    }
  }

  /** `trending`: at most ten products by non-increasing `trending_score`;
      no product left out scores above the last one shown. */
  function Trending(catalog: seq<Product>): (r: Listing)
    ensures r.status == StatusOk
    ensures |r.products| == if |catalog| < PageSize then |catalog| else PageSize
    ensures forall i, j :: 0 <= i < j < |r.products| ==>
      r.products[i].trendingScore >= r.products[j].trendingScore
    ensures multiset(r.products) <= multiset(catalog)
    ensures forall p :: p in catalog && p !in r.products ==>
      r.products != [] && p.trendingScore <= r.products[|r.products| - 1].trendingScore
  {
    var page := Section(catalog, TrendingKey);
    TrendingPage(catalog, page);
    Listing(StatusOk, page)
  }

  /** The section's order and top-N guarantees, read on the `trendingScore` column. */
  lemma TrendingPage(catalog: seq<Product>, page: seq<Product>)
    requires SortedDesc(page, TrendingKey)
    requires forall p :: p in catalog && p !in page ==> page != [] && TrendingKey(p) <= TrendingKey(page[|page| - 1])
    ensures forall i, j :: 0 <= i < j < |page| ==> page[i].trendingScore >= page[j].trendingScore
    ensures forall p :: p in catalog && p !in page ==> page != [] && p.trendingScore <= page[|page| - 1].trendingScore
  {
    forall i, j | 0 <= i < j < |page| ensures page[i].trendingScore >= page[j].trendingScore {
      assert TrendingKey(page[i]) >= TrendingKey(page[j]);
    }
    forall p | p in catalog && p !in page ensures page != [] && p.trendingScore <= page[|page| - 1].trendingScore {
      assert TrendingKey(p) <= TrendingKey(page[|page| - 1]);
    }
  }

  /** The products released by `now`, in catalog order. */
  function Released(catalog: seq<Product>, now: Time): (r: seq<Product>)
    ensures forall p :: p in r <==> p in catalog && IsReleased(p, now)
    ensures multiset(r) <= multiset(catalog)
  {
    if catalog == [] then []
    else
      var rest := Released(catalog[1..], now);
      assert catalog == [catalog[0]] + catalog[1..];
      if IsReleased(catalog[0], now) then [catalog[0]] + rest else rest
  }

  /** `new_arrivals`: the products released by `now` (a null release date
      never passes `release_date__lte`), newest release first, cut to ten. */
  function NewArrivals(catalog: seq<Product>, now: Time): (r: Listing)
    ensures r.status == StatusOk
    ensures |r.products| <= PageSize
    ensures forall i :: 0 <= i < |r.products| ==>
      r.products[i] in catalog && IsReleased(r.products[i], now)
  {
    var released := Released(catalog, now);
    var page := Section(released, ReleaseKey);
    assert forall i :: 0 <= i < |page| ==> page[i] in catalog && IsReleased(page[i], now) by {
      forall i | 0 <= i < |page| ensures page[i] in catalog && IsReleased(page[i], now) {
        assert page[i] in multiset(page);
        assert page[i] in released;
      }
    }
    Listing(StatusOk, page)
  }

  /** New arrivals are listed newest release first. */
  lemma NewArrivalsOrdered(catalog: seq<Product>, now: Time)
    ensures var r := NewArrivals(catalog, now).products;
      forall i, j :: 0 <= i < j < |r| ==>
        && r[i].releaseDate.Some? && r[j].releaseDate.Some?
        && r[i].releaseDate.value >= r[j].releaseDate.value
  {
    var r := NewArrivals(catalog, now).products;
    assert forall i, j :: 0 <= i < j < |r| ==> ReleaseKey(r[i]) >= ReleaseKey(r[j]);
  }

  /** Top-N for new arrivals: a released product is left out only when the
      page is full, and then it was released no later than the last one shown. */
  lemma NewArrivalsTopN(catalog: seq<Product>, now: Time, p: Product)
    requires p in catalog && IsReleased(p, now)
    ensures var r := NewArrivals(catalog, now).products;
      || p in r
      || (&& |r| == PageSize && r[|r| - 1].releaseDate.Some?
          && p.releaseDate.value <= r[|r| - 1].releaseDate.value)
  {
    var released := Released(catalog, now);
    var r := Section(released, ReleaseKey);
    assert r == NewArrivals(catalog, now).products;
    if p !in r {
      assert p in released;
      assert ReleaseKey(p) <= ReleaseKey(r[|r| - 1]);
      assert r[|r| - 1] in multiset(r);
      assert r[|r| - 1] in released;
      PageFullWhenSomethingLeftOut(r, released, p);
    }
  }

  /** A page that leaves out one of its candidates is a full page. */
  lemma PageFullWhenSomethingLeftOut(r: seq<Product>, candidates: seq<Product>, p: Product)
    requires |r| == if |candidates| < PageSize then |candidates| else PageSize
    requires multiset(r) <= multiset(candidates)
    requires p in candidates && p !in r
    ensures |r| == PageSize
  {
    assert p in multiset(candidates) && p !in multiset(r);
    if |r| != PageSize {
      SubMultisetSameSize(multiset(r), multiset(candidates));
    }
  }

  /** An empty catalog gives every section as an empty list with status 200. */
  lemma EmptyCatalogSections(now: Time)
    ensures Bestsellers([]) == Listing(StatusOk, [])
    ensures Trending([]) == Listing(StatusOk, [])
    ensures NewArrivals([], now) == Listing(StatusOk, [])
  {
  }

  /** With primary keys unique, no section lists a product twice. */
  lemma SectionsDuplicateFree(catalog: seq<Product>, now: Time)
    requires UniqueProductIds(catalog)
    ensures Distinct(Bestsellers(catalog).products)
    ensures Distinct(Trending(catalog).products)
    ensures Distinct(NewArrivals(catalog, now).products)
  {
    assert Distinct(catalog);
    TopNDistinct(catalog, SalesKey, PageSize);
    TopNDistinct(catalog, TrendingKey, PageSize);
    var released := Released(catalog, now);
    SubMultisetDistinct(released, catalog);
    TopNDistinct(released, ReleaseKey, PageSize);
  }
}

=== FILE: ranking.dfy ===
/** The "order by a column descending, take the first N" selection behind the
    catalog's dynamic sections (src/product/views.py). Rows are ranked by a key
    of type `real`; among rows with equal keys the input order is kept, which
    stands for the database's unspecified tie order. */
module Ranking {
  import opened Wrappers

  /** Page size of every dynamic section: the `[:10]` slice. */
  const PageSize: nat := 10

  /** Non-increasing by `key`. */
  predicate SortedDesc<T>(xs: seq<T>, key: T -> real)
  {
    forall i, j :: 0 <= i < j < |xs| ==> key(xs[i]) >= key(xs[j])
  }

  /** Places `x` in front of the first row whose key does not exceed its own. */
  function Insert<T>(x: T, xs: seq<T>, key: T -> real): (r: seq<T>)
    requires SortedDesc(xs, key)
    ensures SortedDesc(r, key)
    ensures multiset(r) == multiset(xs) + multiset{x}
    ensures |r| == |xs| + 1
    ensures key(r[0]) == key(x) || (xs != [] && key(r[0]) == key(xs[0]))
  {
    if xs == [] || key(x) >= key(xs[0]) then [x] + xs
    else
      var rest := Insert(x, xs[1..], key);
      assert xs == [xs[0]] + xs[1..];
      var r := [xs[0]] + rest;
      assert forall j :: 1 <= j < |r| ==> key(r[0]) >= key(rest[0]) >= key(r[j]);
      r
  }

  /** Stable descending sort: a row keeps its place relative to every row
      with the same key. */
  function SortDesc<T>(xs: seq<T>, key: T -> real): (r: seq<T>)
    ensures SortedDesc(r, key)
    ensures multiset(r) == multiset(xs)
    ensures |r| == |xs|
  {
    if xs == [] then []
    else
      assert xs == [xs[0]] + xs[1..];
      Insert(xs[0], SortDesc(xs[1..], key), key)
  }

  /** `order_by('-key')[:n]`. */
  function TopN<T>(xs: seq<T>, key: T -> real, n: nat): seq<T>
  {
    var sorted := SortDesc(xs, key);
    sorted[..if n < |sorted| then n else |sorted|]
  }

  /** The selection has min(n, |xs|) rows, in non-increasing key order, all
      drawn from `xs` (as a sub-multiset: nothing is invented or repeated). */
  lemma TopNShape<T>(xs: seq<T>, key: T -> real, n: nat)
    ensures var r := TopN(xs, key, n);
      && |r| == (if n < |xs| then n else |xs|)
      && SortedDesc(r, key)
      && multiset(r) <= multiset(xs)
  {
    var s := SortDesc(xs, key);
    var r := TopN(xs, key, n);
    assert s == r + s[|r|..];
    assert multiset(s) == multiset(r) + multiset(s[|r|..]);
  }

  /** Top-N: no row left out of the selection outranks the last row selected. */
  lemma TopNMaximal<T>(xs: seq<T>, key: T -> real, n: nat, x: T)
    requires x in xs && x !in TopN(xs, key, n)
    requires TopN(xs, key, n) != []
    ensures var r := TopN(xs, key, n); key(x) <= key(r[|r| - 1])
  {
    var s := SortDesc(xs, key);
    var r := TopN(xs, key, n);
    assert x in multiset(s);
    var j :| 0 <= j < |s| && s[j] == x;
  }

  /** A selection from a duplicate-free catalog is duplicate-free. */
  lemma TopNDistinct<T>(xs: seq<T>, key: T -> real, n: nat)
    requires Distinct(xs)
    ensures Distinct(TopN(xs, key, n))
  {
    TopNShape(xs, key, n);
    SubMultisetDistinct(TopN(xs, key, n), xs);
  }
}

=== FILE: reviews.dfy ===
/** Product reviews of src/review/models.py: rating and comment bounds, one
    review row per (product, user) whether it is a review or a reply,
    newest-first listing, and the cascades that delete a review's replies
    together with it and a product's or user's reviews with them. */
module Reviews {
  import opened Wrappers
  import opened Catalog
  import opened Users
  import opened Ranking

  const MinRating: int := 1
  const MaxRating: int := 5
  const MaxCommentLength: nat := 1000

  datatype Review = Review(
    id: nat,
    product: ProductId,
    parent: Option<nat>,
    user: UserId,
    rating: int,
    comment: string,
    createdAt: Time)

  /** A review request body; `user` is supplied by the caller, not the body. */
  datatype ReviewInput = ReviewInput(productId: ProductId, parent: Option<nat>, rating: int, comment: string)

  datatype ReviewError =
    | RatingTooLow
    | RatingTooHigh
    | CommentTooLong
    | UnknownProduct
    | UnknownParent
    | DuplicateReview

  /** The message `MaxLengthValidator` is given for the comment. */
  const CommentTooLongMessage: string := "Comment cannot exceed 1000 characters."

  // ---------------------------------------------------------------------------
  // Table invariants.

  predicate RatingInRange(rating: int)
  {
    MinRating <= rating <= MaxRating
  }

  predicate UniqueReviewIds(rs: seq<Review>)
  {
    forall i, j :: 0 <= i < j < |rs| ==> rs[i].id != rs[j].id
  }

  /** `unique_review_per_user`: no condition, so replies count too. */
  predicate OnePerProductAndUser(rs: seq<Review>)
  {
    forall i, j :: 0 <= i < j < |rs| ==> rs[i].product != rs[j].product || rs[i].user != rs[j].user
  }

  predicate HasReview(rs: seq<Review>, id: nat)
  {
    exists k :: 0 <= k < |rs| && rs[k].id == id
  }

  /** Every reply's parent exists. */
  predicate ParentsExist(rs: seq<Review>)
  {
    forall i :: 0 <= i < |rs| && rs[i].parent.Some? ==> HasReview(rs, rs[i].parent.value)
  }

  predicate ValidReviews(rs: seq<Review>)
  {
    && UniqueReviewIds(rs)
    && OnePerProductAndUser(rs)
    && ParentsExist(rs)
    && (forall i :: 0 <= i < |rs| ==> RatingInRange(rs[i].rating) && |rs[i].comment| <= MaxCommentLength)
  }

  // ---------------------------------------------------------------------------
  // Writing a review.

  /** The field validators: rating within 1..5, comment (possibly blank) at
      most 1000 characters. */
  function ReviewFieldErrors(input: ReviewInput): (r: seq<ReviewError>)
    ensures r == [] <==> RatingInRange(input.rating) && |input.comment| <= MaxCommentLength
  {
    (if input.rating < MinRating then [RatingTooLow] else if input.rating > MaxRating then [RatingTooHigh] else [])
    + (if |input.comment| > MaxCommentLength then [CommentTooLong] else [])
  }

  predicate PairTaken(rs: seq<Review>, product: ProductId, user: UserId)
  {
    exists k :: 0 <= k < |rs| && rs[k].product == product && rs[k].user == user
  }

  /** Saving a review for `user`: field validators, then the product and
      parent references, then the unique constraint. The table keeps rows
      in insertion order; listing applies the newest-first order. */
  function AddReview(rs: seq<Review>, catalog: seq<Product>, input: ReviewInput, user: UserId, nextId: nat, now: Time): (r: Result<seq<Review>, seq<ReviewError>>)
    ensures r.Err? <==>
      || ReviewFieldErrors(input) != []
      || FindProduct(catalog, input.productId).None?
      || (input.parent.Some? && !HasReview(rs, input.parent.value))
      || PairTaken(rs, input.productId, user)
    ensures ReviewFieldErrors(input) != [] ==> r == Err(ReviewFieldErrors(input))
    ensures r.Ok? ==> r.value == rs + [Review(nextId, input.productId, input.parent, user, input.rating, input.comment, now)]
    ensures r.Ok? && ValidReviews(rs) && (forall k :: 0 <= k < |rs| ==> rs[k].id < nextId) ==> ValidReviews(r.value)
  {
    var errs := ReviewFieldErrors(input);
    if errs != [] then Err(errs)
    else if FindProduct(catalog, input.productId).None? then Err([UnknownProduct])
    else if input.parent.Some? && !HasReview(rs, input.parent.value) then Err([UnknownParent])
    else if PairTaken(rs, input.productId, user) then Err([DuplicateReview])
    else
      var review := Review(nextId, input.productId, input.parent, user, input.rating, input.comment, now);
      var rs' := rs + [review];
      assert ValidReviews(rs) && (forall k :: 0 <= k < |rs| ==> rs[k].id < nextId) ==> ValidReviews(rs') by {
        if ValidReviews(rs) && (forall k :: 0 <= k < |rs| ==> rs[k].id < nextId) {
          AppendKeepsValid(rs, review);
        }
      }
      Ok(rs')
  }

  /** Appending a fresh, in-range review whose parent exists and whose
      product/user pair is free keeps the table valid. */
  lemma AppendKeepsValid(rs: seq<Review>, review: Review)
    requires ValidReviews(rs)
    requires forall k :: 0 <= k < |rs| ==> rs[k].id < review.id
    requires RatingInRange(review.rating) && |review.comment| <= MaxCommentLength
    requires review.parent.Some? ==> HasReview(rs, review.parent.value)
    requires !PairTaken(rs, review.product, review.user)
    ensures ValidReviews(rs + [review])
  {
    var rs' := rs + [review];
    assert forall k :: 0 <= k < |rs| ==> rs'[k] == rs[k];
    forall i | 0 <= i < |rs'| && rs'[i].parent.Some? ensures HasReview(rs', rs'[i].parent.value) {
      var k :| 0 <= k < |rs| && rs[k].id == (if i < |rs| then rs[i] else review).parent.value;
      assert rs'[k] == rs[k];
    }
  }

  /** The unique constraint covers replies: a user who reviewed a product
      cannot also reply on that product, to anyone. */
  lemma ReplyCountsTowardUniqueness(rs: seq<Review>, catalog: seq<Product>, mine: Review, input: ReviewInput, nextId: nat, now: Time)
    requires mine in rs
    requires input.productId == mine.product && input.parent.Some?
    ensures AddReview(rs, catalog, input, mine.user, nextId, now).Err?
  {
    var k :| 0 <= k < |rs| && rs[k] == mine;
  }

  /** A rating of 0 or 6, or a 1001-character comment, is refused whatever
      else the body holds. */
  lemma ReviewBounds(rs: seq<Review>, catalog: seq<Product>, input: ReviewInput, user: UserId, nextId: nat, now: Time)
    requires input.rating == 0 || input.rating == 6 || |input.comment| == 1001
    ensures AddReview(rs, catalog, input, user, nextId, now).Err?
  {
  }

  // ---------------------------------------------------------------------------
  // Listing.

  function ReviewTime(r: Review): real
  {
    r.createdAt as real
  }

  /** `ordering = ['-created_at']`: every review, newest first. */
  function ListReviews(rs: seq<Review>): (r: seq<Review>)
    ensures SortedDesc(r, ReviewTime)
    ensures multiset(r) == multiset(rs)
    ensures forall k :: 0 <= k < |r| - 1 ==> r[k].createdAt >= r[k + 1].createdAt
  {
    var r := SortDesc(rs, ReviewTime);
    assert forall k :: 0 <= k < |r| - 1 ==> ReviewTime(r[k]) >= ReviewTime(r[k + 1]);
    r
  }

  // ---------------------------------------------------------------------------
  // Cascading deletion: `parent` is a self-reference with `on_delete=CASCADE`.

  function Ids(rs: seq<Review>): set<nat>
  {
    set r | r in rs :: r.id
  }

  /** The ids of the replies to any review in `doomed`. */
  function RepliesTo(rs: seq<Review>, doomed: set<nat>): set<nat>
  {
    set r | r in rs && r.parent.Some? && r.parent.value in doomed :: r.id
  }

  /** A set of ids that contains every reply to each of its members. */
  predicate ClosedUnderReplies(rs: seq<Review>, s: set<nat>)
  {
    forall r :: r in rs && r.parent.Some? && r.parent.value in s ==> r.id in s
  }

  lemma ProperSubsetSmaller(a: set<nat>, b: set<nat>)
    requires a < b
    ensures |a| < |b|
  {
    var d := b - a;
    assert b == a + d;
    assert a * d == {};
    var x :| x in d;
    assert |d| >= 1 by {
      assert {x} <= d;
    }
  }

  /** The deletion set of `doomed`: the least set of ids containing
      `doomed` and closed under replies (replies, replies to replies, …). */
  function Cascade(rs: seq<Review>, doomed: set<nat>): (r: set<nat>)
    ensures doomed <= r
    ensures ClosedUnderReplies(rs, r)
    ensures forall s :: doomed <= s && ClosedUnderReplies(rs, s) ==> r <= s
    decreases |Ids(rs) - doomed|
  {
    var next := doomed + RepliesTo(rs, doomed);
    if next <= doomed then doomed
    else
      assert RepliesTo(rs, doomed) <= Ids(rs);
      ProperSubsetSmaller(Ids(rs) - next, Ids(rs) - doomed);
      Cascade(rs, next)
  }

  /** Removes every review whose id is in the deletion set of `seed`. */
  function DeleteCascading(rs: seq<Review>, seed: set<nat>): (r: seq<Review>)
    ensures forall x :: x in r <==> x in rs && x.id !in Cascade(rs, seed)
    ensures multiset(r) <= multiset(rs)
  {
    RemoveIds(rs, Cascade(rs, seed))
  }

  function RemoveIds(rs: seq<Review>, gone: set<nat>): (r: seq<Review>)
    ensures forall x :: x in r <==> x in rs && x.id !in gone
    ensures multiset(r) <= multiset(rs)
  {
    if rs == [] then []
    else
      var rest := RemoveIds(rs[1..], gone);
      assert rs == [rs[0]] + rs[1..];
      if rs[0].id !in gone then [rs[0]] + rest else rest
  }

  /** Deleting one review: it goes, every reply to it goes, and so on down;
      any review left standing still has its parent. */
  function DeleteReview(rs: seq<Review>, id: nat): (r: seq<Review>)
    ensures forall x :: x in r ==> x.id != id
    ensures forall x :: x in rs && x.parent == Some(id) ==> x !in r
    ensures forall x, y :: x in r && y in rs && x.parent == Some(y.id) && UniqueReviewIds(rs) ==> y in r
    ensures multiset(r) <= multiset(rs)
  {
    var gone := Cascade(rs, {id});
    var r := DeleteCascading(rs, {id});
    assert forall x, y :: x in r && y in rs && x.parent == Some(y.id) ==> y.id !in gone;
    r
  }

  /** A review survives a deletion exactly when it is outside every
      reply-closed set containing the deleted review, i.e. when it does not
      descend from it. */
  lemma DeleteReviewKeepsNonDescendants(rs: seq<Review>, id: nat, s: set<nat>, x: Review)
    requires id in s && ClosedUnderReplies(rs, s)
    requires x in rs && x.id !in s
    ensures x in DeleteReview(rs, id)
  {
  }

  /** Deletion keeps the table's invariants: in particular no reply is left
      pointing at a deleted review. */
  lemma DeleteReviewPreservesValidity(rs: seq<Review>, seed: set<nat>)
    requires ValidReviews(rs)
    ensures ValidReviews(DeleteCascading(rs, seed))
  {
    var r := DeleteCascading(rs, seed);
    SubTableKeepsRowInvariants(r, rs);
    CascadeKeepsParents(rs, seed);
  }

  /** Any sub-multiset of a valid table keeps the per-row and pairwise
      invariants. */
  lemma SubTableKeepsRowInvariants(r: seq<Review>, rs: seq<Review>)
    requires ValidReviews(rs) && multiset(r) <= multiset(rs)
    ensures UniqueReviewIds(r) && OnePerProductAndUser(r)
    ensures forall i :: 0 <= i < |r| ==> RatingInRange(r[i].rating) && |r[i].comment| <= MaxCommentLength
  {
    assert Distinct(rs) by {
      forall i, j | 0 <= i < j < |rs| ensures rs[i] != rs[j] {
        assert rs[i].id != rs[j].id;
      }
    }
    SubMultisetDistinct(r, rs);
    forall i, j | 0 <= i < j < |r|
      ensures r[i].id != r[j].id
      ensures r[i].product != r[j].product || r[i].user != r[j].user
    {
      assert r[i] in multiset(r) && r[j] in multiset(r);
      var p :| 0 <= p < |rs| && rs[p] == r[i];
      var q :| 0 <= q < |rs| && rs[q] == r[j];
      if p > q {
        assert rs[q].id != rs[p].id;
      }
    }
    forall i | 0 <= i < |r| ensures RatingInRange(r[i].rating) && |r[i].comment| <= MaxCommentLength {
      assert r[i] in multiset(r);
      var p :| 0 <= p < |rs| && rs[p] == r[i];
    }
  }

  /** A cascading deletion leaves no reply without its parent. */
  lemma CascadeKeepsParents(rs: seq<Review>, seed: set<nat>)
    requires ParentsExist(rs)
    ensures ParentsExist(DeleteCascading(rs, seed))
  {
    var r := DeleteCascading(rs, seed);
    var gone := Cascade(rs, seed);
    forall i | 0 <= i < |r| && r[i].parent.Some? ensures HasReview(r, r[i].parent.value) {
      assert r[i] in r;
      var p :| 0 <= p < |rs| && rs[p] == r[i];
      var k :| 0 <= k < |rs| && rs[k].id == r[i].parent.value;
      assert rs[k].id !in gone;
      assert rs[k] in r;
      var m :| 0 <= m < |r| && r[m] == rs[k];
    }
  }

  /** The ids of the reviews that refer to a deleted row directly. */
  function Referencing(rs: seq<Review>, refers: Review -> bool): (r: set<nat>)
    ensures forall x :: x in rs && refers(x) ==> x.id in r
  {
    set x | x in rs && refers(x) :: x.id
  }

  /** Deleting a product or a user: `on_delete=CASCADE` on `Review.product`
      and on `Review.user` removes the reviews that refer to it (`refers` is
      `x.product == p` or `x.user == u`), and `Review.parent` carries the
      deletion down to every reply below them. Every other review stays. */
  function DeleteReferencing(rs: seq<Review>, refers: Review -> bool): (r: seq<Review>)
    ensures forall x :: x in r ==> !refers(x)
    ensures forall x, y :: x in rs && y in rs && refers(y) && x.parent == Some(y.id) ==> x !in r
    ensures forall x :: x in r <==> x in rs && x.id !in Cascade(rs, Referencing(rs, refers))
    ensures multiset(r) <= multiset(rs)
  {
    DeleteCascading(rs, Referencing(rs, refers))
  }

  /** A review survives when some reply-closed set holds every review that
      refers to the deleted row but not this one: a review that does not
      descend from a doomed review is kept. */
  lemma DeleteReferencingKeepsOthers(rs: seq<Review>, refers: Review -> bool, s: set<nat>, x: Review)
    requires Referencing(rs, refers) <= s && ClosedUnderReplies(rs, s)
    requires x in rs && x.id !in s
    ensures x in DeleteReferencing(rs, refers)
  {
  }

  /** When nothing refers to the deleted row, no review is touched. */
  lemma {:induction false} NothingReferencingKeepsAll(rs: seq<Review>, refers: Review -> bool)
    requires forall x :: x in rs ==> !refers(x)
    ensures DeleteReferencing(rs, refers) == rs
  {
    assert Referencing(rs, refers) == {};
    assert ClosedUnderReplies(rs, {});
    assert Cascade(rs, {}) == {};
    RemoveNothing(rs);
  }

  lemma {:induction false} RemoveNothing(rs: seq<Review>)
    ensures RemoveIds(rs, {}) == rs
  {
    if rs != [] {
      RemoveNothing(rs[1..]);
      assert rs == [rs[0]] + rs[1..];
    }
  }
}

=== FILE: text.dfy ===
/** The string conversions the source leans on: Python's `str(int)`, `str(Decimal)`
    for a two-place money column, `int(str)` for an id carried as text, the
    whitespace trimming every DRF `CharField` applies, and the code-point
    ordering of names. */
module Text {
  import opened Wrappers

  predicate IsDigit(c: char)
  {
    '0' <= c <= '9'
  }

  function DigitChar(d: nat): (c: char)
    requires d < 10
    ensures IsDigit(c)
    ensures DigitValue(c) == d
  {
    ['0', '1', '2', '3', '4', '5', '6', '7', '8', '9'][d]
  }

  function DigitValue(c: char): nat
    requires IsDigit(c)
  {
    (c as int - '0' as int) as nat
  }

  /** Python's `str(n)` for a non-negative integer: decimal digits, no leading zero. */
  function NatToString(n: nat): (s: string)
    decreases n
  {
    if n < 10 then [DigitChar(n)] else NatToString(n / 10) + [DigitChar(n % 10)]
  }

  /** The value of a non-empty run of decimal digits. */
  function DigitsValue(s: string): nat
    requires forall i :: 0 <= i < |s| ==> IsDigit(s[i])
  {
    if s == [] then 0 else DigitsValue(s[..|s| - 1]) * 10 + DigitValue(s[|s| - 1])
  }

  predicate AllDigits(s: string)
  {
    forall i :: 0 <= i < |s| ==> IsDigit(s[i])
  }

  /** Python's `int(s)` restricted to plain non-negative decimal text; anything
      else is the `ValueError` the source would raise. */
  function ParseNat(s: string): (r: Option<nat>)
    ensures r.Some? <==> |s| > 0 && AllDigits(s)
  {
    if |s| > 0 && AllDigits(s) then Some(DigitsValue(s)) else None
  }

  /** Every character `str(n)` produces is a digit. */
  lemma {:induction false} NatToStringDigits(n: nat)
    ensures |NatToString(n)| > 0
    ensures AllDigits(NatToString(n))
    decreases n
  {
    if n >= 10 {
      NatToStringDigits(n / 10);
    }
  }

  /** `int(str(n)) == n`. */
  lemma {:induction false} ParseNatToString(n: nat)
    ensures ParseNat(NatToString(n)) == Some(n)
    decreases n
  {
    NatToStringDigits(n);
    var s := NatToString(n);
    if n >= 10 {
      ParseNatToString(n / 10);
      NatToStringDigits(n / 10);
      assert s[..|s| - 1] == NatToString(n / 10);
      assert DigitsValue(s) == DigitsValue(NatToString(n / 10)) * 10 + n % 10;
    } else {
      assert s == [DigitChar(n)];
      assert s[..|s| - 1] == [];
      assert DigitsValue(s) == DigitsValue([]) * 10 + DigitValue(s[0]);
    }
  }

  /** `str(n)` is injective: distinct ids give distinct `cartItemId` strings. */
  lemma NatToStringInjective(m: nat, n: nat)
    requires NatToString(m) == NatToString(n)
    ensures m == n
  {
    ParseNatToString(m);
    ParseNatToString(n);
  }

  /** `str(Decimal)` of a value read from a `DecimalField(decimal_places=2)`:
      whole units, a point, and exactly two digits of cents ("999.99", "0.50"). */
  function CentsToString(cents: nat): (s: string)
  {
    NatToString(cents / 100) + "." + [DigitChar(cents % 100 / 10), DigitChar(cents % 10)]
  }

  /** Reads back a two-place decimal string as cents. */
  function ParseCents(s: string): Option<nat>
  {
    if |s| < 4 || s[|s| - 3] != '.' then None
    else
      match ParseNat(s[..|s| - 3])
      case None => None
      case Some(units) =>
        if IsDigit(s[|s| - 2]) && IsDigit(s[|s| - 1])
        then Some(units * 100 + DigitValue(s[|s| - 2]) * 10 + DigitValue(s[|s| - 1]))
        else None
  }

  /** The price string in the cart output reads back as the exact price. */
  lemma CentsToStringRoundTrip(cents: nat)
    ensures ParseCents(CentsToString(cents)) == Some(cents)
  {
    var whole := NatToString(cents / 100);
    NatToStringDigits(cents / 100);
    ParseNatToString(cents / 100);
    var s := CentsToString(cents);
    assert s[..|s| - 3] == whole;
    assert s[|s| - 3] == '.';
  }

  /** `str(Decimal)` for any two-place amount of cents, negative ones with a
      leading minus sign ("-1.50"). */
  function DecimalToString(cents: int): string
  {
    if cents < 0 then "-" + CentsToString(-cents) else CentsToString(cents)
  }

  function ParseDecimal(s: string): Option<int>
  {
    if |s| > 0 && s[0] == '-' then
      match ParseCents(s[1..])
      case Some(c) => Some(-(c as int))
      case None => None
    else ParseCents(s)
  }

  /** Any price string produced for output reads back as the exact price. */
  lemma DecimalRoundTrip(cents: int)
    ensures ParseDecimal(DecimalToString(cents)) == Some(cents)
  {
    if cents < 0 {
      var s := DecimalToString(cents);
      assert s[1..] == CentsToString(-cents);
      CentsToStringRoundTrip(-cents);
    } else {
      CentsToStringRoundTrip(cents);
      NatToStringDigits(cents / 100);
      assert DecimalToString(cents)[0] != '-';
    }
  }

  /** The text DRF's `PrimaryKeyRelatedField` gives for a key that names
      no row: 'Invalid pk "<pk>" - object does not exist.' */
  const PkPrefix: string := "Invalid pk \""
  const PkSuffix: string := "\" - object does not exist."

  function InvalidPkMessage(pk: nat): string
  {
    PkPrefix + NatToString(pk) + PkSuffix
  }

  /** The message names the key that was sent: it reads back from between
      the quotes. */
  lemma InvalidPkMessageNamesPk(pk: nat)
    ensures var m := InvalidPkMessage(pk);
      |m| > |PkPrefix| + |PkSuffix| && ParseNat(m[|PkPrefix|..|m| - |PkSuffix|]) == Some(pk)
  {
    NatToStringDigits(pk);
    ParseNatToString(pk);
    var m := InvalidPkMessage(pk);
    assert m[|PkPrefix|..|m| - |PkSuffix|] == NatToString(pk);
  }

  // ---------------------------------------------------------------------------
  // Whitespace trimming.

  /** Python's `str.isspace` for one character: the ASCII controls tab to
      carriage return and file to unit separator, the space, and the Unicode
      space separators, next line and line and paragraph separators. */
  predicate IsSpace(c: char)
  {
    || ('\U{0009}' <= c <= '\U{000D}')
    || ('\U{001C}' <= c <= '\U{0020}')
    || c == '\U{0085}' || c == '\U{00A0}' || c == '\U{1680}'
    || ('\U{2000}' <= c <= '\U{200A}')
    || c == '\U{2028}' || c == '\U{2029}' || c == '\U{202F}' || c == '\U{205F}' || c == '\U{3000}'
  }

  predicate AllSpace(s: string)
  {
    forall k :: 0 <= k < |s| ==> IsSpace(s[k])
  }

  /** `str.lstrip()`: the longest suffix that does not start with whitespace. */
  function StripStart(s: string): (r: string)
    ensures |r| <= |s| && r == s[|s| - |r|..]
    ensures forall k :: 0 <= k < |s| - |r| ==> IsSpace(s[k])
    ensures r == [] || !IsSpace(r[0])
    ensures r == [] <==> AllSpace(s)
  {
    if s != [] && IsSpace(s[0]) then
      var r := StripStart(s[1..]);
      assert forall k :: 1 <= k < |s| ==> s[k] == s[1..][k - 1];
      r
    else s
  }

  /** `str.rstrip()`: the longest prefix that does not end with whitespace. */
  function StripEnd(s: string): (r: string)
    ensures |r| <= |s| && r == s[..|r|]
    ensures forall k :: |r| <= k < |s| ==> IsSpace(s[k])
    ensures r == [] || !IsSpace(r[|r| - 1])
    ensures r == [] <==> AllSpace(s)
  {
    if s != [] && IsSpace(s[|s| - 1]) then
      var r := StripEnd(s[..|s| - 1]);
      assert forall k :: 0 <= k < |s| - 1 ==> s[k] == s[..|s| - 1][k];
      r
    else s
  }

  /** `str.strip()`, which a DRF `CharField` applies to every value it
      accepts (`trim_whitespace=True` by default). Nothing is left exactly
      when there was nothing but whitespace. */
  function Strip(s: string): (r: string)
    ensures |r| <= |s|
    ensures r == [] || (!IsSpace(r[0]) && !IsSpace(r[|r| - 1]))
    ensures r == [] <==> AllSpace(s)
  {
    StripEnd(StripStart(s))
  }

  /** What a `CharField` without `allow_blank` refuses as "blank": the empty
      string and any string of whitespace alone. */
  predicate IsBlank(s: string)
  {
    Strip(s) == ""
  }

  /** A field that may be absent, trimmed when present. */
  function StripOption(s: Option<string>): (r: Option<string>)
    ensures r.Some? <==> s.Some?
    ensures r.Some? ==> |r.value| <= |s.value| && (r.value == "" <==> AllSpace(s.value))
  {
    match s
    case None => None
    case Some(t) => Some(Strip(t))
  }

  /** A string with no whitespace at either end is kept as it is. */
  lemma {:induction false} StripKeepsTrimmed(s: string)
    requires s == [] || (!IsSpace(s[0]) && !IsSpace(s[|s| - 1]))
    ensures Strip(s) == s
  {
    assert StripStart(s) == s;
    assert StripEnd(s) == s;
  }

  /** Trimming is idempotent. */
  lemma {:induction false} StripIdempotent(s: string)
    ensures Strip(Strip(s)) == Strip(s)
  {
    var t := Strip(s);
    assert t == [] || (!IsSpace(t[0]) && !IsSpace(t[|t| - 1]));
    StripKeepsTrimmed(t);
    assert Strip(t) == t;
  }

  /** Padding with whitespace on either side does not change the trimmed
      value: " secret " and "secret" are the same submitted text. */
  lemma {:induction false} StripPadding(a: string, s: string, b: string)
    requires AllSpace(a) && AllSpace(b)
    ensures Strip(a + s + b) == Strip(s)
  {
    assert a + s + b == a + (s + b);
    StripStartPadding(a, s + b);
    if AllSpace(s) {
      StripStartPadding(s, b);
    } else {
      StripStartAppend(s, b);
      StripEndPadding(StripStart(s), b);
    }
  }

  lemma {:induction false} StripStartPadding(a: string, s: string)
    requires AllSpace(a)
    ensures StripStart(a + s) == StripStart(s)
    decreases |a|
  {
    if a != [] {
      assert (a + s)[0] == a[0];
      assert (a + s)[1..] == a[1..] + s;
      StripStartPadding(a[1..], s);
    } else {
      assert a + s == s;
    }
  }

  lemma {:induction false} StripEndPadding(s: string, b: string)
    requires AllSpace(b)
    ensures StripEnd(s + b) == StripEnd(s)
    decreases |b|
  {
    if b != [] {
      assert (s + b)[|s + b| - 1] == b[|b| - 1];
      assert (s + b)[..|s + b| - 1] == s + b[..|b| - 1];
      StripEndPadding(s, b[..|b| - 1]);
    } else {
      assert s + b == s;
    }
  }

  /** Text after a non-space survives the front trim. */
  lemma {:induction false} StripStartAppend(s: string, b: string)
    requires !AllSpace(s)
    ensures StripStart(s + b) == StripStart(s) + b
    decreases |s|
  {
    assert (s + b)[0] == s[0];
    if IsSpace(s[0]) {
      assert (s + b)[1..] == s[1..] + b;
      StripStartAppend(s[1..], b);
    }
  }

  /** Code-point lexicographic order on strings, the collation assumed for
      `ordering = ['name']`. */
  predicate LexLe(a: string, b: string)
  {
    if a == [] then true
    else if b == [] then false
    else if a[0] != b[0] then a[0] < b[0]
    else LexLe(a[1..], b[1..])
  }

  lemma {:induction false} LexLeTotal(a: string, b: string)
    ensures LexLe(a, b) || LexLe(b, a)
  {
    if a != [] && b != [] && a[0] == b[0] {
      LexLeTotal(a[1..], b[1..]);
    }
  }

  lemma {:induction false} LexLeAntisymmetric(a: string, b: string)
    requires LexLe(a, b) && LexLe(b, a)
    ensures a == b
  {
    if a != [] && b != [] {
      LexLeAntisymmetric(a[1..], b[1..]);
      assert a == [a[0]] + a[1..];
      assert b == [b[0]] + b[1..];
    }
  }

  lemma {:induction false} LexLeTransitive(a: string, b: string, c: string)
    requires LexLe(a, b) && LexLe(b, c)
    ensures LexLe(a, c)
  {
    if a != [] && b != [] && c != [] && a[0] == b[0] && b[0] == c[0] {
      LexLeTransitive(a[1..], b[1..], c[1..]);
    }
  }
}

=== FILE: trending.dfy ===
/** The ranking engine: the weighted trending score and the aggregated order
    information of src/product/utils.py, and the periodic sweep of
    src/product/tasks.py that rewrites every product's `trending_score`.
    Scores and weights are exact `real`s (the source uses binary floats). */
module Trending {
  import opened Wrappers
  import opened Catalog

  /** The default weights of `compute_trending_score`, also hard-coded in the sweep. */
  const WeightSales: real := 0.7
  const WeightViews: real := 0.3

  /** `compute_trending_score`: a weighted sum of the two counters. */
  function TrendingScore(sales: nat, views: nat, weightSales: real, weightViews: real): (r: real)
    ensures sales == 0 && views == 0 ==> r == 0.0
    ensures weightSales >= 0.0 && weightViews >= 0.0 ==> r >= 0.0
    ensures views == 0 ==> r == sales as real * weightSales
    ensures sales == 0 ==> r == views as real * weightViews
  {
    sales as real * weightSales + views as real * weightViews
  }

  /** The score with the default weights. */
  function DefaultScore(p: Product): real
  {
    TrendingScore(p.salesCount, p.viewsCount, WeightSales, WeightViews)
  }

  /** With non-negative weights, more sales or more views never lower the score. */
  lemma ScoreMonotone(s1: nat, v1: nat, s2: nat, v2: nat, ws: real, wv: real)
    requires ws >= 0.0 && wv >= 0.0
    requires s1 <= s2 && v1 <= v2
    ensures TrendingScore(s1, v1, ws, wv) <= TrendingScore(s2, v2, ws, wv)
  {
    assert (s2 - s1) as real * ws >= 0.0;
    assert (v2 - v1) as real * wv >= 0.0;
  }

  /** 10 sales and 100 views score 37 with the default weights. */
  lemma ScoreExample()
    ensures TrendingScore(10, 100, WeightSales, WeightViews) == 37.0
  {
  }

  /** `aggregate_order_info`: revenue as sales times the current price, and the
      order count as the sales counter; both from the product's own columns. */
  function AggregateOrderInfo(p: Product): (info: OrderInfo)
    ensures info.totalOrders == p.salesCount
    ensures info.totalRevenue == info.totalOrders * p.price
    ensures ValidProduct(p) ==> info.totalRevenue >= 0
  {
    OrderInfo(p.salesCount * p.price, p.salesCount)
  }

  /** A price of 999.99 and 10 sales give 9999.90 of revenue and 10 orders. */
  lemma AggregateOrderInfoExample(p: Product)
    requires p.price == 99999 && p.salesCount == 10
    ensures AggregateOrderInfo(p) == OrderInfo(999990, 10)
  {
  }

  /** For one price, more sales never lower either total, and the revenue
      grows by the price for every extra sale. */
  lemma AggregateOrderInfoMonotone(p: Product, q: Product)
    requires p.price == q.price && p.price >= 0
    requires p.salesCount <= q.salesCount
    ensures AggregateOrderInfo(p).totalOrders <= AggregateOrderInfo(q).totalOrders
    ensures AggregateOrderInfo(p).totalRevenue <= AggregateOrderInfo(q).totalRevenue
    ensures AggregateOrderInfo(q).totalRevenue - AggregateOrderInfo(p).totalRevenue == (q.salesCount - p.salesCount) * p.price
  {
    var d := q.salesCount - p.salesCount;
    assert q.salesCount * q.price == p.salesCount * p.price + d * p.price;
    assert d * p.price >= 0;
  }

  /** A product nobody has bought yet aggregates to no orders and no revenue. */
  lemma UnsoldProductHasNoOrders(p: Product)
    requires p.salesCount == 0
    ensures AggregateOrderInfo(p) == OrderInfo(0, 0)
  {
  }

  /** The post-save hook's effect on the saved row: only
      `aggregated_order_info` is written. */
  function RecordOrderInfo(p: Product): (q: Product)
    ensures q.aggregatedOrderInfo == Some(AggregateOrderInfo(p))
    ensures q.(aggregatedOrderInfo := p.aggregatedOrderInfo) == p
  {
    p.(aggregatedOrderInfo := Some(AggregateOrderInfo(p)))
  }

  /** One iteration of the sweep: `product.trending_score = new_score`. */
  function Rescore(p: Product): Product
  {
    p.(trendingScore := DefaultScore(p))
  }

  /** The whole-catalog sweep as a value: every product rescored in place. */
  function Sweep(ps: seq<Product>): (r: seq<Product>)
    ensures |r| == |ps|
    ensures forall i :: 0 <= i < |ps| ==> r[i].trendingScore == DefaultScore(ps[i])
    ensures forall i :: 0 <= i < |ps| ==> r[i].(trendingScore := ps[i].trendingScore) == ps[i]
  {
    seq(|ps|, i requires 0 <= i < |ps| => Rescore(ps[i]))
  }

  /** `update_trending_scores`: the loop over all products. It neither adds
      nor removes products, sets every score to the default-weight score, and
      writes no other column. */
  method UpdateTrendingScores(products: seq<Product>) returns (updated: seq<Product>)
    ensures |updated| == |products|
    ensures forall i :: 0 <= i < |products| ==>
      updated[i].trendingScore == 0.7 * products[i].salesCount as real + 0.3 * products[i].viewsCount as real
    ensures forall i :: 0 <= i < |products| ==>
      updated[i].(trendingScore := products[i].trendingScore) == products[i]
    ensures updated == Sweep(products)
  {
    updated := [];
    var i := 0;
    while i < |products|
      invariant 0 <= i <= |products|
      invariant |updated| == i
      invariant forall k :: 0 <= k < i ==> updated[k] == Rescore(products[k])
    {
      var product := products[i];
      var newScore := TrendingScore(product.salesCount, product.viewsCount, WeightSales, WeightViews);
      updated := updated + [product.(trendingScore := newScore)];
      i := i + 1;
    }
  }

  /** Running the sweep twice leaves the same scores as running it once. */
  lemma SweepIdempotent(ps: seq<Product>)
    ensures Sweep(Sweep(ps)) == Sweep(ps)
  {
    var once := Sweep(ps);
    assert forall i :: 0 <= i < |ps| ==> Rescore(once[i]) == once[i];
  }

  /** No catalog-wide normalisation: a product's new score depends on nothing
      but that product, wherever it sits and whatever surrounds it. */
  lemma SweepIsLocal(ps: seq<Product>, qs: seq<Product>, i: nat, j: nat)
    requires i < |ps| && j < |qs| && ps[i] == qs[j]
    ensures Sweep(ps)[i] == Sweep(qs)[j]
  {
  }

  /** The sweep as the database sees it while the post-save receiver of
      src/product/signals.py is connected: each `save` of a rescored product
      also rewrites that row's `aggregated_order_info`, computed from the
      same row. */
  function SweepWithReceiver(ps: seq<Product>): (r: seq<Product>)
    ensures |r| == |ps|
    ensures forall i :: 0 <= i < |ps| ==>
      && r[i].trendingScore == DefaultScore(ps[i])
      && r[i].aggregatedOrderInfo == Some(AggregateOrderInfo(ps[i]))
      && r[i].(trendingScore := ps[i].trendingScore, aggregatedOrderInfo := ps[i].aggregatedOrderInfo) == ps[i]
  {
    var swept := Sweep(ps);
    seq(|ps|, i requires 0 <= i < |ps| => RecordOrderInfo(swept[i]))
  }

  /** The receiver changes nothing but the order information: the two sweeps
      agree on every other column. */
  lemma ReceiverOnlyAddsOrderInfo(ps: seq<Product>)
    ensures |SweepWithReceiver(ps)| == |Sweep(ps)|
    ensures forall i :: 0 <= i < |ps| ==>
      SweepWithReceiver(ps)[i].(aggregatedOrderInfo := Sweep(ps)[i].aggregatedOrderInfo) == Sweep(ps)[i]
  {
  }

  /** The sweep keeps every primary key where it was. */
  lemma SweepKeepsIds(ps: seq<Product>)
    ensures forall i :: 0 <= i < |ps| ==> Sweep(ps)[i].id == ps[i].id
    ensures UniqueProductIds(ps) ==> UniqueProductIds(Sweep(ps))
  {
    var r := Sweep(ps);
    assert forall i :: 0 <= i < |ps| ==> r[i].id == ps[i].id;
  }
}

=== FILE: users.dfy ===
/** Accounts and the activity log of src/user/models.py and
    src/user/serializers.py: the profile-image check of `CustomUser.clean`,
    the field checks and password confirmation of the user serializer, the
    closed set of activity actions, and the newest-first activity log. The
    username, e-mail, URL and IP address syntax checks are opaque predicates
    supplied by the caller. */
module Users {
  import opened Wrappers
  import opened Text
  import opened Ranking
  import opened Catalog

  type UserId = nat

  /** `on_delete=SET_NULL` on a foreign key to the user: deleting `deleted`
      clears the references to it and leaves every other one as it was. */
  function SetNull(owner: Option<UserId>, deleted: UserId): (r: Option<UserId>)
    ensures r == None <==> owner == None || owner == Some(deleted)
    ensures r != None ==> r == owner
  {
    if owner == Some(deleted) then None else owner
  }

  // ---------------------------------------------------------------------------
  // Activity actions: `ACTION_CHOICES`, enforced both by a check constraint
  // and by the serializer's choice field.

  datatype Action = Login | Logout | UpdateProfile | Purchase

  /** The stored value of each choice. */
  function ActionCode(a: Action): string
  {
    match a
    case Login => "login"
    case Logout => "logout"
    case UpdateProfile => "update_profile"
    case Purchase => "purchase"
  }

  /** The choice a stored or submitted value names, if any. */
  function ParseAction(s: string): (r: Option<Action>)
    ensures r.Some? ==> ActionCode(r.value) == s
  {
    if s == "login" then Some(Login)
    else if s == "logout" then Some(Logout)
    else if s == "update_profile" then Some(UpdateProfile)
    else if s == "purchase" then Some(Purchase)
    else None
  }

  /** The four codes are exactly the accepted values: each parses back to its
      action, and a string parses only if it is one of them. */
  lemma ActionCodesRoundTrip(a: Action, s: string)
    ensures ParseAction(ActionCode(a)) == Some(a)
    ensures ParseAction(s).Some? <==> s in {"login", "logout", "update_profile", "purchase"}
  {
  }

  // ---------------------------------------------------------------------------
  // Users.

  /** `CustomUser` as far as the model needs it. The password is kept only
      through `Credential`, the hashed form `create_user` stores. */
  datatype User = User(
    id: UserId,
    username: string,
    email: string,
    profileImageUrl: Option<string>,
    credential: Credential,
    isStaff: bool)

  /** A stored password: the hash of the submitted text (hashing itself is
      not modelled, only that the stored form is derived from the password). */
  datatype Credential = Hashed(of: string) | Unusable

  const InvalidUrlMessage: string := "Invalid profile image URL."

  /** `CustomUser.clean`: an absent or empty URL is not checked; any other
      value must satisfy the URL validator. */
  function CleanProfileImage(url: Option<string>, isValidUrl: string -> bool): (r: Result<(), string>)
    ensures r.Err? ==> r.error == InvalidUrlMessage
    ensures r.Err? <==> url.Some? && url.value != "" && !isValidUrl(url.value)
  {
    match url
    case None => Ok(())
    case Some(u) => if u == "" || isValidUrl(u) then Ok(()) else Err(InvalidUrlMessage)
  }

  /** Skipping is independent of the validator: an absent or empty URL is
      accepted even by a validator that accepts nothing. */
  lemma EmptyUrlSkipsValidation(url: Option<string>)
    requires url.None? || url == Some("")
    ensures CleanProfileImage(url, (s: string) => false).Ok?
  {
  }

  // ---------------------------------------------------------------------------
  // The user serializer.

  /** A user-serializer request body; an omitted field is `None`. */
  datatype UserInput = UserInput(
    username: Option<string>,
    email: Option<string>,
    profileImageUrl: Option<string>,
    password: Option<string>,
    confirmPassword: Option<string>)

  /** The syntax checks the serializer's fields run, supplied by the caller:
      Django's `UnicodeUsernameValidator`, `EmailValidator` and `URLValidator`. */
  datatype Validators = Validators(username: string -> bool, email: string -> bool, url: string -> bool)

  /** The `max_length` each field takes from its model column. */
  const UsernameMaxLength: nat := 150
  const EmailMaxLength: nat := 254
  const UrlMaxLength: nat := 200

  datatype UserError =
    | Required(field: string)
    | Blank(field: string)
    | TooLong(field: string, limit: nat)
    | InvalidUsername
    | UsernameTaken
    | InvalidEmail
    | InvalidUrl
    | PasswordsDiffer
    | MissingKey(key: string)
    | MissingArgument(name: string)
    | UsernameNotSet

  function UserErrorMessage(e: UserError): string
  {
    match e
    case Required(_) => "This field is required."
    case Blank(_) => "This field may not be blank."
    case TooLong(_, n) => "Ensure this field has no more than " + NatToString(n) + " characters."
    case InvalidUsername => "Enter a valid username. This value may contain only letters, numbers, and @/./+/-/_ characters."
    case UsernameTaken => "A user with that username already exists."
    case InvalidEmail => "Enter a valid email address."
    case InvalidUrl => "Enter a valid URL."
    case PasswordsDiffer => "Passwords do not match."
    case MissingKey(k) => k
    case MissingArgument(n) => "create_user() missing 1 required positional argument: '" + n + "'"
    case UsernameNotSet => "The given username must be set"
  }

  /** A present username the field accepts: not blank, and once trimmed a
      valid username, not another user's, and at most 150 characters. */
  predicate UsernameAcceptable(u: string, taken: set<string>, v: Validators)
  {
    !IsBlank(u) && v.username(Strip(u)) && Strip(u) !in taken && |Strip(u)| <= UsernameMaxLength
  }

  /** `username`, built from `AbstractUser.username`: required, never blank,
      pattern-checked and unique (`taken` holds the other users' usernames),
      with the length limit checked last. */
  function UsernameErrors(value: Option<string>, partial: bool, taken: set<string>, v: Validators): (r: seq<UserError>)
    ensures r == [] <==> (value.None? ==> partial) && (value.Some? ==> UsernameAcceptable(value.value, taken, v))
    ensures value.Some? && !IsBlank(value.value) && Strip(value.value) in taken ==> UsernameTaken in r
  {
    match value
    case None => if partial then [] else [Required("username")]
    case Some(u) =>
      if IsBlank(u) then [Blank("username")]
      else
        var t := Strip(u);
        (if v.username(t) then [] else [InvalidUsername])
        + (if t in taken then [UsernameTaken] else [])
        + (if |t| <= UsernameMaxLength then [] else [TooLong("username", UsernameMaxLength)])
  }

  /** An optional value the field accepts: absent, blank, or once trimmed
      within the length limit and passing the syntax check. */
  predicate OptionalAcceptable(value: Option<string>, valid: string -> bool, limit: nat)
  {
    value.None? || IsBlank(value.value) || (|Strip(value.value)| <= limit && valid(Strip(value.value)))
  }

  /** `email` and `profile_image_url`: optional and allowed to be blank; a
      non-blank value is trimmed, then checked for length and syntax. */
  function OptionalTextErrors(field: string, value: Option<string>, valid: string -> bool, invalid: UserError, limit: nat): (r: seq<UserError>)
    ensures r == [] <==> OptionalAcceptable(value, valid, limit)
  {
    match value
    case None => []
    case Some(s) =>
      if IsBlank(s) then []
      else (if |Strip(s)| <= limit then [] else [TooLong(field, limit)]) + (if valid(Strip(s)) then [] else [invalid])
  }

  /** The declared `password` and `confirm_password` fields: required unless
      the update is partial, and never blank (whitespace alone is blank). */
  function FieldCheck(field: string, value: Option<string>, partial: bool): (r: seq<UserError>)
    ensures r == [] <==> (value.None? ==> partial) && (value.Some? ==> !IsBlank(value.value))
  {
    match value
    case None => if partial then [] else [Required(field)]
    case Some(v) => if IsBlank(v) then [Blank(field)] else []
  }

  /** Both password fields. */
  function PasswordFieldErrors(data: UserInput, partial: bool): (r: seq<UserError>)
    ensures r == [] <==>
      && (partial || (data.password.Some? && data.confirmPassword.Some?))
      && (data.password.Some? ==> !IsBlank(data.password.value))
      && (data.confirmPassword.Some? ==> !IsBlank(data.confirmPassword.value))
  {
    FieldCheck("password", data.password, partial) + FieldCheck("confirm_password", data.confirmPassword, partial)
  }

  /** Every field error of the body, in the serializer's field order. */
  function UserFieldErrors(data: UserInput, partial: bool, taken: set<string>, v: Validators): seq<UserError>
  {
    UsernameErrors(data.username, partial, taken, v)
    + OptionalTextErrors("email", data.email, v.email, InvalidEmail, EmailMaxLength)
    + OptionalTextErrors("profile_image_url", data.profileImageUrl, v.url, InvalidUrl, UrlMaxLength)
    + PasswordFieldErrors(data, partial)
  }

  /** What the fields hand to `validate`: every present value trimmed. */
  function Trimmed(data: UserInput): UserInput
  {
    UserInput(StripOption(data.username), StripOption(data.email), StripOption(data.profileImageUrl),
              StripOption(data.password), StripOption(data.confirmPassword))
  }

  /** Python truthiness of an optional string. */
  predicate Truthy(s: Option<string>)
  {
    s.Some? && s.value != ""
  }

  /** `validate`, given the fields' output: when either password is given and
      non-empty, the two must be equal; the data itself is returned unchanged. */
  function ValidatePasswords(data: UserInput): (r: Result<UserInput, UserError>)
    ensures r.Ok? ==> r.value == data
    ensures r.Err? ==> r.error == PasswordsDiffer
    ensures r.Err? <==> (Truthy(data.password) || Truthy(data.confirmPassword))
                        && data.password != data.confirmPassword
  {
    if (Truthy(data.password) || Truthy(data.confirmPassword)) && data.password != data.confirmPassword
    then Err(PasswordsDiffer)
    else Ok(data)
  }

  /** `is_valid()`: field checks first, then `validate` on the trimmed
      values. `taken` holds the usernames of the other users. */
  function ValidateUser(data: UserInput, partial: bool, taken: set<string>, v: Validators): (r: Result<UserInput, seq<UserError>>)
    ensures UserFieldErrors(data, partial, taken, v) != [] ==> r == Err(UserFieldErrors(data, partial, taken, v))
    ensures UserFieldErrors(data, partial, taken, v) == [] ==>
      && (r.Ok? <==> ValidatePasswords(Trimmed(data)).Ok?)
      && (r.Ok? ==> r.value == Trimmed(data))
      && (r.Err? ==> r.error == [PasswordsDiffer])
  {
    var errs := UserFieldErrors(data, partial, taken, v);
    if errs != [] then Err(errs)
    else match ValidatePasswords(Trimmed(data))
      case Ok(d) => Ok(d)
      case Err(e) => Err([e])
  }

  /** A registration (a full, not partial, body) passes exactly when the
      username is acceptable, the e-mail and URL are absent, blank or valid,
      and the password is given, not blank, and equal to the confirmation
      once both are trimmed. */
  lemma RegistrationAccepted(data: UserInput, taken: set<string>, v: Validators)
    ensures ValidateUser(data, false, taken, v).Ok? <==>
      && data.username.Some? && UsernameAcceptable(data.username.value, taken, v)
      && OptionalAcceptable(data.email, v.email, EmailMaxLength)
      && OptionalAcceptable(data.profileImageUrl, v.url, UrlMaxLength)
      && data.password.Some? && data.confirmPassword.Some?
      && !IsBlank(data.password.value)
      && Strip(data.password.value) == Strip(data.confirmPassword.value)
  {
  }

  /** Whitespace after a password is not part of it: padding the password
      ("secret" to "secret ") never changes the outcome of validation, so a
      confirmation without the padding still matches. */
  lemma PaddedPasswordAccepted(data: UserInput, pad: string, partial: bool, taken: set<string>, v: Validators)
    requires data.password.Some?
    requires AllSpace(pad)
    ensures ValidateUser(data.(password := Some(data.password.value + pad)), partial, taken, v)
            == ValidateUser(data, partial, taken, v)
  {
    var p := data.password.value;
    assert "" + p + pad == p + pad;
    StripPadding("", p, pad);
    var data' := data.(password := Some(p + pad));
    assert FieldCheck("password", data'.password, partial) == FieldCheck("password", data.password, partial);
    assert PasswordFieldErrors(data', partial) == PasswordFieldErrors(data, partial);
    assert UserFieldErrors(data', partial, taken, v) == UserFieldErrors(data, partial, taken, v);
    assert Trimmed(data') == Trimmed(data);
  }

  /** `create`: `confirm_password` is removed and the rest goes to
      `create_user`, which needs a username and refuses an empty one, and
      stores the password hashed. A body without `confirm_password` fails on
      the removal. */
  function CreateUser(data: UserInput, id: UserId): (r: Result<User, UserError>)
    ensures r.Err? <==> data.confirmPassword.None? || data.username.None? || data.username.value == ""
    ensures data.confirmPassword.None? ==> r == Err(MissingKey("confirm_password"))
    ensures r.Ok? ==>
      && r.value.id == id
      && Some(r.value.username) == data.username && r.value.username != ""
      && r.value.email == data.email.GetOr("")
      && r.value.profileImageUrl == data.profileImageUrl
      && r.value.credential == (if data.password.Some? then Hashed(data.password.value) else Unusable)
      && !r.value.isStaff
  {
    if data.confirmPassword.None? then Err(MissingKey("confirm_password"))
    else if data.username.None? then Err(MissingArgument("username"))
    else if data.username.value == "" then Err(UsernameNotSet)
    else Ok(User(id, data.username.value, data.email.GetOr(""), data.profileImageUrl,
                 if data.password.Some? then Hashed(data.password.value) else Unusable, false))
  }

  /** A registration that validates always creates its user: a non-empty
      username no other user has, and the trimmed password, hashed. */
  lemma RegisteredUserCreated(data: UserInput, taken: set<string>, v: Validators, id: UserId)
    requires ValidateUser(data, false, taken, v).Ok?
    ensures var u := CreateUser(ValidateUser(data, false, taken, v).value, id);
      && u.Ok?
      && u.value.username == Strip(data.username.value) && u.value.username != "" && u.value.username !in taken
      && u.value.credential == Hashed(Strip(data.password.value))
  {
    RegistrationAccepted(data, taken, v);
  }

  /** The confirmation plays no part in the created user: two bodies that
      differ only in their (present) confirmation build the same user. */
  lemma CreateIgnoresConfirmation(data: UserInput, other: string, id: UserId)
    requires data.confirmPassword.Some?
    ensures CreateUser(data.(confirmPassword := Some(other)), id) == CreateUser(data, id)
  {
  }

  // ---------------------------------------------------------------------------
  // The activity log.

  datatype Activity = Activity(id: nat, user: UserId, action: Action, timestamp: Time, ipAddress: Option<string>)

  /** An activity request body. `id` and `timestamp` may be sent but are
      read-only and ignored. */
  datatype ActivityInput = ActivityInput(
    id: Option<nat>,
    user: Option<UserId>,
    action: Option<string>,
    timestamp: Option<Time>,
    ipAddress: Option<string>)

  datatype ActivityError =
    | ActivityRequired(field: string)
    | UnknownUser(pk: nat)
    | InvalidChoice(value: string)
    | InvalidIp

  function ActivityErrorMessage(e: ActivityError): string
  {
    match e
    case ActivityRequired(_) => "This field is required."
    case UnknownUser(pk) => InvalidPkMessage(pk)
    case InvalidChoice(s) => "\"" + s + "\" is not a valid choice."
    case InvalidIp => "Enter a valid IPv4 or IPv6 address."
  }

  /** The field errors of an activity body, in field order: `user` must name
      an existing user, `action` one of the choices, and a non-blank
      `ip_address` must, once trimmed, be an IP address. */
  function ActivityFieldErrors(input: ActivityInput, users: set<UserId>, isValidIp: string -> bool): seq<ActivityError>
  {
    (match input.user
     case None => [ActivityRequired("user")]
     case Some(u) => if u in users then [] else [UnknownUser(u)])
    + (match input.action
       case None => [ActivityRequired("action")]
       case Some(a) => if ParseAction(a).Some? then [] else [InvalidChoice(a)])
    + (match input.ipAddress
       case None => []
       case Some(ip) => if IsBlank(ip) || isValidIp(Strip(ip)) then [] else [InvalidIp])
  }

  function ActivityTime(a: Activity): real
  {
    a.timestamp as real
  }

  /** Newest first (`ordering = ['-timestamp']`). */
  predicate NewestFirst(log: seq<Activity>)
  {
    SortedDesc(log, ActivityTime)
  }

  /** The address that is stored: a blank one becomes null. */
  function StoredIp(ip: Option<string>): Option<string>
  {
    match ip
    case None => None
    case Some(s) => if IsBlank(s) then None else Some(Strip(s))
  }

  /** Recording an activity. The row gets the next id and the server clock,
      whatever the body says. The table is kept in insertion order; the
      newest-first order is applied when it is read. */
  function RecordActivity(log: seq<Activity>, input: ActivityInput, users: set<UserId>, isValidIp: string -> bool, nextId: nat, now: Time): (r: Result<seq<Activity>, seq<ActivityError>>)
    ensures r.Ok? <==>
      && input.user.Some? && input.user.value in users
      && input.action.Some? && ParseAction(input.action.value).Some?
      && (input.ipAddress.Some? && !IsBlank(input.ipAddress.value) ==> isValidIp(Strip(input.ipAddress.value)))
    ensures input.user.Some? && input.user.value !in users ==> r.Err? && UnknownUser(input.user.value) in r.error
    ensures input.action.Some? && ParseAction(input.action.value).None? ==> r.Err? && InvalidChoice(input.action.value) in r.error
    ensures r.Ok? ==>
      && |r.value| == |log| + 1
      && r.value[..|log|] == log
      && var a := r.value[|log|];
         a.id == nextId && a.user == input.user.value && a.timestamp == now
         && ActionCode(a.action) == input.action.value && a.ipAddress == StoredIp(input.ipAddress)
  {
    var errs := ActivityFieldErrors(input, users, isValidIp);
    if errs != [] then Err(errs)
    else Ok(log + [Activity(nextId, input.user.value, ParseAction(input.action.value).value, now, StoredIp(input.ipAddress))])
  }

  /** Client-supplied `id` and `timestamp` never reach the stored row. */
  lemma ReadOnlyActivityFields(log: seq<Activity>, input: ActivityInput, id': Option<nat>, ts': Option<Time>,
                               users: set<UserId>, isValidIp: string -> bool, nextId: nat, now: Time)
    ensures RecordActivity(log, input.(id := id', timestamp := ts'), users, isValidIp, nextId, now)
            == RecordActivity(log, input, users, isValidIp, nextId, now)
  {
  }

  /** The rows of one user, in table order. */
  function ActivitiesOf(log: seq<Activity>, user: UserId): (r: seq<Activity>)
    ensures forall a :: a in r <==> a in log && a.user == user
    ensures multiset(r) <= multiset(log)
  {
    if log == [] then []
    else
      var rest := ActivitiesOf(log[1..], user);
      assert log == [log[0]] + log[1..];
      if log[0].user == user then [log[0]] + rest else rest
  }

  /** The `activities` endpoint: the user's activity log, newest first. */
  function ListActivities(log: seq<Activity>, user: UserId): (r: seq<Activity>)
    ensures NewestFirst(r)
    ensures multiset(r) == multiset(ActivitiesOf(log, user))
    ensures forall a :: a in r <==> a in log && a.user == user
  {
    var own := ActivitiesOf(log, user);
    var r := SortDesc(own, ActivityTime);
    assert forall a :: a in r <==> a in multiset(r);
    assert forall a :: a in own <==> a in multiset(own);
    r
  }

  /** An activity recorded at a time no earlier than any logged one heads
      its user's list (up to activities with the very same time). */
  lemma LatestActivityFirst(log: seq<Activity>, input: ActivityInput, users: set<UserId>, isValidIp: string -> bool, nextId: nat, now: Time)
    requires RecordActivity(log, input, users, isValidIp, nextId, now).Ok?
    requires forall k :: 0 <= k < |log| ==> log[k].timestamp <= now
    ensures var list := ListActivities(RecordActivity(log, input, users, isValidIp, nextId, now).value, input.user.value);
      list != [] && list[0].timestamp == now
  {
    var log' := RecordActivity(log, input, users, isValidIp, nextId, now).value;
    var a := log'[|log|];
    var list := ListActivities(log', input.user.value);
    assert a in log';
    assert a in list;
    var k :| 0 <= k < |list| && list[k] == a;
    assert ActivityTime(list[0]) >= ActivityTime(a);
    assert list[0] in log';
    var j :| 0 <= j < |log'| && log'[j] == list[0];
    if j < |log| {
      assert log'[j] == log[j];
    }
  }

  /** Deleting a user removes their activities (`on_delete=CASCADE`) and
      keeps everyone else's. */
  function DeleteUserActivities(log: seq<Activity>, user: UserId): (r: seq<Activity>)
    ensures forall a :: a in r <==> a in log && a.user != user
    ensures multiset(r) <= multiset(log)
  {
    if log == [] then []
    else
      var rest := DeleteUserActivities(log[1..], user);
      assert log == [log[0]] + log[1..];
      if log[0].user != user then [log[0]] + rest else rest
  }

  /** After the cascade the user's activity list is empty; another user's
      list is unchanged. */
  lemma DeletedUserHasNoActivities(log: seq<Activity>, user: UserId, other: UserId)
    requires other != user
    ensures ListActivities(DeleteUserActivities(log, user), user) == []
    ensures forall a :: a in ListActivities(DeleteUserActivities(log, user), other) <==>
                        a in ListActivities(log, other)
  {
    var list := ListActivities(DeleteUserActivities(log, user), user);
    assert forall k :: 0 <= k < |list| ==> list[k] in list;
  }
}

=== FILE: wrappers.dfy ===
/** Failure-carrying datatypes shared by every module of the model: `Option` for
    nullable columns and absent request fields, `Result` for validators and
    operations that the source ends with a raised error. */
module Wrappers {

  datatype Option<+T> = None | Some(value: T) {

    /** The value, or `default` when absent (Python's `x or default` on a nullable). */
    function GetOr(default: T): T
    {
      match this
      case Some(v) => v
      case None => default
    }
  }

  datatype Result<+R, +E> = Ok(value: R) | Err(error: E) {

    predicate IsFailure()
    {
      Err?
    }

    function PropagateFailure<U>(): Result<U, E>
      requires Err?
    {
      Err(error)
    }

    function Extract(): R
      requires Ok?
    {
      value
    }
  }

  /** The entries of `xs` satisfying `keep`, in their original order
      (a `filter(...)` on a queryset whose ordering is already fixed). */
  function Filter<T(!new)>(xs: seq<T>, keep: T -> bool): (r: seq<T>)
    ensures |r| <= |xs|
    ensures forall x :: x in r <==> x in xs && keep(x)
    ensures multiset(r) <= multiset(xs)
  {
    if xs == [] then []
    else
      var rest := Filter(xs[1..], keep);
      assert xs == [xs[0]] + xs[1..];
      if keep(xs[0]) then [xs[0]] + rest else rest
  }

  /** No value occurs twice in `xs`. */
  predicate Distinct<T(==)>(xs: seq<T>)
  {
    forall i, j :: 0 <= i < j < |xs| ==> xs[i] != xs[j]
  }

  /** A sequence is duplicate-free exactly when no value occurs in it twice
      as a multiset. */
  lemma {:induction false} DistinctIffSingleCopies<T>(xs: seq<T>)
    ensures Distinct(xs) <==> forall x :: multiset(xs)[x] <= 1
  {
    if xs != [] {
      var t := xs[1..];
      assert xs == [xs[0]] + t;
      DistinctIffSingleCopies(t);
      assert multiset(xs) == multiset{xs[0]} + multiset(t);
      if Distinct(xs) {
        assert Distinct(t) by {
          forall i, j | 0 <= i < j < |t| ensures t[i] != t[j] {
            assert t[i] == xs[i + 1] && t[j] == xs[j + 1];
          }
        }
      } else {
        var i, j :| 0 <= i < j < |xs| && xs[i] == xs[j];
        if i == 0 {
          assert xs[0] == t[j - 1];
          assert multiset(xs)[xs[0]] >= 2;
        } else {
          assert t[i - 1] == t[j - 1];
          var x :| multiset(t)[x] > 1;
          assert multiset(xs)[x] > 1;
        }
      }
    }
  }

  /** Whatever is drawn from a duplicate-free sequence without repetition
      (a sub-multiset) is duplicate-free. */
  lemma SubMultisetDistinct<T>(a: seq<T>, b: seq<T>)
    requires Distinct(b) && multiset(a) <= multiset(b)
    ensures Distinct(a)
  {
    DistinctIffSingleCopies(a);
    DistinctIffSingleCopies(b);
  }

  /** A sub-multiset as large as the whole is the whole. */
  lemma SubMultisetSameSize<T>(a: multiset<T>, b: multiset<T>)
    requires a <= b && |a| == |b|
    ensures a == b
  {
    var d := b - a;
    assert |d| == 0 by {
      assert b == a + d;
    }
    assert d == multiset{};
    assert b == a + d;
  }
}
